=== FILE: README.md ===
# tiup playground-ng runtime files and the tuiv2 progress engine, in Dafny

This project models two parts of tiup.

**playground-ng runtime files.** A playground data directory is owned through two files:
- `pid` names the owning process: its pid, its start time in RFC 3339, and the tag it runs under.
- `port` names the port of its command server.

The model covers:
- reading the pid file;
- the liveness checks: signal 0 sent directly with kill(pid, 0) (the `signal0` oracle), and the `/ping` and `/command` probe of the command server;
- `killProcessOrGroup`, which picks the process or its group as the target of a signal;
- removing the files a dead owner left behind (cleanup);
- claiming the directory by creating the pid file exclusively;
- waiting for a playground to stop.

The directory and the host are abstract. The directory is what reading and stat-ing the pid file, and loading the port file, would show. The host is a pair of oracles: kill(pid, 0) and the probe of a port. A removal is returned as the set of files removed.

**tuiv2 progress.** Progress is an append-only stream of events:
- the events themselves;
- the engine that folds them into group and task records;
- the `Group` and `Task` handles that emit them;
- the `UI` that stamps, numbers and buffers them (including the line buffer behind `UI.Writer`);
- the plain renderer's line-by-line output;
- the decisions the TTY renderer makes: which tasks are visible, their order, when a group collapses to its header, the "... and N more" line, and the download percentage, bar and meta.

Time is a count of milliseconds, and 0 stands for Go's zero time. Where the source falls back on `time.Now()`, the model takes the clock reading as a parameter.

Modules, one per source concern:

| file | module | models |
|---|---|---|
| base.dfy | Base | `Option`, `Result` |
| text.dfy | Text | the Go string and number helpers the core relies on (`TrimSpace`, `Split`, `IndexByte`, `TrimSuffix`, `Atoi`, `%d`, ASCII `ToLower`, `<` on strings, `Repeat`) |
| rfc3339.dfy | Rfc3339 | the RFC 3339 timestamps of the pid file |
| pid_record.dfy | PidRecord | `readPIDFile` and the record `claimPlaygroundPIDFile` writes |
| probe.dfy | Probe | `probePlaygroundCommandServer`, `isTimeoutErr` |
| kill.dfy | Kill | `killProcessOrGroup` (Unix) |
| runtime_files.dfy | RuntimeFiles | `isPIDRunning`, `cleanupStaleRuntimeFiles`, `claimPlaygroundPIDFile`, `waitPlaygroundStopped` |
| events.dfy | Events | `Event`, event types, statuses, kinds |
| state.dfy | State | `engineState` and `applyEvent` |
| state_props.dfy | StateProps | the engine's invariants and per-event specifications |
| handles.dfy | Handles | `Group` and `Task` methods |
| writer.dfy | Writer | the line buffer of `uiWriter` |
| ui.dfy | Ui | `UI`: mode resolution, emit, `Group`, `Writer`, `PrintLines`, `Sync`, `Close`, the plain event loop |
| session.dfy | Session | any sequence of public calls on one UI |
| plain.dfy | Plain | `plainRenderer` |
| tty.dfy | Tty | the TTY components' structure |

## Model

| member | source | states |
|---|---|---|
| Text.TrimLeft | components/playground-ng/daemon_files.go:57 | the leading white space is dropped: the result is the longest suffix not starting with a space, and everything dropped was white space |
| Text.TrimRight | components/playground-ng/daemon_files.go:57 | the trailing white space is dropped: the result is the longest prefix not ending with a space, and everything dropped was white space |
| Text.TrimLeftUnique | components/playground-ng/daemon_files.go:57 | any suffix that starts with a non-space and drops only spaces is the left trim, so the left trim is uniquely determined |
| Text.TrimRightUnique | components/playground-ng/daemon_files.go:57 | any prefix that ends with a non-space and drops only spaces is the right trim |
| Text.TrimSpaceOfTrimRight | components/playground-ng/daemon_files.go:57 | trimming the two ends commutes, so trimming an already right-trimmed text gives the full trim |
| Text.TrimSpaceKeeps | components/playground-ng/daemon_files.go:57 | a text that neither starts nor ends with white space is unchanged by TrimSpace |
| Text.TrimSpaceAfterPrefix | components/playground-ng/daemon_files.go:57 | after a prefix with non-space ends, only the tail's trailing space is trimmed |
| Text.TrimCR | pkg/tuiv2/progress/writer.go:46 | at most one trailing carriage return is removed, exactly when there is one |
| Text.IndexOf | pkg/tuiv2/progress/writer.go:37 | the index is -1 exactly when the byte is absent; otherwise it holds the byte and no earlier position does |
| Text.IndexOfAt | pkg/tuiv2/progress/writer.go:37 | a position holding the byte with none before it is what IndexOf finds |
| Text.Split | components/playground-ng/daemon_files.go:55 | there is always at least one piece |
| Text.SplitPieces | components/playground-ng/daemon_files.go:55 | no piece of a split contains the separator |
| Text.JoinSplit | components/playground-ng/daemon_files.go:55 | joining the pieces of a split with the separator gives back the text |
| Text.SplitJoin | components/playground-ng/daemon_files.go:55 | splitting a join of separator-free pieces gives back the pieces |
| Text.NatDigitsValue | components/playground-ng/daemon_files.go:275 | the decimal digits that `%d` prints for a natural number have its value |
| Text.Atoi | components/playground-ng/daemon_files.go:68 | a text is accepted exactly when it is an optional sign and one or more digits whose magnitude fits int64 (up to 2^63 after a minus, 2^63 - 1 otherwise); the value is the digits' value, negated after a minus; a negative value comes only from a leading minus |
| Text.AtoiItoa | components/playground-ng/daemon_files.go:68 | printing an int64 with `%d` and parsing it with Atoi gives back the number |
| Text.ToLowerChars | pkg/tuiv2/progress/tty_components.go:73 | lower-casing maps each character on its own: `A` to `Z` become `a` to `z`, everything else stays; no upper-case ASCII letter remains |
| Text.ToLowerIdempotent | pkg/tuiv2/progress/tty_components.go:73 | lower-casing twice is lower-casing once |
| Text.LessTotal | pkg/tuiv2/progress/tty_components.go:73 | the string order is total: two different texts are ordered one way or the other |
| Text.LessAsymmetric | pkg/tuiv2/progress/tty_components.go:73 | no two texts are each less than the other |
| Text.LessTransitive | pkg/tuiv2/progress/tty_components.go:73 | the string order is transitive |
| Text.TrimSpaceIdempotent | components/playground-ng/daemon_files.go:57 | a trimmed text has no white space at either end, so trimming it again changes nothing |
| Text.Repeat | pkg/tuiv2/progress/tty_components.go:378-397 | a repeated glyph has the given length and only that glyph |
| Rfc3339.Field | components/playground-ng/daemon_files.go:78 | a fixed-width field is accepted exactly when it is all digits within its range; its value is the digits' value, within the range and below 10 to the power of the width |
| Rfc3339.PadField | components/playground-ng/daemon_files.go:78 | the writer's zero-padded two- and four-digit fields read back to the same number exactly when it is within the field's range |
| Rfc3339.DigitRun | components/playground-ng/daemon_files.go:78 | the run of digits of a fraction is digits only and ends at the first non-digit |
| Rfc3339.ParseZone | components/playground-ng/daemon_files.go:78 | a zone is accepted exactly when it is `Z` (offset 0) or a sign, two hour digits up to 23, a colon and two minute digits up to 59; the offset is the signed number of minutes, strictly within a day |
| Rfc3339.Parse | components/playground-ng/daemon_files.go:78 | an accepted timestamp has valid civil fields (month lengths and leap years included) and fewer than 10^9 nanoseconds |
| Rfc3339.FractionBound | components/playground-ng/daemon_files.go:78 | a fraction of any length gives fewer than 10^9 nanoseconds |
| Rfc3339.Format | components/playground-ng/daemon_files.go:273 | a UTC time is printed in 20 characters |
| Rfc3339.ParseFormat | components/playground-ng/daemon_files.go:273 | a formatted time parses back to the same fields, in UTC, with no fraction |
| PidRecord.Classify | components/playground-ng/daemon_files.go:57-86 | a line is blank exactly when it trims to nothing; it is a pid, started_at or tag line exactly when its trimmed text starts with that key (the keys exclude one another); the value is the rest after the key, trimmed, so it has no white space at either end |
| PidRecord.FoldAccepts | components/playground-ng/daemon_files.go:56-88 | the loop succeeds exactly when every line is accepted; otherwise it fails with the error of the first rejected line |
| PidRecord.StepOk | components/playground-ng/daemon_files.go:62-87 | a line is accepted exactly when it is not an empty pid, a bad pid or a bad non-empty started_at; each key updates only its own field |
| PidRecord.FoldPid | components/playground-ng/daemon_files.go:62-74 | the pid read is that of the last pid line |
| PidRecord.FoldStarted | components/playground-ng/daemon_files.go:75-84 | started_at is the last non-empty one; empty values are skipped |
| PidRecord.FoldTag | components/playground-ng/daemon_files.go:85-86 | the tag is the last tag line's, trimmed, even when empty |
| PidRecord.ReadLinesSpec | components/playground-ng/daemon_files.go:46-94 | the file is accepted exactly when every line is and some line gives a pid; "missing pid" exactly when every line is accepted but none is a pid line; on success the fields are the last ones given |
| PidRecord.ReadFormatRecord | components/playground-ng/daemon_files.go:272-275 | the record the claimer writes reads back to its pid, start time and trimmed tag |
| PidRecord.SplitRecord | components/playground-ng/daemon_files.go:275 | the written record splits into its three lines and an empty last piece |
| Probe.AliveIff | components/playground-ng/daemon_files.go:110-168 | the server is alive exactly when the port is positive and either `/ping` answers pong, or `/ping` falls back and `/command` refuses a GET with 405 and "method not allowed" |
| Probe.PingDecides | components/playground-ng/daemon_files.go:120-141 | a 200 reply to `/ping` decides alone, and a 200 that is not pong means not alive |
| Probe.TimeoutOnlyFromNetwork | components/playground-ng/daemon_files.go:29-38 | a timeout is reported only when a request or a body read timed out |
| Kill.KillProcessOrGroup | components/playground-ng/kill_unix.go:8-24 | nothing is sent for a non-positive pid or signal 0; otherwise exactly one kill goes to the pid or its group, and its error is returned |
| Kill.GroupOnlyWhenLeader | components/playground-ng/kill_unix.go:8-24 | the group is signalled exactly when the process leads its own group; otherwise the process itself is |
| RuntimeFiles.ReadPid | components/playground-ng/daemon_files.go:46-50 | "not exist" exactly when there is no pid file; a parsed record is what readPIDFile gives for the contents |
| RuntimeFiles.RemoveCompose | components/playground-ng/daemon_files.go:331-340 | removing nothing changes nothing; two removals are one removal of both sets, in either order; repeating a removal changes nothing more |
| RuntimeFiles.IsPidRunning | components/playground-ng/daemon_files.go:96-108 | a non-positive pid is an error; running exactly when signal 0 succeeds or gets EPERM; stopped exactly when it gets ESRCH |
| RuntimeFiles.CleanupSafety | components/playground-ng/daemon_files.go:170-253 | a file is removed only on evidence that its owner is gone, and the removals are both files, the port file alone, or nothing |
| RuntimeFiles.CleanupParsedPid | components/playground-ng/daemon_files.go:180-190 | a parsed pid decides alone: a live one is "already running", a dead one removes both files, a non-positive one is an error |
| RuntimeFiles.CleanupGraceWindow | components/playground-ng/daemon_files.go:191-200 | an unparsable pid file younger than two seconds is left to its writer |
| RuntimeFiles.CleanupStalePid | components/playground-ng/daemon_files.go:202-219 | for an old unparsable pid file, a live or hanging command server keeps both files, and a silent port removes both |
| RuntimeFiles.CleanupNoPid | components/playground-ng/daemon_files.go:223-252 | without a pid file the port file alone is judged: no file or a non-positive port removes nothing, a live server or a timeout refuses, a silent port removes the port file |
| RuntimeFiles.Observed | components/playground-ng/daemon_files.go:191-196 | a pid file that could not be read and that stat finds gone counts as no pid file; nothing else changes |
| RuntimeFiles.CleanupObserved | components/playground-ng/daemon_files.go:191-227 | cleanup judges a pid file that vanished before its stat exactly as it judges no pid file at all |
| RuntimeFiles.CleanupLeavesNoPidFile | components/playground-ng/daemon_files.go:170-253 | after any successful cleanup no pid file is left, including when the pid file vanished before its stat, and the port file is as the removals leave it |
| RuntimeFiles.Claim | components/playground-ng/daemon_files.go:255-295 | a successful claim leaves the claimer's own pid file |
| RuntimeFiles.Attempt | components/playground-ng/daemon_files.go:271-294 | each pass of the create loop that succeeds leaves the claimer's pid file |
| RuntimeFiles.Release | components/playground-ng/daemon_files.go:285 | the release function removes the pid file and nothing else |
| RuntimeFiles.ClaimQuiet | components/playground-ng/daemon_files.go:255-295 | with no rival and no I/O failure, on any directory, the claim succeeds exactly when cleanup does, reports cleanup's refusal as "in use" otherwise, and leaves its pid file beside the port file cleanup kept |
| RuntimeFiles.ClaimOverVanishedPidFile | components/playground-ng/daemon_files.go:191-285 | a pid file that vanished between the read and the stat, with no port file, does not block a quiet claim: it succeeds and leaves only its own pid file |
| RuntimeFiles.AttemptFailure | components/playground-ng/daemon_files.go:271-294 | an "in use" error carries cleanup's verdict on the directory it leaves; a failed create, write or close leaves no pid file |
| RuntimeFiles.ClaimFailure | components/playground-ng/daemon_files.go:255-268 | an empty data dir or tag is rejected before anything is touched, and an "in use" error carries cleanup's verdict |
| RuntimeFiles.SecondClaimRefused | components/playground-ng/daemon_files.go:255-295 | while the first claimer is alive, a second claim is refused as running, and the directory is left as it was |
| RuntimeFiles.ClaimedPidFileReads | components/playground-ng/daemon_files.go:272-275 | the pid file a claim writes reads back to the claimer's pid, start time and trimmed tag |
| RuntimeFiles.ClaimRefused | components/playground-ng/daemon_files.go:265-267 | when cleanup refuses, the claim fails with that cause and changes nothing |
| RuntimeFiles.EffectiveTimeout | components/playground-ng/daemon_files.go:301-303 | a non-positive timeout means one minute; a positive one is kept |
| RuntimeFiles.CheckAt | components/playground-ng/daemon_files.go:305-349 | the deadline check after poll k comes at least k times 200 ms after the deadline was set, however long the polls take |
| RuntimeFiles.LastPoll | components/playground-ng/daemon_files.go:346-349 | the last poll is the first whose deadline check falls after the deadline, every earlier check falling before it; there are at most timeout / 200 + 2 polls, however long each takes |
| RuntimeFiles.WaitFromSpec | components/playground-ng/daemon_files.go:305-350 | the wait stops at the first poll that finds the owner gone, up to the first poll checked after the deadline; it times out exactly when every poll until then finds the owner there |
| RuntimeFiles.WaitSpec | components/playground-ng/daemon_files.go:297-351 | the whole wait times out exactly when no poll up to the last finds the owner gone; the default wait makes at most 302 polls |
| RuntimeFiles.IdealLastPoll | components/playground-ng/daemon_files.go:346-349 | when the polls themselves take no time, the bound is reached: exactly timeout / 200 + 2 polls |
| RuntimeFiles.PollOnceSpec | components/playground-ng/daemon_files.go:309-344 | a poll removes nothing once the pid file is absent, the pid file alone exactly when its pid is dead, and both files exactly when an old unparsable pid file meets a silent port |
| Events.ParseType | pkg/tuiv2/progress/event.go:11-30 | every wire name decodes to a type whose name is that same text |
| Events.TypeNameRoundTrip | pkg/tuiv2/progress/event.go:11-30 | each type's name decodes back to the type, and a known name never decodes to an unknown type |
| Events.StatusNames | pkg/tuiv2/progress/event.go:35-45 | a name decodes to a status exactly when it is that status's name; there are seven statuses, with distinct names |
| Events.ParseKind | pkg/tuiv2/progress/state.go:285-292 | the download kind is chosen exactly by the name "download" |
| Events.Bare | pkg/tuiv2/progress/event.go:61-107 | an event of a type with every optional field unset |
| Events.PrintLinesOf | pkg/tuiv2/progress/event.go:12-15 | a print event carries its lines as given |
| Events.Finishes | pkg/tuiv2/progress/state.go:229-232 | a group close is a normal close unless Finished is explicitly false |
| State.EmptyValid | pkg/tuiv2/progress/state.go:126-131 | a new engine state is well formed |
| State.Members | pkg/tuiv2/progress/state.go:40-53 | the records behind a task list are among the known tasks, skipping unknown ids, and all of them when every id is known |
| State.AnyActive | pkg/tuiv2/progress/state.go:40-53 | true exactly when some task is running or retrying |
| State.CanAutoSeal | pkg/tuiv2/progress/state.go:40-53 | a group can auto-seal exactly when it is closed, not sealed, has tasks and none is active |
| State.LastEnd | pkg/tuiv2/progress/state.go:62-75 | the latest end time among the tasks, bounding them all, or zero |
| State.ElapsedSpec | pkg/tuiv2/progress/state.go:55-88 | zero before the group starts; up to now while a task is active; otherwise up to the latest of the close and the task ends |
| State.HasRunningFrom | pkg/tuiv2/progress/state.go:133-151 | true exactly when some listed group is known, unsealed and has an active task |
| State.ApplyGroupAdd | pkg/tuiv2/progress/state.go:181-202 | existing groups and all tasks are left as they were |
| State.ApplyGroupUpdate | pkg/tuiv2/progress/state.go:204-221 | only the named, unsealed group changes |
| State.ApplyGroupClose | pkg/tuiv2/progress/state.go:223-243 | only the named, unsealed group changes |
| State.ApplyTaskAdd | pkg/tuiv2/progress/state.go:245-278 | existing tasks keep their records, and only the named, unsealed group changes |
| State.ApplyTaskUpdate | pkg/tuiv2/progress/state.go:280-309 | only the named task of an open group changes, and its reveal delay is never negative |
| State.ClampNonNegative | pkg/tuiv2/progress/state.go:314-322 | a negative value reads as zero; others are kept |
| State.ApplyTaskProgress | pkg/tuiv2/progress/state.go:311-329 | only the named task of an open group changes; groups are untouched |
| State.EnsureStarted | pkg/tuiv2/progress/state.go:367-377 | only start times change, a set one is kept, and a nonzero now leaves both set |
| State.ApplyTaskState | pkg/tuiv2/progress/state.go:379-445 | only the named task of an open group and its own group change |
| State.ApplyEvent | pkg/tuiv2/progress/state.go:153-179 | only group adds change the group order; print, sync and unknown events change nothing |
| StateProps.ApplyKeepsValid | pkg/tuiv2/progress/state.go:153-179 | every event keeps the state well formed: ids known, each task owned by its group's list exactly once, the order listing each group once |
| StateProps.GroupAddKeepsValid | pkg/tuiv2/progress/state.go:181-202 | a group add keeps the state well formed |
| StateProps.GroupUpdateKeepsValid | pkg/tuiv2/progress/state.go:204-221 | a group update keeps the state well formed |
| StateProps.GroupCloseKeepsValid | pkg/tuiv2/progress/state.go:223-243 | a group close keeps the state well formed |
| StateProps.TaskAddKeepsValid | pkg/tuiv2/progress/state.go:245-278 | a task add keeps the state well formed |
| StateProps.NewTaskKeepsValid | pkg/tuiv2/progress/state.go:265-277 | adding a fresh task to a known group and its list keeps the state well formed |
| StateProps.TaskUpdateKeepsValid | pkg/tuiv2/progress/state.go:280-309 | a task update keeps the state well formed |
| StateProps.TaskProgressKeepsValid | pkg/tuiv2/progress/state.go:311-329 | a progress event keeps the state well formed |
| StateProps.TaskStateKeepsValid | pkg/tuiv2/progress/state.go:379-445 | a status event keeps the state well formed |
| StateProps.SealedIsFrozen | pkg/tuiv2/progress/state.go:153-445 | no event changes a sealed group or any of its tasks |
| StateProps.GroupAddSpec | pkg/tuiv2/progress/state.go:181-202 | a new, nonzero id appends one open group, started now, with its title; a zero or known id changes nothing |
| StateProps.GroupCloseSpec | pkg/tuiv2/progress/state.go:223-243 | Finished=false seals the group; otherwise the first close records its time and later ones keep it |
| StateProps.CloseIdempotent | pkg/tuiv2/progress/state.go:223-243 | a second close or seal, at any time, leaves the state the first left |
| StateProps.GroupUpdateSpec | pkg/tuiv2/progress/state.go:204-221 | each option present in the event replaces the group's, and the group keeps its tasks and times |
| StateProps.TaskAddSpec | pkg/tuiv2/progress/state.go:245-278 | a fresh id in an open group adds a task, pending with no start or running from now, appended to the group's list; anything else changes nothing |
| StateProps.TerminalOnlyToPending | pkg/tuiv2/progress/state.go:389-441 | the only way out of done, error, skipped or canceled is back to pending |
| StateProps.TransitionRules | pkg/tuiv2/progress/state.go:389-441 | which status moves are accepted: pending from any status; done only from running or retrying; error from pending, running or retrying; running, retrying, skipped and canceled only from a status that has not ended |
| StateProps.TaskStateSpec | pkg/tuiv2/progress/state.go:379-445 | an accepted move sets the status, the end time for an ending status, a zero start time of the task and its group when starting, and the message when one is given; a rejected move changes nothing |
| StateProps.UnknownStatusIgnored | pkg/tuiv2/progress/state.go:385-388 | an event without a recognised status changes nothing |
| StateProps.StartIsRepeatable | pkg/tuiv2/progress/state.go:396-402 | starting a running task again keeps it running from its original start |
| StateProps.ProgressSpec | pkg/tuiv2/progress/state.go:311-329 | total and current take the event's values with negatives read as 0, and only while the task has not ended |
| Handles.GroupEvent | pkg/tuiv2/progress/group.go:18-134 | each Group method sends one event naming only the group: Close and Seal send a close, with Finished=false for Seal; each setter fills only its own field |
| Handles.CallGroup | pkg/tuiv2/progress/group.go:18-30 | a live handle emits the method's event, and SetTitle also renames the handle |
| Handles.TaskAddOf | pkg/tuiv2/progress/group.go:87-103 | the task-add event names the group and the new task, with its title and pending flag |
| Handles.NewTask | pkg/tuiv2/progress/group.go:78-103 | a live group gets a task with the next id and one task-add event; otherwise a detached handle and no event |
| Handles.RevealMs | pkg/tuiv2/progress/task.go:21-37 | a negative delay reads as 0, and a positive one is truncated to whole milliseconds |
| Handles.TaskEvent | pkg/tuiv2/progress/task.go:21-200 | each Task method sends one event naming only the task: a status exactly for the status methods, a total or current exactly for progress |
| Handles.CallTask | pkg/tuiv2/progress/task.go:21-200 | a live handle emits the method's event; a detached one does nothing |
| Handles.GroupOpEffect | pkg/tuiv2/progress/group.go:18-134 | a Group method's event does what the method names, to its open group only |
| Handles.CloseSealIdempotent | pkg/tuiv2/progress/group.go:108-134 | Close and Seal applied twice leave what applying them once left |
| Handles.TaskPendingDiffers | pkg/tuiv2/progress/group.go:78-86 | Task and TaskPending differ only in the pending flag of their event |
| Handles.NewTaskEffect | pkg/tuiv2/progress/group.go:87-103 | a new task joins its open group: pending with no start, or running from now |
| Handles.TaskOpFrame | pkg/tuiv2/progress/task.go:21-200 | a Task method changes at most its own task |
| Handles.TaskOptionEffect | pkg/tuiv2/progress/task.go:21-110 | each option setter changes only its own field |
| Handles.TaskProgressEffect | pkg/tuiv2/progress/task.go:113-138 | SetTotal and SetCurrent move only their own value, only before the task ends, and read negatives as 0 |
| Handles.TaskStatusEffect | pkg/tuiv2/progress/task.go:54-200 | a status method moves the task exactly when the transition rules accept it, with its message; Start and Done keep the message |
| Handles.StartRepeatable | pkg/tuiv2/progress/task.go:54-65 | Start on a running task changes nothing |
| Handles.DetachedIsSilent | pkg/tuiv2/progress/group.go:78-103 | a detached handle, or one on a closed UI, sends nothing and creates only detached tasks |
| Writer.TrimEach | pkg/tuiv2/progress/writer.go:46 | each completed line loses one trailing carriage return |
| Writer.Feed | pkg/tuiv2/progress/writer.go:19-61 | completed lines and the new buffer contain no newline |
| Writer.WriteLoop | pkg/tuiv2/progress/writer.go:19-61 | the loop completes the same lines and leaves the same buffer as splitting the buffer plus the write at every newline |
| Writer.NoNewlineBuffers | pkg/tuiv2/progress/writer.go:38-41 | a write without a newline completes nothing and only grows the buffer |
| Writer.BlankLine | pkg/tuiv2/progress/writer.go:19-61 | a lone newline after an empty buffer is one blank line |
| Writer.SplitTerminated | pkg/tuiv2/progress/writer.go:19-61 | newline-terminated lines and a tail are cut back into those lines and that tail |
| Writer.FeedRoundTrip | pkg/tuiv2/progress/writer.go:19-61 | the completed lines, each followed by a newline, and then the buffer, give back the old buffer and the write, minus the carriage returns stripped |
| Writer.TwoWrites | pkg/tuiv2/progress/writer.go:19-61 | two writes complete the same lines and leave the same buffer as one write of both |
| Writer.Drain | pkg/tuiv2/progress/writer.go:63-74 | the buffer empties, and the partial line is returned without one trailing carriage return |
| Ui.ResolveMode | pkg/tuiv2/progress/ui.go:317-336 | Off and Plain are kept; TTY and Auto give TTY exactly when the terminal can be controlled; the result is never Auto |
| Ui.ResolveNew | pkg/tuiv2/progress/ui.go:76-130 | a TTY needs a controllable terminal and a real file, and otherwise falls back to plain; Off is kept |
| Ui.New | pkg/tuiv2/progress/ui.go:76-130 | a new UI is open, has sent nothing, has an empty buffer and a zero counter |
| Ui.Stamp | pkg/tuiv2/progress/ui.go:345-347 | only a zero time is replaced, by the clock's |
| Ui.Emit | pkg/tuiv2/progress/ui.go:338-358 | an open UI outside Off appends exactly the stamped event; otherwise nothing changes |
| Ui.EmitForced | pkg/tuiv2/progress/ui.go:360-380 | as emit, but a closing UI still sends |
| Ui.NextId | pkg/tuiv2/progress/ui.go:186 | the counter is incremented before use, so ids are nonzero |
| Ui.NewGroup | pkg/tuiv2/progress/ui.go:182-196 | an open UI hands out the next id and emits its group add; a closed one a detached handle |
| Ui.GroupAddOf | pkg/tuiv2/progress/ui.go:187-194 | the group-add event names the new id and title |
| Ui.Write | pkg/tuiv2/progress/writer.go:19-61 | the whole write is reported written; an open UI outside Off buffers the partial line and sends the completed lines as one print event |
| Ui.Drained | pkg/tuiv2/progress/writer.go:63-74 | the drained partial line contributes itself when it is not empty |
| Ui.PrintLines | pkg/tuiv2/progress/ui.go:291-315 | the drained partial line and the lines go out as one print event, nothing when both are empty, and the buffer is drained either way |
| Ui.SyncOf | pkg/tuiv2/progress/ui.go:234-247 | the sync event carries the waiter's id |
| Ui.Sync | pkg/tuiv2/progress/ui.go:218-263 | the partial line is flushed first, then one sync with a fresh id |
| Ui.Close | pkg/tuiv2/progress/ui.go:144-179 | the first close marks the UI closed and sends the partial line even so; later closes change nothing |
| Ui.CloseIdempotent | pkg/tuiv2/progress/ui.go:144-179 | a second close, at any time, changes nothing |
| Ui.ClosedIsSilent | pkg/tuiv2/progress/ui.go:338-358 | a closed UI sends nothing more, whatever is called |
| Ui.CallsKeepBuffer | pkg/tuiv2/progress/writer.go:19-74 | every call keeps the partial line free of newlines, and empty in Off |
| Ui.WritesThenClose | pkg/tuiv2/progress/writer.go:19-74 | two writes and a close send the same lines as one write of both and a close |
| Ui.LinesAppend | pkg/tuiv2/progress/ui.go:291-315 | the printed lines of two streams are those of each, in turn |
| Ui.EventTime | pkg/tuiv2/progress/ui.go:416-419 | an event is processed at its own time, or at the clock's when it has none |
| Ui.ProcessPlainEvent | pkg/tuiv2/progress/ui.go:415-432 | a sync only answers its waiter (id 0 answers nothing); any other event is logged, applied and rendered |
| Ui.NonSync | pkg/tuiv2/progress/ui.go:415-432 | the selected events are never syncs |
| Ui.SyncIds | pkg/tuiv2/progress/ui.go:274-285 | the answered waiter ids are nonzero |
| Ui.LogOf | pkg/tuiv2/progress/eventlog.go:22-31 | one log entry per event |
| Ui.RunPlainLogsAllButSync | pkg/tuiv2/progress/ui.go:382-432 | over a whole stream, the log holds exactly the non-sync events, in order, and syncs answer their waiters in order without reaching the engine or the output |
| Ui.SyncOnlyStream | pkg/tuiv2/progress/ui.go:415-424 | a stream of syncs changes nothing but the answered ids |
| Ui.PrintStreamVerbatim | pkg/tuiv2/progress/plain.go:67-70 | print events reach the output verbatim and in order, and leave the engine alone |
| Session.MakeGroupKeepsFresh | pkg/tuiv2/progress/ui.go:182-196 | UI.Group keeps the stream's ids fresh |
| Session.MakeTaskKeepsFresh | pkg/tuiv2/progress/group.go:87-103 | creating a task keeps the stream's ids fresh |
| Session.HandleCallKeepsFresh | pkg/tuiv2/progress/task.go:21-200 | other handle methods send no new id and keep the counter |
| Session.OutputKeepsFresh | pkg/tuiv2/progress/ui.go:291-315 | Write, PrintLines and Close send no new id and keep the counter |
| Session.SyncKeepsFresh | pkg/tuiv2/progress/ui.go:218-263 | Sync keeps the stream's ids fresh |
| Session.StepKeepsIdsFresh | pkg/tuiv2/progress/ui.go:182-263 | every public call keeps ids fresh and never moves the counter back |
| Session.SessionIdsFresh | pkg/tuiv2/progress/ui.go:182-263 | after any sequence of calls on a new UI, the ids of groups, tasks and syncs are nonzero, at most the counter, and strictly increasing in sending order |
| Session.FreshIdsDistinct | pkg/tuiv2/progress/ui.go:186 | so no id is handed out twice |
| Plain.WithGroup | pkg/tuiv2/progress/plain.go:37-51 | the details alone without a group title, otherwise the title, " \| " and the details |
| Plain.DownloadSize | pkg/tuiv2/progress/plain.go:142-167 | "?" until a positive total is known, then the total's size |
| Plain.MaybeGenericStart | pkg/tuiv2/progress/plain.go:118-140 | at most one start line per task: none once printed, otherwise exactly one |
| Plain.MaybeDownloadStart | pkg/tuiv2/progress/plain.go:142-167 | at most one start line per running download, and nothing changes when none is printed |
| Plain.RenderEvent | pkg/tuiv2/progress/plain.go:61-116 | only print, task-update and task-state events print; print events print their lines; a task event prints at most one line, and nothing for a task it cannot see |
| Plain.TaskStateDispatch | pkg/tuiv2/progress/plain.go:80-113 | the line a status prints: a start line for running, a retry, error, skipped or canceled line for those, nothing for done or pending |
| Plain.RenderTouchesOnlyFlags | pkg/tuiv2/progress/plain.go:61-116 | rendering changes only the printed-once flags and a zero start time of the one task |
| Plain.StartLinesTouchOnlyFlags | pkg/tuiv2/progress/plain.go:118-167 | the start-line printers change only the printed-once flags and a zero start time |
| Plain.StartLineOnce | pkg/tuiv2/progress/plain.go:118-140 | a start line is printed once: the flag is set afterwards, and a set flag prints nothing |
| Plain.ApplyKeepsFlags | pkg/tuiv2/progress/state.go:153-179 | applying an event never clears a printed-once flag |
| Plain.DownloadStartLine | pkg/tuiv2/progress/plain.go:142-167 | a download start line names the size, or "?" while no positive total is known |
| Plain.PrintLinesVerbatim | pkg/tuiv2/progress/plain.go:67-70 | a print event prints its lines in order, nothing else, and changes no state |
| Tty.RevealIsMonotone | pkg/tuiv2/progress/tty_components.go:30-56 | a running hide-if-fast task, once revealed, stays revealed as time passes |
| Tty.HiddenWhenFastAndFine | pkg/tuiv2/progress/tty_components.go:30-56 | a hide-if-fast task that ended well, or has not started, is never shown |
| Tty.HideIfFastExamples | pkg/tuiv2/progress/tty_components_test.go:53-92 | a fast success is hidden, a slow running task is revealed, an error is shown |
| Tty.BeforeIsKeyLess | pkg/tuiv2/progress/tty_components.go:64-75 | the Go comparison is the order on keys: a present task before a missing one, else by lower-cased title |
| Tty.KeyIrreflexive | pkg/tuiv2/progress/tty_components.go:64-75 | no key sorts before itself |
| Tty.KeyTransitive | pkg/tuiv2/progress/tty_components.go:64-75 | the key order is transitive |
| Tty.KeyTotal | pkg/tuiv2/progress/tty_components.go:64-75 | two different keys are ordered one way or the other |
| Tty.SortSpec | pkg/tuiv2/progress/tty_components.go:64-75 | the stable sort is a permutation, sorted by key, and keeps the order of equal keys |
| Tty.TitleSortOrder | pkg/tuiv2/progress/tty_components.go:64-75 | the sorted tasks are a permutation, no task comes before one it should follow, and equal titles keep their order |
| Tty.InsertSorted | pkg/tuiv2/progress/tty_components.go:64-75 | inserting into a sorted sequence keeps it sorted |
| Tty.InsertStable | pkg/tuiv2/progress/tty_components.go:64-75 | insertion puts the element after every element with its key |
| Tty.InsertPermutes | pkg/tuiv2/progress/tty_components.go:64-75 | insertion keeps the elements and adds the new one once |
| Tty.Lookup | pkg/tuiv2/progress/tty_components.go:62-63 | one entry per id, the task's record or missing |
| Tty.Ordered | pkg/tuiv2/progress/tty_components.go:64-75 | unchanged unless title sorting is on with two or more tasks; then sorted on a copy |
| Tty.VisibleCounts | pkg/tuiv2/progress/tty_components.go:82-87 | the visible tasks are exactly the present visible ones, each as often as it occurs |
| Tty.CountActive | pkg/tuiv2/progress/tty_components.go:89-101 | zero exactly when no task is running or retrying |
| Tty.AnyError | pkg/tuiv2/progress/tty_components.go:89-101 | true exactly when some task failed |
| Tty.Shown | pkg/tuiv2/progress/tty_components.go:133-136 | every visible task gets a row when the limit is negative; otherwise at most the limit |
| Tty.Rows | pkg/tuiv2/progress/tty_components.go:165-175 | one row per shown task, in order, then "... and N more" for the rest when there is a rest |
| Tty.GroupLines | pkg/tuiv2/progress/tty_components.go:58-178 | the header comes first, then the rows unless the group collapses |
| Tty.HeaderIcon | pkg/tuiv2/progress/tty_components.go:103-126 | the header keeps the group title; its icon is busy while the group is open or a visible task is active, then failed exactly when a visible task failed, else done; it shows dots exactly when a task is active and meta is off, and an elapsed time exactly when meta is on |
| Tty.RowsCoverVisible | pkg/tuiv2/progress/tty_components.go:133-175 | every visible task is either listed or counted in the "more" line |
| Tty.ProgressBar | pkg/tuiv2/progress/tty_components.go:378-397 | no bar without a positive width and total; otherwise filled plus track is the width, with the fill clamped to it |
| Tty.BarGlyphs | pkg/tuiv2/progress/tty_components.go:378-397 | the bar has as many glyphs as its width |
| Tty.ExactFill | pkg/tuiv2/progress/tty_components.go:378-397 | with exact scaling, the fill is the share of the width done and needs no clamping |
| Tty.DownloadPercent | pkg/tuiv2/progress/tty_components.go:316-321 | 0 before any progress, else the floor of current*100/total, within 0..100 while current does not exceed total |
| Tty.DownloadMeta | pkg/tuiv2/progress/tty_components.go:364-376 | non-empty exactly when the total is known, or the task is no longer active and has bytes |
| Tty.Eligible | pkg/tuiv2/progress/tty_components.go:399-414 | exactly the known, unsealed groups with tasks, in group order |
| Tty.RenderBlocks | pkg/tuiv2/progress/tty_components.go:399-414 | one block per eligible group, each its group's lines |
| Tty.FlattenAppend | pkg/tuiv2/progress/tty_components.go:416-422 | flattening distributes over joining block lists |
| Tty.OneHeader | pkg/tuiv2/progress/tty_components.go:58-178 | a group's block has exactly one header, its first line |
| Tty.HeaderPerGroup | pkg/tuiv2/progress/tty_components.go:416-422 | the flattened blocks hold as many headers as there are blocks |
| Tty.RenderedHeaders | pkg/tuiv2/progress/tty_components.go:399-422 | the Active area shows exactly one header per eligible group |

## Left out

- Speed: the download speed (`speedBps`, `lastSpeed`, the sampling window at pkg/tuiv2/progress/state.go:331-365 and 447-465) is floating-point arithmetic and is not modelled; progress events keep total and current only.
- Tty.ProgressBar: the floating-point fill `int(float64(current) / float64(total) * float64(width))` (pkg/tuiv2/progress/tty_components.go:388) is a parameter `scaled`; only its clamping is modelled. ExactFill covers exact arithmetic, `current*width/total`, which can exceed the float fill by one when the rounded quotient times the width falls just below an integer before truncation.
- Styling: lipgloss styles, colour tokens, the guide style, spinner frames and widths are left out; the plain renderer is modelled with colour disabled.
- The text of a TTY task row (`ttyTaskComponent.Line`, label and title widths) and the header's elapsed formatting are left out; a row is modelled as the task it shows.
- formatBytes and formatDuration are parameters of the plain renderer and of DownloadMeta.
- JSON encoding: the event log's JSON-lines encoding, `DecodeEvent`, `ReplayEvent` and the parser of event lines are left out; the log is a sequence of entries.
- Concurrency: channels, the `closeCh` selects, the writer's mutex, the blocking of `Sync` waiters and the bubbletea TTY loop are left out. RunPlain processes one stream in order.
- Ui.RunPlain: every event without a time is processed at one `clock` reading, where the source reads the clock per event.
- Nil receivers: a nil `*UI`, `*Group` or `*Task` is modelled as a detached handle.
- Ui.Write: Go's `[]byte` and strings are sequences of Unicode characters here, so the count Write reports is in characters, not bytes ("é\n" counts 2, where Go reports 3); a write that splits a multi-byte character, and bytes that are not valid UTF-8, cannot be expressed.
- Writer.Feed: its input is a sequence of characters rather than bytes, for the reason above; line splitting only looks at `\n` and `\r`, which are single bytes in UTF-8, so the lines themselves are as in the source for valid UTF-8 input written at character boundaries.
- Integer widths: uint64 ids, int64 progress values, `current*100` and the `time.Duration` of a reveal delay are unbounded integers; overflow is not modelled.
- Text.ToLower: ASCII letters only; Unicode case folding is left out.
- Rfc3339.Parse: only the strict RFC 3339 layout, as the pid-file writer produces it, is modelled; the general parser's other leniencies are left out.
- RuntimeFiles.CheckAt: the clock of the wait is the time each poll's own work takes, a parameter (`Pace`); each sleep counts as exactly 200 ms, and an oversleep is folded into the next poll's work.
- RuntimeFiles.Claim: the create loop is bounded by a fuel count, and rival creators are an oracle; an unbounded retry is not modelled.
- loadPort is not part of this model: the port file is an abstract load result (no file, a load failure, or a number).
- killProcessOrGroup on Windows (kill_windows.go) is left out; only the Unix version is modelled.
- The HTTP client, its 1-second timeout and JSON decoding are abstract request outcomes.

Behaviours of the source worth noting:
- The probe falls back to `/command` on any non-200 reply to `/ping`, and on a request error that is not the probe's own deadline.
- A pid file whose modification time lies in the future (negative age) is handled two ways. `cleanupStaleRuntimeFiles` treats it as stale, because its grace check also requires `age >= 0`. `waitPlaygroundStopped` keeps waiting on it, because it removes files only when `age >= pidFileWriteGracePeriod`. The model keeps both behaviours: PidFileStale covers cleanup, and PollOnceSpec covers the wait.
- The ECONNREFUSED branch of the port-only cleanup returns what the branch after it would, so the model merges them.

=== FILE: base.dfy ===
/** Failure-carrying wrappers shared by every module of the model. */
module Base {

  /** A value that may be missing: Go's nil pointer or zero-value "unset" field. */
  datatype Option<+T> = None | Some(value: T)
  {
    function GetOr(default: T): T
    {
      match this
      case Some(v) => v
      case None => default
    }
  }

  /** The result of a Go function returning `(T, error)`: a value or an error. */
  datatype Result<+T, +E> = Ok(value: T) | Err(error: E)
}

=== FILE: events.dfy ===
/**
  The events of the tuiv2 progress engine: an append-only stream of
  records, each with a type discriminator and optional fields whose
  meaning depends on the type. Statuses and kinds travel as strings and
  are decoded by the engine.

  Time is an integer number of milliseconds; 0 stands for Go's zero time,
  which lies before every real instant.
 */
module Events {
  import opened Base

  /** Milliseconds; 0 is the zero time. */
  type Time = nat

  /** The event type; a string no constant names is kept as it is and ignored by the engine. */
  datatype EventType =
    | PrintLinesEvent
    | SyncEvent
    | GroupAddEvent
    | GroupUpdateEvent
    | GroupCloseEvent
    | TaskAddEvent
    | TaskUpdateEvent
    | TaskProgressEvent
    | TaskStateEvent
    | UnknownEvent(name: string)

  /** The wire name of each event type. */
  function TypeName(t: EventType): string
  {
    match t
    case PrintLinesEvent => "print_lines"
    case SyncEvent => "sync"
    case GroupAddEvent => "group_add"
    case GroupUpdateEvent => "group_update"
    case GroupCloseEvent => "group_close"
    case TaskAddEvent => "task_add"
    case TaskUpdateEvent => "task_update"
    case TaskProgressEvent => "task_progress"
    case TaskStateEvent => "task_state"
    case UnknownEvent(name) => name
  }

  /** The event type a wire name stands for. */
  function ParseType(name: string): (t: EventType)
    ensures TypeName(t) == name
  {
    if name == "print_lines" then PrintLinesEvent
    else if name == "sync" then SyncEvent
    else if name == "group_add" then GroupAddEvent
    else if name == "group_update" then GroupUpdateEvent
    else if name == "group_close" then GroupCloseEvent
    else if name == "task_add" then TaskAddEvent
    else if name == "task_update" then TaskUpdateEvent
    else if name == "task_progress" then TaskProgressEvent
    else if name == "task_state" then TaskStateEvent
    else UnknownEvent(name)
  }

  /** An `UnknownEvent` whose name is not one of the nine known names. */
  predicate CanonicalType(t: EventType)
  {
    t.UnknownEvent? ==> ParseType(t.name) == t
  }

  /** Names and types correspond one to one. */
  lemma TypeNameRoundTrip(t: EventType)
    requires CanonicalType(t)
    ensures ParseType(TypeName(t)) == t
    ensures ParseType(TypeName(t)).UnknownEvent? <==> t.UnknownEvent?
  {
  }

  /** The seven task statuses. */
  datatype Status = Pending | Running | Retrying | Done | Error | Skipped | Canceled

  const AllStatuses: seq<Status> := [Pending, Running, Retrying, Done, Error, Skipped, Canceled]

  function StatusName(s: Status): string
  {
    match s
    case Pending => "pending"
    case Running => "running"
    case Retrying => "retrying"
    case Done => "done"
    case Error => "error"
    case Skipped => "skipped"
    case Canceled => "canceled"
  }

  /** The status a wire name stands for; any other name is no status. */
  function ParseStatus(name: string): Option<Status>
  {
    if name == "pending" then Some(Pending)
    else if name == "running" then Some(Running)
    else if name == "retrying" then Some(Retrying)
    else if name == "done" then Some(Done)
    else if name == "error" then Some(Error)
    else if name == "skipped" then Some(Skipped)
    else if name == "canceled" then Some(Canceled)
    else None
  }

  /** There are exactly seven statuses, each with its own name, and a name decodes only to its status. */
  lemma StatusNames(s: Status, name: string)
    ensures ParseStatus(name) == Some(s) <==> name == StatusName(s)
    ensures s in AllStatuses && |AllStatuses| == 7
    ensures forall i, j :: 0 <= i < j < |AllStatuses| ==> StatusName(AllStatuses[i]) != StatusName(AllStatuses[j])
  {
  }

  /** Done, Error, Skipped and Canceled end a task. */
  predicate Terminal(s: Status)
  {
    s == Done || s == Error || s == Skipped || s == Canceled
  }

  /** Running and Retrying keep a task (and its group) busy. */
  predicate Active(s: Status)
  {
    s == Running || s == Retrying
  }

  /** The two task kinds. */
  datatype Kind = Generic | Download

  /** Only "download" selects the download kind; every other name means generic. */
  function ParseKind(name: string): (k: Kind)
    ensures k == Download <==> name == "download"
  {
    if name == "download" then Download else Generic
  }

  /**
    One event. Optional fields are `Option`s; `etype` is the type
    discriminator (Go's `Type`), and ids 0 mean "not set".
   */
  datatype Event = Event(
    etype: EventType,
    at: Time,
    groupId: nat,
    taskId: nat,
    lines: seq<string>,
    syncId: nat,
    title: Option<string>,
    showMeta: Option<bool>,
    hideDetailsOnSuccess: Option<bool>,
    sortTasksByTitle: Option<bool>,
    finished: Option<bool>,
    pending: bool,
    kind: Option<string>,
    meta: Option<string>,
    message: Option<string>,
    hideIfFast: Option<bool>,
    revealAfterMs: Option<int>,
    current: Option<int>,
    total: Option<int>,
    status: Option<string>)

  /** An event of the given type with every other field unset. */
  function Bare(t: EventType, at: Time): (e: Event)
    ensures e.etype == t && e.at == at && e.groupId == 0 && e.taskId == 0 && e.lines == []
    ensures e.title.None? && e.finished.None? && e.status.None? && e.message.None? && !e.pending
  {
    Event(t, at, 0, 0, [], 0, None, None, None, None, None, false, None, None, None, None, None, None, None, None)
  }

  /** A print event; a blank output line is the one-element block `[""]`. */
  function PrintLinesOf(at: Time, lines: seq<string>): (e: Event)
    ensures e.etype == PrintLinesEvent && e.lines == lines
  {
    Bare(PrintLinesEvent, at).(lines := lines)
  }

  /** Whether a group-close event asks for a normal close (Finished omitted or true) rather than a seal. */
  function Finishes(e: Event): (r: bool)
    ensures r <==> e.finished != Some(false)
  {
    e.finished.GetOr(true)
  }
}

=== FILE: handles.dfy ===
/**
  Group and Task handles: each method of a handle becomes one event on the
  UI's stream, and nothing at all on a detached handle (a nil handle
  behaves the same) or a closed UI. The lemmas at the end connect each
  method to what the engine does with its event.
 */
module Handles {
  import opened Base
  import opened Events
  import opened State
  import opened Ui

  /** A task handle: `attached` is false for the detached handle of a closed UI or detached group. */
  datatype Task = Task(attached: bool, id: nat, groupId: nat, title: string)

  /** The methods of Group that send one event each. */
  datatype GroupOp =
    | SetTitle(title: string)
    | SetShowMeta(show: bool)
    | SetHideDetailsOnSuccess(hide: bool)
    | SetSortTasksByTitle(sort: bool)
    | CloseGroup
    | Seal

  /** The event a Group method sends. */
  function GroupEvent(g: Group, op: GroupOp, now: Time): (e: Event)
    ensures e.groupId == g.id && e.taskId == 0 && e.at == now && e.lines == []
    ensures e.etype == (if op.CloseGroup? || op.Seal? then GroupCloseEvent else GroupUpdateEvent)
    ensures e.finished == (if op.Seal? then Some(false) else None)
    ensures e.title == (if op.SetTitle? then Some(op.title) else None)
    ensures e.showMeta == (if op.SetShowMeta? then Some(op.show) else None)
    ensures e.hideDetailsOnSuccess == (if op.SetHideDetailsOnSuccess? then Some(op.hide) else None)
    ensures e.sortTasksByTitle == (if op.SetSortTasksByTitle? then Some(op.sort) else None)
  {
    var base := Bare(GroupUpdateEvent, now).(groupId := g.id);
    match op
    case SetTitle(t) => base.(title := Some(t))
    case SetShowMeta(b) => base.(showMeta := Some(b))
    case SetHideDetailsOnSuccess(b) => base.(hideDetailsOnSuccess := Some(b))
    case SetSortTasksByTitle(b) => base.(sortTasksByTitle := Some(b))
    case CloseGroup => base.(etype := GroupCloseEvent)
    case Seal => base.(etype := GroupCloseEvent, finished := Some(false))
  }

  /** Whether a handle's methods act: it is attached and its UI is open. */
  predicate Acts(attached: bool, u: UI)
  {
    attached && !u.closed
  }

  /** Calling a Group method: the event is emitted, and SetTitle also updates the handle's title. */
  function CallGroup(u: UI, g: Group, op: GroupOp, now: Time): (r: (UI, Group))
    ensures !Acts(g.attached, u) ==> r == (u, g)
    ensures Acts(g.attached, u) ==> r.0 == Emit(u, now, GroupEvent(g, op, now))
    ensures Acts(g.attached, u) ==> r.1 == (if op.SetTitle? then g.(title := op.title) else g)
  {
    if !Acts(g.attached, u) then (u, g)
    else (Emit(u, now, GroupEvent(g, op, now)), if op.SetTitle? then g.(title := op.title) else g)
  }

  /** The TaskAdd event of a new task. */
  function TaskAddOf(now: Time, gid: nat, tid: nat, title: string, pending: bool): (e: Event)
    ensures e.etype == TaskAddEvent && e.at == now && e.groupId == gid && e.taskId == tid
    ensures e.title == Some(title) && e.pending == pending && e.status.None?
  {
    Bare(TaskAddEvent, now).(groupId := gid, taskId := tid, title := Some(title), pending := pending)
  }

  /** Group.Task and Group.TaskPending: a fresh id and one TaskAdd, or a detached handle. */
  function NewTask(u: UI, g: Group, title: string, pending: bool, now: Time): (r: (UI, Task))
    ensures r.1.title == title
    ensures !Acts(g.attached, u) ==> r == (u, Task(false, 0, 0, title))
    ensures Acts(g.attached, u) ==> r.1 == Task(true, u.lastId + 1, g.id, title) && r.0.lastId == u.lastId + 1
    ensures Acts(g.attached, u) ==>
      r.0 == Emit(u.(lastId := u.lastId + 1), now, TaskAddOf(now, g.id, u.lastId + 1, title, pending))
  {
    if !Acts(g.attached, u) then (u, Task(false, 0, 0, title))
    else
      var (u1, tid) := NextId(u);
      (Emit(u1, now, TaskAddOf(now, g.id, tid, title, pending)), Task(true, tid, g.id, title))
  }

  /** The methods of Task that send one event each; durations are in nanoseconds. */
  datatype TaskOp =
    | SetHideIfFast(revealAfterNs: int)
    | SetKindDownload
    | Start
    | SetMessage(msg: string)
    | MarkRetrying(msg: string)
    | SetMeta(meta: string)
    | SetTotal(total: int)
    | SetCurrent(current: int)
    | MarkDone
    | MarkError(msg: string)
    | Skip(reason: string)
    | Cancel(reason: string)

  /** The status a status-changing method asks for. */
  function OpStatus(op: TaskOp): Option<Status>
  {
    match op
    case Start => Some(Running)
    case MarkRetrying(_) => Some(Retrying)
    case MarkDone => Some(Done)
    case MarkError(_) => Some(Error)
    case Skip(_) => Some(Skipped)
    case Cancel(_) => Some(Canceled)
    case _ => None
  }

  /** The message a status-changing method carries; Start and Done carry none. */
  function OpMessage(op: TaskOp): Option<string>
  {
    match op
    case MarkRetrying(m) => Some(m)
    case MarkError(m) => Some(m)
    case Skip(r) => Some(r)
    case Cancel(r) => Some(r)
    case SetMessage(m) => Some(m)
    case _ => None
  }

  /** One millisecond in nanoseconds. */
  const NanosPerMilli: int := 1_000_000

  /** SetHideIfFast's reveal delay in whole milliseconds, after a negative duration is read as 0. */
  function RevealMs(ns: int): (ms: int)
    ensures ms >= 0
    ensures ns <= 0 ==> ms == 0
    ensures ns > 0 ==> ms * NanosPerMilli <= ns < (ms + 1) * NanosPerMilli
  {
    if ns < 0 then 0 else ns / NanosPerMilli
  }

  /** The event type each Task method sends. */
  function OpType(op: TaskOp): EventType
  {
    if OpStatus(op).Some? then TaskStateEvent
    else if op.SetTotal? || op.SetCurrent? then TaskProgressEvent
    else TaskUpdateEvent
  }

  /**
    The event a Task method sends, field by field: each field is set by
    exactly the method that owns it, and task events name only the task.
   */
  function TaskEvent(t: Task, op: TaskOp, now: Time): (e: Event)
    ensures e.taskId == t.id && e.groupId == 0 && e.at == now && e.lines == []
    ensures e.status.Some? <==> e.etype == TaskStateEvent
    ensures e.total.Some? || e.current.Some? <==> e.etype == TaskProgressEvent
    ensures e.etype == TaskUpdateEvent ==> e.status.None? && e.total.None? && e.current.None?
  {
    Bare(OpType(op), now).(
      taskId := t.id,
      status := if OpStatus(op).Some? then Some(StatusName(OpStatus(op).value)) else None,
      message := OpMessage(op),
      total := if op.SetTotal? then Some(op.total) else None,
      current := if op.SetCurrent? then Some(op.current) else None,
      meta := if op.SetMeta? then Some(op.meta) else None,
      kind := if op.SetKindDownload? then Some("download") else None,
      hideIfFast := if op.SetHideIfFast? then Some(true) else None,
      revealAfterMs := if op.SetHideIfFast? then Some(RevealMs(op.revealAfterNs)) else None)
  }

  /** Calling a Task method. */
  function CallTask(u: UI, t: Task, op: TaskOp, now: Time): (r: UI)
    ensures !Acts(t.attached, u) ==> r == u
    ensures Acts(t.attached, u) ==> r == Emit(u, now, TaskEvent(t, op, now))
  {
    if !Acts(t.attached, u) then u else Emit(u, now, TaskEvent(t, op, now))
  }

  // ---------------------------------------------------------------------
  // What each method does to the engine
  // ---------------------------------------------------------------------

  /**
    A Group method's event, applied to its open group, does what the method
    names: each setter changes only its own option, Close closes (the first
    time), Seal seals.
   */
  lemma GroupOpEffect(s: EngineState, clock: Time, now: Time, g: Group, op: GroupOp)
    requires g.id in s.groupById && !s.groupById[g.id].sealed
    ensures var r := ApplyEvent(s, clock, now, GroupEvent(g, op, now));
      var before := s.groupById[g.id]; var after := r.groupById[g.id];
      && g.id in r.groupById && r.taskById == s.taskById && r.groups == s.groups
      && (forall id :: id in s.groupById && id != g.id ==> id in r.groupById && r.groupById[id] == s.groupById[id])
      && (op.SetTitle? ==> after == before.(title := op.title))
      && (op.SetShowMeta? ==> after == before.(showMeta := op.show))
      && (op.SetHideDetailsOnSuccess? ==> after == before.(hideDetailsOnSuccess := op.hide))
      && (op.SetSortTasksByTitle? ==> after == before.(sortTasksByTitle := op.sort))
      && (op.CloseGroup? && before.closed ==> after == before)
      && (op.CloseGroup? && !before.closed ==> after == before.(closed := true, closedAt := if now == 0 then clock else now))
      && (op.Seal? ==> after == before.(sealed := true))
  {
  }

  /** Close and Seal are idempotent: their event applied twice leaves what applying it once does. */
  lemma CloseSealIdempotent(s: EngineState, clock: Time, now1: Time, now2: Time, g: Group, op: GroupOp)
    requires op.CloseGroup? || op.Seal?
    ensures var once := ApplyEvent(s, clock, now1, GroupEvent(g, op, now1));
      ApplyEvent(once, clock, now2, GroupEvent(g, op, now2)) == once
  {
  }

  /** Task and TaskPending differ only in the pending flag of their event. */
  lemma TaskPendingDiffers(u: UI, g: Group, title: string, now: Time)
    requires Acts(g.attached, u)
    ensures var a := NewTask(u, g, title, false, now); var b := NewTask(u, g, title, true, now);
      a.1 == b.1 && a.0.lastId == b.0.lastId
      && (u.mode != ModeOff ==>
            && a.0.sent[..|u.sent|] == b.0.sent[..|u.sent|] == u.sent
            && |a.0.sent| == |b.0.sent| == |u.sent| + 1
            && b.0.sent[|u.sent|] == a.0.sent[|u.sent|].(pending := true))
  {
  }

  /**
    A new task's event adds it to its open group: Running from now, or
    Pending with no start time.
   */
  lemma NewTaskEffect(s: EngineState, clock: Time, now: Time, u: UI, g: Group, title: string, pending: bool)
    requires Acts(g.attached, u) && g.id in s.groupById && !s.groupById[g.id].sealed
    requires u.lastId + 1 !in s.taskById
    ensures var tid := u.lastId + 1;
      var r := ApplyEvent(s, clock, now, TaskAddOf(now, g.id, tid, title, pending));
      && tid in r.taskById && r.taskById[tid].gid == g.id && r.taskById[tid].title == title
      && r.taskById[tid].status == (if pending then Pending else Running)
      && r.taskById[tid].startAt == (if pending then 0 else if now == 0 then clock else now)
      && r.groupById[g.id].tasks == s.groupById[g.id].tasks + [tid]
  {
  }

  /** A Task method's event changes at most its own task; every other task is left as it was. */
  lemma TaskOpFrame(s: EngineState, clock: Time, now: Time, t: Task, op: TaskOp)
    ensures var r := ApplyEvent(s, clock, now, TaskEvent(t, op, now));
      && r.groups == s.groups && r.taskById.Keys == s.taskById.Keys
      && (forall id :: id in s.taskById && id != t.id ==> r.taskById[id] == s.taskById[id])
  {
  }

  /** The option setters, applied to a task of an open group, change only their own field. */
  lemma TaskOptionEffect(s: EngineState, clock: Time, now: Time, t: Task, op: TaskOp)
    requires TaskOpen(s, t.id)
    requires op.SetHideIfFast? || op.SetKindDownload? || op.SetMessage? || op.SetMeta?
    ensures var r := ApplyEvent(s, clock, now, TaskEvent(t, op, now));
      var before := s.taskById[t.id]; var after := r.taskById[t.id];
      && t.id in r.taskById
      && (op.SetHideIfFast? ==> after == before.(hideIfFast := true, revealAfterMs := RevealMs(op.revealAfterNs)))
      && (op.SetKindDownload? ==> after == before.(kind := Download))
      && (op.SetMessage? ==> after == before.(message := op.msg))
      && (op.SetMeta? ==> after == before.(meta := op.meta))
  {
  }

  /** SetTotal and SetCurrent move only their own value, only before the task ends, and read negatives as 0. */
  lemma TaskProgressEffect(s: EngineState, clock: Time, now: Time, t: Task, op: TaskOp)
    requires TaskOpen(s, t.id)
    requires op.SetTotal? || op.SetCurrent?
    ensures var r := ApplyEvent(s, clock, now, TaskEvent(t, op, now));
      var before := s.taskById[t.id]; var after := r.taskById[t.id];
      && t.id in r.taskById
      && (Terminal(before.status) ==> after == before)
      && (!Terminal(before.status) && op.SetTotal? ==> after == before.(total := ClampNonNegative(op.total)))
      && (!Terminal(before.status) && op.SetCurrent? ==> after == before.(current := ClampNonNegative(op.current)))
  {
  }

  /**
    A status method moves the task exactly when the transition rules accept
    the move, and takes its message along; Start and Done keep the message.
   */
  lemma TaskStatusEffect(s: EngineState, clock: Time, now: Time, t: Task, op: TaskOp)
    requires TaskOpen(s, t.id)
    requires OpStatus(op).Some?
    ensures var r := ApplyEvent(s, clock, now, TaskEvent(t, op, now));
      var before := s.taskById[t.id]; var after := r.taskById[t.id]; var to := OpStatus(op).value;
      && t.id in r.taskById
      && (!Accepts(before.status, to) ==> after == before)
      && (Accepts(before.status, to) ==> after.status == to && after.message == OpMessage(op).GetOr(before.message))
  {
    StatusNames(OpStatus(op).value, StatusName(OpStatus(op).value));
  }

  /** Start is safe to repeat: on a running task it changes nothing. */
  lemma StartRepeatable(s: EngineState, clock: Time, now: Time, t: Task)
    requires TaskOpen(s, t.id) && s.taskById[t.id].status == Running && s.taskById[t.id].startAt != 0
    ensures ApplyEvent(s, clock, now, TaskEvent(t, Start, now)).taskById == s.taskById
  {
  }

  /** A handle whose UI is closed, or which is detached, sends nothing. */
  lemma DetachedIsSilent(u: UI, g: Group, t: Task, gop: GroupOp, top: TaskOp, title: string, pending: bool, now: Time)
    requires !Acts(g.attached, u) && !Acts(t.attached, u)
    ensures CallGroup(u, g, gop, now).0 == u && CallTask(u, t, top, now) == u
    ensures NewTask(u, g, title, pending, now).0 == u && !NewTask(u, g, title, pending, now).1.attached
  {
  }
}

=== FILE: kill.dfy ===
/**
  Choosing whom a signal goes to when the playground stops a child
  process: the whole process group when the child leads its own group
  (so detached grandchildren die with it), and the child alone otherwise.

  The two system calls are oracles: `pgidOf` answers getpgid and `kill`
  answers kill(2) for a target (negative for a group) and a signal.
 */
module Kill {
  import opened Base

  /** The errno values the runtime-file code tells apart. */
  datatype Errno = EPERM | ESRCH | OtherErrno(code: int)

  /** The result of one kill(2) call: None is success. */
  type KillCall = (int, int) -> Option<Errno>

  /** Who was signalled (None: nobody) and the error returned to the caller. */
  datatype KillOutcome = KillOutcome(target: Option<int>, err: Option<Errno>)

  /** killProcessOrGroup on Unix. */
  function KillProcessOrGroup(pid: int, sig: int, pgidOf: int -> Result<int, Errno>, kill: KillCall): (r: KillOutcome)
    ensures pid <= 0 || sig == 0 ==> r == KillOutcome(None, None)
    ensures pid > 0 && sig != 0 ==> r.target.Some? && r.err == kill(r.target.value, sig)
    ensures r.target.Some? ==> r.target.value == pid || r.target.value == -pid
  {
    if pid <= 0 || sig == 0 then KillOutcome(None, None)
    else
      var target := if pgidOf(pid) == Ok(pid) then -pid else pid;
      KillOutcome(Some(target), kill(target, sig))
  }

  /**
    The group is signalled exactly when the process leads it; a failed
    getpgid, or a group led by another process, leaves only the pid itself.
   */
  lemma GroupOnlyWhenLeader(pid: int, sig: int, pgidOf: int -> Result<int, Errno>, kill: KillCall)
    requires pid > 0 && sig != 0
    ensures KillProcessOrGroup(pid, sig, pgidOf, kill).target == Some(-pid) <==> pgidOf(pid) == Ok(pid)
    ensures pgidOf(pid) != Ok(pid) ==> KillProcessOrGroup(pid, sig, pgidOf, kill).target == Some(pid)
    ensures KillProcessOrGroup(pid, sig, pgidOf, kill).target.value != 0
  {
  }
}

=== FILE: pid_record.dfy ===
/**
  The playground's `pid` file: a few `key=value` lines written once by the
  process that claims a data directory, and read back by every later
  start-up, stop or cleanup.

  The reader trims every line, skips blank ones and recognises three keys;
  a later line for a key overrides an earlier one. It fails on the first
  line whose value is unusable (an empty or non-integer pid, a started_at
  that is not RFC 3339) and, at the end, when no pid line was seen. Lines
  with other keys are ignored.
 */
module PidRecord {
  import opened Base
  import opened Text
  import opened Rfc3339

  /** What readPIDFile returns on success; `startedAt` is None for Go's zero time. */
  datatype PidFile = PidFile(pid: int, startedAt: Option<Timestamp>, tag: string)

  /** Why a pid file that could be read was rejected. */
  datatype ReadError = PidEmpty | InvalidPid(raw: string) | InvalidStartedAt(raw: string) | MissingPid

  /** One line after trimming, by the key it starts with; `raw` is the trimmed value. */
  datatype Line = Blank | PidLine(raw: string) | StartedLine(raw: string) | TagLine(raw: string) | OtherLine

  const PidKey: string := "pid="
  const StartedKey: string := "started_at="
  const TagKey: string := "tag="

  /**
    A line is blank when it trims to nothing; otherwise it is classified by
    the key its trimmed text starts with (the three keys exclude each
    other), and its value is what follows the key, trimmed again.
   */
  function Classify(line: string): (l: Line)
    ensures l.Blank? <==> TrimSpace(line) == ""
    ensures l.PidLine? <==> HasPrefix(TrimSpace(line), PidKey)
    ensures l.StartedLine? <==> HasPrefix(TrimSpace(line), StartedKey)
    ensures l.TagLine? <==> HasPrefix(TrimSpace(line), TagKey)
    ensures l.PidLine? ==> l.raw == TrimSpace(TrimSpace(line)[|PidKey|..])
    ensures l.StartedLine? ==> l.raw == TrimSpace(TrimSpace(line)[|StartedKey|..])
    ensures l.TagLine? ==> l.raw == TrimSpace(TrimSpace(line)[|TagKey|..])
    ensures l.PidLine? || l.StartedLine? || l.TagLine? ==> TrimSpace(l.raw) == l.raw
  {
    var t := TrimSpace(line);
    KeysExclusive(t);
    if t == "" then Blank
    else if HasPrefix(t, PidKey) then PidLine(Value(t, PidKey))
    else if HasPrefix(t, StartedKey) then StartedLine(Value(t, StartedKey))
    else if HasPrefix(t, TagKey) then TagLine(Value(t, TagKey))
    else OtherLine
  }

  /** The value of a `key=value` line: the text after the key, trimmed. */
  function Value(t: string, key: string): (v: string)
    requires HasPrefix(t, key)
    ensures v == TrimSpace(t[|key|..]) && TrimSpace(v) == v
  {
    TrimSpaceIdempotent(t[|key|..]);
    TrimSpace(t[|key|..])
  }

  /** No text starts with two of the three keys. */
  lemma KeysExclusive(t: string)
    ensures !(HasPrefix(t, PidKey) && HasPrefix(t, StartedKey))
    ensures !(HasPrefix(t, PidKey) && HasPrefix(t, TagKey))
    ensures !(HasPrefix(t, StartedKey) && HasPrefix(t, TagKey))
  {
    if HasPrefix(t, PidKey) {
      assert t[0] == 'p';
    }
    if HasPrefix(t, StartedKey) {
      assert t[0] == 's';
    }
  }

  function ClassifyAll(lines: seq<string>): (ls: seq<Line>)
    ensures |ls| == |lines|
    ensures forall i :: 0 <= i < |lines| ==> ls[i] == Classify(lines[i])
  {
    seq(|lines|, i requires 0 <= i < |lines| => Classify(lines[i]))
  }

  // ---------------------------------------------------------------------
  // The reader, as a left fold that stops at the first bad line
  // ---------------------------------------------------------------------

  /** The fields seen so far; `pid` is None until a pid line was accepted. */
  datatype Acc = Acc(pid: Option<int>, startedAt: Option<Timestamp>, tag: string)

  const Empty: Acc := Acc(None, None, "")

  function Step(acc: Acc, l: Line): Result<Acc, ReadError>
  {
    match l
    case PidLine(raw) =>
      if raw == "" then Err(PidEmpty)
      else if Atoi(raw).None? then Err(InvalidPid(raw))
      else Ok(acc.(pid := Atoi(raw)))
    case StartedLine(raw) =>
      if raw == "" then Ok(acc)
      else if Parse(raw).None? then Err(InvalidStartedAt(raw))
      else Ok(acc.(startedAt := Parse(raw)))
    case TagLine(raw) => Ok(acc.(tag := raw))
    case _ => Ok(acc)
  }

  function Fold(acc: Acc, ls: seq<Line>): Result<Acc, ReadError>
    decreases |ls|
  {
    if |ls| == 0 then Ok(acc)
    else
      match Step(acc, ls[0])
      case Err(e) => Err(e)
      case Ok(next) => Fold(next, ls[1..])
  }

  /** readPIDFile on the contents of a file that could be read. */
  function ReadPidFile(data: string): Result<PidFile, ReadError>
  {
    ReadLines(ClassifyAll(Split(data, '\n')))
  }

  /** The fold over the classified lines, then the check that a pid was seen. */
  function ReadLines(ls: seq<Line>): Result<PidFile, ReadError>
  {
    match Fold(Empty, ls)
    case Err(e) => Err(e)
    case Ok(a) => if a.pid.None? then Err(MissingPid) else Ok(PidFile(a.pid.value, a.startedAt, a.tag))
  }

  // ---------------------------------------------------------------------
  // What the reader accepts, stated line by line
  // ---------------------------------------------------------------------

  /** A line the reader does not reject. */
  predicate LineOk(l: Line)
  {
    match l
    case PidLine(raw) => raw != "" && Atoi(raw).Some?
    case StartedLine(raw) => raw == "" || Parse(raw).Some?
    case _ => true
  }

  /** The error a rejected line produces. */
  function LineError(l: Line): ReadError
  {
    match l
    case PidLine(raw) => if raw == "" then PidEmpty else InvalidPid(raw)
    case StartedLine(raw) => InvalidStartedAt(raw)
    case _ => MissingPid
  }

  predicate AllOk(ls: seq<Line>)
  {
    forall i :: 0 <= i < |ls| ==> LineOk(ls[i])
  }

  /** Line `i` sets the pid and no later line does. */
  predicate LastPid(ls: seq<Line>, i: int)
  {
    0 <= i < |ls| && ls[i].PidLine? && forall j :: i < j < |ls| ==> !ls[j].PidLine?
  }

  /** Line `i` sets started_at (a non-empty value) and no later line does. */
  predicate LastStarted(ls: seq<Line>, i: int)
  {
    0 <= i < |ls| && ls[i].StartedLine? && ls[i].raw != ""
    && forall j :: i < j < |ls| ==> !(ls[j].StartedLine? && ls[j].raw != "")
  }

  /** Line `i` sets the tag and no later line does. */
  predicate LastTag(ls: seq<Line>, i: int)
  {
    0 <= i < |ls| && ls[i].TagLine? && forall j :: i < j < |ls| ==> !ls[j].TagLine?
  }

  /**
    The fold succeeds exactly when every line is acceptable, and a
    failure reports the first unacceptable line.
   */
  lemma FoldAccepts(acc: Acc, ls: seq<Line>)
    ensures Fold(acc, ls).Ok? <==> AllOk(ls)
    ensures Fold(acc, ls).Err? ==>
              exists i :: 0 <= i < |ls| && AllOk(ls[..i]) && !LineOk(ls[i]) && Fold(acc, ls).error == LineError(ls[i])
  {
    FoldOkIff(acc, ls);
    if Fold(acc, ls).Err? {
      var i := FoldFirstError(acc, ls);
    }
  }

  lemma {:induction false} FoldOkIff(acc: Acc, ls: seq<Line>)
    ensures Fold(acc, ls).Ok? <==> AllOk(ls)
    decreases |ls|
  {
    if |ls| > 0 {
      ShiftAll(ls);
      StepOk(acc, ls[0]);
      if LineOk(ls[0]) {
        FoldOkIff(Step(acc, ls[0]).value, ls[1..]);
      }
    }
  }

  /** The position of the line whose error a failed fold returns. */
  lemma {:induction false} FoldFirstError(acc: Acc, ls: seq<Line>) returns (i: nat)
    requires Fold(acc, ls).Err?
    ensures i < |ls| && AllOk(ls[..i]) && !LineOk(ls[i]) && Fold(acc, ls).error == LineError(ls[i])
    decreases |ls|
  {
    StepOk(acc, ls[0]);
    if !LineOk(ls[0]) {
      i := 0;
    } else {
      var tail := ls[1..];
      var j := FoldFirstError(Step(acc, ls[0]).value, tail);
      i := j + 1;
      assert ls[..i] == [ls[0]] + tail[..j];
      assert ls[i] == tail[j];
    }
  }

  /** An accepted line is a step that succeeds, and a rejected one the step that fails. */
  lemma StepOk(acc: Acc, l: Line)
    ensures Step(acc, l).Ok? <==> LineOk(l)
    ensures Step(acc, l).Err? ==> Step(acc, l).error == LineError(l)
    ensures Step(acc, l).Ok? ==> Step(acc, l).value.pid == (if l.PidLine? then Atoi(l.raw) else acc.pid)
    ensures Step(acc, l).Ok? ==> Step(acc, l).value.tag == (if l.TagLine? then l.raw else acc.tag)
    ensures Step(acc, l).Ok? ==>
      Step(acc, l).value.startedAt == (if l.StartedLine? && l.raw != "" then Parse(l.raw) else acc.startedAt)
  {
  }

  /** After an accepted fold, the pid is the last pid line's, or the starting one when there is none. */
  lemma {:induction false} FoldPid(acc: Acc, ls: seq<Line>)
    requires Fold(acc, ls).Ok?
    ensures (forall i :: 0 <= i < |ls| ==> !ls[i].PidLine?) ==> Fold(acc, ls).value.pid == acc.pid
    ensures forall i :: LastPid(ls, i) ==> Fold(acc, ls).value.pid == Atoi(ls[i].raw)
    decreases |ls|
  {
    if |ls| > 0 {
      StepOk(acc, ls[0]);
      var next := Step(acc, ls[0]).value;
      FoldPid(next, ls[1..]);
      ShiftLast(ls);
    }
  }

  /** After an accepted fold, started_at is the last non-empty one, or the starting one. */
  lemma {:induction false} FoldStarted(acc: Acc, ls: seq<Line>)
    requires Fold(acc, ls).Ok?
    ensures (forall i :: 0 <= i < |ls| ==> !(ls[i].StartedLine? && ls[i].raw != "")) ==> Fold(acc, ls).value.startedAt == acc.startedAt
    ensures forall i :: LastStarted(ls, i) ==> Fold(acc, ls).value.startedAt == Parse(ls[i].raw)
    decreases |ls|
  {
    if |ls| > 0 {
      StepOk(acc, ls[0]);
      var next := Step(acc, ls[0]).value;
      FoldStarted(next, ls[1..]);
      ShiftLast(ls);
    }
  }

  /** After an accepted fold, the tag is the last tag line's, or the starting one. */
  lemma {:induction false} FoldTag(acc: Acc, ls: seq<Line>)
    requires Fold(acc, ls).Ok?
    ensures (forall i :: 0 <= i < |ls| ==> !ls[i].TagLine?) ==> Fold(acc, ls).value.tag == acc.tag
    ensures forall i :: LastTag(ls, i) ==> Fold(acc, ls).value.tag == ls[i].raw
    decreases |ls|
  {
    if |ls| > 0 {
      StepOk(acc, ls[0]);
      var next := Step(acc, ls[0]).value;
      FoldTag(next, ls[1..]);
      ShiftLast(ls);
    }
  }

  lemma ShiftAll(ls: seq<Line>)
    requires |ls| > 0
    ensures AllOk(ls) <==> LineOk(ls[0]) && AllOk(ls[1..])
  {
    if LineOk(ls[0]) && AllOk(ls[1..]) {
      forall i | 0 < i < |ls|
        ensures LineOk(ls[i])
      {
        assert ls[i] == ls[1..][i - 1];
      }
    }
  }

  /** Facts about a sequence's tail carry over to the sequence, one index further on. */
  lemma ShiftLast(ls: seq<Line>)
    requires |ls| > 0
    ensures forall i :: 0 < i < |ls| ==> (LastPid(ls, i) <==> LastPid(ls[1..], i - 1))
    ensures forall i :: 0 < i < |ls| ==> (LastStarted(ls, i) <==> LastStarted(ls[1..], i - 1))
    ensures forall i :: 0 < i < |ls| ==> (LastTag(ls, i) <==> LastTag(ls[1..], i - 1))
  {
    forall j | 0 < j < |ls|
      ensures ls[j] == ls[1..][j - 1]
    {
    }
  }

  /**
    readPIDFile succeeds exactly when every line is acceptable and some
    line sets the pid; the pid is the one on the last pid line, the tag
    the one on the last tag line, and started_at the last non-empty one.
    Otherwise the error is the first bad line's, or "missing pid".
   */
  lemma ReadLinesSpec(ls: seq<Line>)
    ensures ReadLines(ls).Ok? <==> AllOk(ls) && exists i :: 0 <= i < |ls| && ls[i].PidLine?
    ensures ReadLines(ls) == Err(MissingPid) <==> AllOk(ls) && forall i :: 0 <= i < |ls| ==> !ls[i].PidLine?
    ensures ReadLines(ls).Ok? ==> forall i :: LastPid(ls, i) ==> Atoi(ls[i].raw) == Some(ReadLines(ls).value.pid)
    ensures ReadLines(ls).Ok? ==> forall i :: LastTag(ls, i) ==> ReadLines(ls).value.tag == ls[i].raw
    ensures ReadLines(ls).Ok? ==> forall i :: LastStarted(ls, i) ==> ReadLines(ls).value.startedAt == Parse(ls[i].raw)
    ensures ReadLines(ls).Err? && ReadLines(ls) != Err(MissingPid) ==>
      exists i :: 0 <= i < |ls| && AllOk(ls[..i]) && !LineOk(ls[i]) && ReadLines(ls).error == LineError(ls[i])
  {
    FoldAccepts(Empty, ls);
    if Fold(Empty, ls).Ok? {
      FoldPid(Empty, ls);
      FoldStarted(Empty, ls);
      FoldTag(Empty, ls);
      if exists i :: 0 <= i < |ls| && ls[i].PidLine? {
        var k :| 0 <= k < |ls| && ls[k].PidLine?;
        var last := LastPidFrom(ls, k);
        assert Atoi(ls[last].raw).Some?;
      }
    }
  }

  /** Some pid line is the last one. */
  lemma {:induction false} LastPidFrom(ls: seq<Line>, k: int) returns (last: int)
    requires 0 <= k < |ls| && ls[k].PidLine?
    ensures LastPid(ls, last) && k <= last
    decreases |ls| - k
  {
    if exists j :: k < j < |ls| && ls[j].PidLine? {
      var j :| k < j < |ls| && ls[j].PidLine?;
      last := LastPidFrom(ls, j);
    } else {
      last := k;
    }
  }

  // ---------------------------------------------------------------------
  // The writer
  // ---------------------------------------------------------------------

  /** The three lines claimPlaygroundPIDFile writes, each ended by a newline. */
  function FormatRecord(pid: int, started: Civil, tag: string): string
    requires ValidCivil(started)
  {
    PidKey + Itoa(pid) + "\n" + StartedKey + Format(started) + "\n" + TagKey + tag + "\n"
  }

  /**
    A record written by the claimer is read back with the same pid, the
    same start time (in UTC) and the tag with surrounding space trimmed,
    provided the tag has no newline of its own.
   */
  lemma ReadFormatRecord(pid: int, started: Civil, tag: string)
    requires Int64Min <= pid <= Int64Max && ValidCivil(started) && '\n' !in tag
    ensures ReadPidFile(FormatRecord(pid, started, tag)) == Ok(PidFile(pid, Some(Timestamp(started, 0, 0)), TrimSpace(tag)))
  {
    var p, f := Itoa(pid), Format(started);
    ClassifyRecord(pid, started, tag);
    AtoiItoa(pid);
    ParseFormat(started);
    FoldRecordLines(p, f, TrimSpace(tag));
  }

  /** The written record classifies into its pid, started_at and tag lines and a blank. */
  lemma ClassifyRecord(pid: int, started: Civil, tag: string)
    requires ValidCivil(started) && '\n' !in tag
    ensures ClassifyAll(Split(FormatRecord(pid, started, tag), '\n'))
      == [PidLine(Itoa(pid)), StartedLine(Format(started)), TagLine(TrimSpace(tag)), Blank]
  {
    var p, f := Itoa(pid), Format(started);
    SplitRecord(pid, started, tag);
    NoNewlineInItoa(pid);
    NoNewlineInFormat(started);
    ClassifyPid(p);
    ClassifyStarted(f);
    ClassifyTag(tag);
    ClassifyRecordLines(PidKey + p, StartedKey + f, TagKey + tag, p, f, TrimSpace(tag));
  }

  lemma ClassifyRecordLines(l0: string, l1: string, l2: string, p: string, f: string, t: string)
    requires Classify(l0) == PidLine(p) && Classify(l1) == StartedLine(f) && Classify(l2) == TagLine(t)
    ensures ClassifyAll([l0, l1, l2, ""]) == [PidLine(p), StartedLine(f), TagLine(t), Blank]
  {
    ClassifyBlank();
    ClassifyFour([l0, l1, l2, ""]);
  }

  lemma ClassifyFour(lines: seq<string>)
    requires |lines| == 4
    ensures ClassifyAll(lines) == [Classify(lines[0]), Classify(lines[1]), Classify(lines[2]), Classify(lines[3])]
  {
    var ls := ClassifyAll(lines);
    var a, b, c, d := Classify(lines[0]), Classify(lines[1]), Classify(lines[2]), Classify(lines[3]);
    assert ls[0] == a && ls[1] == b && ls[2] == c && ls[3] == d;
    SeqOfFour(ls, a, b, c, d);
  }

  lemma SeqOfFour<T>(s: seq<T>, a: T, b: T, c: T, d: T)
    requires |s| == 4 && s[0] == a && s[1] == b && s[2] == c && s[3] == d
    ensures s == [a, b, c, d]
  {
  }

  lemma ClassifyBlank()
    ensures Classify("") == Blank
  {
    assert TrimLeft("") == "";
  }

  lemma FoldRecordLines(p: string, f: string, t: string)
    requires Atoi(p).Some? && Parse(f).Some?
    ensures Fold(Empty, [PidLine(p), StartedLine(f), TagLine(t), Blank]) == Ok(Acc(Atoi(p), Parse(f), t))
  {
    var ls := [PidLine(p), StartedLine(f), TagLine(t), Blank];
    var a1 := Acc(Atoi(p), None, "");
    var a2 := a1.(startedAt := Parse(f));
    var a3 := a2.(tag := t);
    assert Step(Empty, ls[0]) == Ok(a1);
    assert Step(a1, ls[1]) == Ok(a2);
    assert Fold(a3, ls[3..]) == Ok(a3) by { assert ls[3..][1..] == []; }
    assert Fold(a2, ls[2..]) == Fold(a3, ls[3..]) by { assert ls[2..][1..] == ls[3..]; }
    assert Fold(a1, ls[1..]) == Fold(a2, ls[2..]) by { assert ls[1..][1..] == ls[2..]; }
  }

  /** The record splits into its three lines and the empty text after the last newline. */
  lemma SplitRecord(pid: int, started: Civil, tag: string)
    requires ValidCivil(started) && '\n' !in tag
    ensures Split(FormatRecord(pid, started, tag), '\n') == [PidKey + Itoa(pid), StartedKey + Format(started), TagKey + tag, ""]
  {
    var l0, l1, l2 := PidKey + Itoa(pid), StartedKey + Format(started), TagKey + tag;
    NoNewlineInItoa(pid);
    NoNewlineInFormat(started);
    assert '\n' !in l0 && '\n' !in l1 && '\n' !in l2;
    assert FormatRecord(pid, started, tag) == l0 + "\n" + l1 + "\n" + l2 + "\n";
    SplitThreeLines(l0, l1, l2);
  }

  /** Three newline-free lines, each ended by a newline, split back into the lines and a final empty piece. */
  lemma SplitThreeLines(l0: string, l1: string, l2: string)
    requires '\n' !in l0 && '\n' !in l1 && '\n' !in l2
    ensures Split(l0 + "\n" + l1 + "\n" + l2 + "\n", '\n') == [l0, l1, l2, ""]
  {
    var parts := [l0, l1, l2, ""];
    assert Join(parts[3..], '\n') == "";
    JoinCons(l2, parts[3..], '\n');
    assert parts[2..] == [l2] + parts[3..];
    JoinCons(l1, parts[2..], '\n');
    assert parts[1..] == [l1] + parts[2..];
    JoinCons(l0, parts[1..], '\n');
    assert parts == [l0] + parts[1..];
    assert Join(parts, '\n') == l0 + "\n" + l1 + "\n" + l2 + "\n";
    SplitJoin(parts, '\n');
  }

  lemma NoNewlineInItoa(n: int)
    ensures '\n' !in Itoa(n)
    ensures |Itoa(n)| > 0 && !IsSpace(Itoa(n)[0]) && !IsSpace(Itoa(n)[|Itoa(n)| - 1])
  {
    var ds := NatDigits(if n < 0 then -n else n);
    NatDigitsShape(if n < 0 then -n else n);
    if n < 0 {
      assert Itoa(n) == "-" + ds;
    }
  }

  lemma NatDigitsShape(n: nat)
    ensures |NatDigits(n)| > 0 && AllDigits(NatDigits(n))
  {
    NatDigitsValue(n);
  }

  lemma NoNewlineInFormat(c: Civil)
    requires ValidCivil(c)
    ensures '\n' !in Format(c)
    ensures IsDigit(Format(c)[0]) && Format(c)[19] == 'Z'
  {
    var s := Format(c);
    forall i | 0 <= i < |s|
      ensures s[i] != '\n'
    {
      assert s[i] in Pad4(c.year) + Pad2(c.month) + Pad2(c.day) + Pad2(c.hour) + Pad2(c.minute) + Pad2(c.second) + "-T:Z";
    }
  }

  /** A key followed by a value with no surrounding space is already trimmed. */
  lemma KeyedLine(key: string, v: string)
    requires |key| > 0 && !IsSpace(key[0])
    requires |v| > 0 && !IsSpace(v[0]) && !IsSpace(v[|v| - 1])
    ensures TrimSpace(key + v) == key + v && TrimSpace(v) == v
    ensures HasPrefix(key + v, key) && (key + v)[|key|..] == v
  {
    assert (key + v)[|key + v| - 1] == v[|v| - 1];
    TrimSpaceKeeps(key + v);
    TrimSpaceKeeps(v);
    assert (key + v)[..|key|] == key;
  }

  lemma ClassifyPid(p: string)
    requires |p| > 0 && !IsSpace(p[0]) && !IsSpace(p[|p| - 1])
    ensures Classify(PidKey + p) == PidLine(p)
  {
    KeyedLine(PidKey, p);
  }

  lemma ClassifyStarted(f: string)
    requires |f| > 0 && IsDigit(f[0]) && !IsSpace(f[|f| - 1])
    ensures Classify(StartedKey + f) == StartedLine(f)
  {
    KeyedLine(StartedKey, f);
    NotPrefix(StartedKey + f, PidKey);
  }

  /** A text whose first character differs from the key's does not start with it. */
  lemma NotPrefix(t: string, key: string)
    requires |t| > 0 && |key| > 0 && t[0] != key[0]
    ensures !HasPrefix(t, key)
  {
    if |key| <= |t| {
      assert t[..|key|][0] == t[0];
    }
  }

  lemma ClassifyTag(tag: string)
    ensures Classify(TagKey + tag) == TagLine(TrimSpace(tag))
  {
    var line := TagKey + tag;
    TrimSpaceAfterPrefix(TagKey, tag);
    var t := TagKey + TrimRight(tag);
    assert t[0] == 't';
    NotPrefix(t, PidKey);
    NotPrefix(t, StartedKey);
    assert t[..|TagKey|] == TagKey;
    assert t[|TagKey|..] == TrimRight(tag);
    TrimSpaceOfTrimRight(tag);
  }
}

=== FILE: plain.dfy ===
/**
  The plain (non-TTY) renderer: after the engine has applied an event, it
  prints what the event means for a log reader, one line per call of
  fmt.Fprintln. Colour is off, so the colour tokens of its templates
  vanish and each line is the bare text; byte sizes and durations are
  formatted by functions this model takes as given.
 */
module Plain {
  import opened Base
  import opened Events
  import opened State

  /** formatBytes and formatDuration. */
  datatype Fmt = Fmt(bytes: int -> string, duration: int -> string)

  /** printlnWithGroup: the details, prefixed by the group title and " | " when there is one. */
  function WithGroup(title: string, details: string): (line: string)
    ensures title == "" ==> line == details
    ensures title != "" ==> |line| == |title| + 3 + |details| && line[..|title|] == title && line[|title|..|title| + 3] == " | " && line[|title| + 3..] == details
  {
    if title == "" then details else title + " | " + details
  }

  /** The title of the group a task belongs to, or "" (a nil group has no title). */
  function GroupTitle(s: EngineState, t: TaskState): string
  {
    if t.gid in s.groupById then s.groupById[t.gid].title else ""
  }

  /** The task title followed by its meta, when it has one. */
  function TitleWithMeta(t: TaskState): string
  {
    if t.meta != "" then t.title + " " + t.meta else t.title
  }

  /** The details of a generic start line: title, then meta and message when present. */
  function GenericStartDetails(t: TaskState): string
  {
    if t.meta != "" && t.message != "" then t.title + " " + t.meta + " " + t.message
    else if t.meta != "" then t.title + " " + t.meta
    else if t.message != "" then t.title + " " + t.message
    else t.title
  }

  /** The size shown on a download start line: "?" until a positive total is known. */
  function DownloadSize(t: TaskState, f: Fmt): (size: string)
    ensures t.total <= 0 ==> size == "?"
    ensures t.total > 0 ==> size == f.bytes(t.total)
  {
    if t.total > 0 then f.bytes(t.total) else "?"
  }

  function DownloadStartDetails(t: TaskState, f: Fmt): string
  {
    if t.meta != "" then t.title + " " + t.meta + " (" + DownloadSize(t, f) + ")"
    else t.title + " (" + DownloadSize(t, f) + ")"
  }

  /** A rendering step: the state with the renderer's bookkeeping, and the lines printed. */
  datatype Rendered = Rendered(state: EngineState, lines: seq<string>)

  /** maybePrintGenericStart: once per task, and the start time is filled in if it was zero. */
  function MaybeGenericStart(now: Time, s: EngineState, tid: nat): (r: Rendered)
    requires tid in s.taskById
    ensures s.taskById[tid].plainStartPrinted ==> r == Rendered(s, [])
    ensures !s.taskById[tid].plainStartPrinted ==> |r.lines| == 1
  {
    var t := s.taskById[tid];
    if t.plainStartPrinted then Rendered(s, [])
    else
      var t1 := t.(plainStartPrinted := true, startAt := if t.startAt == 0 then now else t.startAt);
      Rendered(s.(taskById := s.taskById[tid := t1]), [WithGroup(GroupTitle(s, t), GenericStartDetails(t))])
  }

  /** maybePrintDownloadStart: once per task, only for a running download. */
  function MaybeDownloadStart(now: Time, s: EngineState, tid: nat, f: Fmt): (r: Rendered)
    requires tid in s.taskById
    ensures var t := s.taskById[tid];
      |r.lines| == 1 <==> !t.downloadStartPrinted && t.kind == Download && t.status == Running
    ensures |r.lines| != 1 ==> r == Rendered(s, [])
  {
    var t := s.taskById[tid];
    if t.downloadStartPrinted || t.kind != Download || t.status != Running then Rendered(s, [])
    else
      var t1 := t.(downloadStartPrinted := true, startAt := if t.startAt == 0 then now else t.startAt);
      Rendered(s.(taskById := s.taskById[tid := t1]), [WithGroup(GroupTitle(s, t), DownloadStartDetails(t, f))])
  }

  /** The label of the line printed for an ending or retrying task. */
  function Label(st: Status): string
  {
    match st
    case Retrying => "WARN"
    case Error => "ERR"
    case Skipped => "SKIP"
    case Canceled => "CANCEL"
    case _ => ""
  }

  /** printRetry: the label, the title with meta, and the message when there is one. */
  function RetryDetails(t: TaskState): string
  {
    if t.message != "" then "WARN - " + TitleWithMeta(t) + ": " + t.message
    else "WARN - " + TitleWithMeta(t)
  }

  /** printError, printSkipped and printCanceled: as a retry line, plus the time from start to end. */
  function EndDetails(word: string, t: TaskState, f: Fmt): string
  {
    var took := f.duration(t.endAt - t.startAt);
    if t.message != "" then word + " - " + TitleWithMeta(t) + ": " + t.message + " (" + took + ")"
    else word + " - " + TitleWithMeta(t) + " (" + took + ")"
  }

  /** renderEvent: what one event, already applied to `s`, prints. */
  function RenderEvent(now: Time, e: Event, s: EngineState, f: Fmt): (r: Rendered)
    ensures !(e.etype.PrintLinesEvent? || e.etype.TaskUpdateEvent? || e.etype.TaskStateEvent?) ==> r == Rendered(s, [])
    ensures e.etype.PrintLinesEvent? ==> r == Rendered(s, e.lines)
    ensures (e.etype.TaskUpdateEvent? || e.etype.TaskStateEvent?) && !Rendering(s, e.taskId) ==> r == Rendered(s, [])
    ensures |r.lines| <= 1 || e.etype.PrintLinesEvent?
  {
    match e.etype
    case PrintLinesEvent => Rendered(s, e.lines)
    case TaskUpdateEvent =>
      if !Rendering(s, e.taskId) then Rendered(s, [])
      else MaybeDownloadStart(now, s, e.taskId, f)
    case TaskStateEvent =>
      if !Rendering(s, e.taskId) then Rendered(s, [])
      else
        var t := s.taskById[e.taskId];
        (match t.status
         case Running =>
           if t.kind == Download then MaybeDownloadStart(now, s, e.taskId, f) else MaybeGenericStart(now, s, e.taskId)
         case Retrying => Rendered(s, [WithGroup(GroupTitle(s, t), RetryDetails(t))])
         case Error => Rendered(s, [WithGroup(GroupTitle(s, t), EndDetails("ERR", t, f))])
         case Skipped => Rendered(s, [WithGroup(GroupTitle(s, t), EndDetails("SKIP", t, f))])
         case Canceled => Rendered(s, [WithGroup(GroupTitle(s, t), EndDetails("CANCEL", t, f))])
         case _ => Rendered(s, []))
    case _ => Rendered(s, [])
  }

  /** The renderer looks at a task only when it is known and its group is too. */
  predicate Rendering(s: EngineState, tid: nat)
  {
    tid in s.taskById && s.taskById[tid].gid in s.groupById
  }

  // ---------------------------------------------------------------------
  // What the renderer promises
  // ---------------------------------------------------------------------

  /**
    Task-state dispatch by the status the task has after the event:
    Running prints a start line (at most once), Retrying, Error, Skipped and
    Canceled print one labelled line, Done and Pending print nothing.
   */
  lemma TaskStateDispatch(now: Time, e: Event, s: EngineState, f: Fmt)
    requires e.etype.TaskStateEvent? && Rendering(s, e.taskId)
    ensures var t := s.taskById[e.taskId]; var r := RenderEvent(now, e, s, f);
      && (t.status == Done || t.status == Pending ==> r == Rendered(s, []))
      && (t.status == Retrying ==> r.lines == [WithGroup(GroupTitle(s, t), RetryDetails(t))] && r.state == s)
      && (t.status == Error || t.status == Skipped || t.status == Canceled ==>
            r.lines == [WithGroup(GroupTitle(s, t), EndDetails(Label(t.status), t, f))] && r.state == s)
      && (t.status == Running && t.kind == Generic ==> r == MaybeGenericStart(now, s, e.taskId))
      && (t.status == Running && t.kind == Download ==> r == MaybeDownloadStart(now, s, e.taskId, f))
  {
  }

  /** `r` differs from `s` at most in the printed-once flags and in start times that were zero. */
  ghost predicate OnlyFlags(s: EngineState, r: EngineState)
  {
    && r.groups == s.groups && r.groupById == s.groupById && r.taskById.Keys == s.taskById.Keys
    && (forall id :: id in s.taskById ==>
          var t := s.taskById[id]; var t1 := r.taskById[id];
          && t1 == t.(plainStartPrinted := t1.plainStartPrinted, downloadStartPrinted := t1.downloadStartPrinted, startAt := t1.startAt)
          && (t.plainStartPrinted ==> t1.plainStartPrinted)
          && (t.downloadStartPrinted ==> t1.downloadStartPrinted)
          && (t.startAt != 0 ==> t1.startAt == t.startAt))
  }

  /** The renderer touches only the printed-once flags and a zero start time of the one task. */
  lemma RenderTouchesOnlyFlags(now: Time, e: Event, s: EngineState, f: Fmt)
    ensures OnlyFlags(s, RenderEvent(now, e, s, f).state)
  {
    var r := RenderEvent(now, e, s, f);
    if r.state != s {
      StartLinesTouchOnlyFlags(now, s, e.taskId, f);
    }
  }

  lemma StartLinesTouchOnlyFlags(now: Time, s: EngineState, tid: nat, f: Fmt)
    requires tid in s.taskById
    ensures OnlyFlags(s, MaybeGenericStart(now, s, tid).state)
    ensures OnlyFlags(s, MaybeDownloadStart(now, s, tid, f).state)
  {
    var t := s.taskById[tid];
    var started := if t.startAt == 0 then now else t.startAt;
    if !t.plainStartPrinted {
      FlagUpdate(s, tid, t.(plainStartPrinted := true, startAt := started));
    }
    if !(t.downloadStartPrinted || t.kind != Download || t.status != Running) {
      FlagUpdate(s, tid, t.(downloadStartPrinted := true, startAt := started));
    }
  }

  /** Replacing one task by a copy that only sets flags or fills a zero start time touches only flags. */
  lemma FlagUpdate(s: EngineState, tid: nat, t1: TaskState)
    requires tid in s.taskById
    requires var t := s.taskById[tid];
      && t1 == t.(plainStartPrinted := t1.plainStartPrinted, downloadStartPrinted := t1.downloadStartPrinted, startAt := t1.startAt)
      && (t.plainStartPrinted ==> t1.plainStartPrinted)
      && (t.downloadStartPrinted ==> t1.downloadStartPrinted)
      && (t.startAt != 0 ==> t1.startAt == t.startAt)
    ensures OnlyFlags(s, s.(taskById := s.taskById[tid := t1]))
  {
    var r := s.(taskById := s.taskById[tid := t1]);
    forall id | id in s.taskById
      ensures var t := s.taskById[id]; var u := r.taskById[id];
        && u == t.(plainStartPrinted := u.plainStartPrinted, downloadStartPrinted := u.downloadStartPrinted, startAt := u.startAt)
        && (t.plainStartPrinted ==> u.plainStartPrinted)
        && (t.downloadStartPrinted ==> u.downloadStartPrinted)
        && (t.startAt != 0 ==> u.startAt == t.startAt)
    {
      if id != tid {
        assert r.taskById[id] == s.taskById[id];
      }
    }
  }

  /**
    A start line is printed at most once per task: printing sets the flag,
    a set flag silences later start lines, and neither the engine nor the
    renderer ever clears it.
   */
  lemma StartLineOnce(now: Time, e: Event, s: EngineState, f: Fmt)
    requires e.etype.TaskStateEvent? || e.etype.TaskUpdateEvent?
    requires Rendering(s, e.taskId)
    ensures var t := s.taskById[e.taskId]; var r := RenderEvent(now, e, s, f);
      && (t.status == Running && t.kind == Generic && t.plainStartPrinted ==> r.lines == [])
      && (t.kind == Download && t.downloadStartPrinted ==> t.status == Running ==> r.lines == [])
      && (t.status == Running && |r.lines| == 1 ==>
            (t.kind == Generic ==> r.state.taskById[e.taskId].plainStartPrinted)
            && (t.kind == Download ==> r.state.taskById[e.taskId].downloadStartPrinted))
  {
  }

  /** Applying an event never clears a printed-once flag. */
  lemma ApplyKeepsFlags(s: EngineState, clock: Time, now: Time, e: Event, id: nat)
    requires id in s.taskById
    ensures var r := ApplyEvent(s, clock, now, e);
      id in r.taskById
      && r.taskById[id].plainStartPrinted == s.taskById[id].plainStartPrinted
      && r.taskById[id].downloadStartPrinted == s.taskById[id].downloadStartPrinted
  {
  }

  /** A download start line names the size, or "?" while no positive total is known. */
  lemma DownloadStartLine(now: Time, s: EngineState, tid: nat, f: Fmt)
    requires tid in s.taskById
    requires var t := s.taskById[tid]; !t.downloadStartPrinted && t.kind == Download && t.status == Running
    ensures var t := s.taskById[tid]; var r := MaybeDownloadStart(now, s, tid, f);
      && r.lines == [WithGroup(GroupTitle(s, t), DownloadStartDetails(t, f))]
      && (t.total <= 0 ==> DownloadSize(t, f) == "?")
      && r.state.taskById[tid].downloadStartPrinted
      && r.state.taskById[tid].startAt == (if t.startAt == 0 then now else t.startAt)
  {
  }

  /** A print event prints its lines in order, nothing else, and changes no state. */
  lemma PrintLinesVerbatim(now: Time, e: Event, s: EngineState, f: Fmt)
    requires e.etype.PrintLinesEvent?
    ensures RenderEvent(now, e, s, f) == Rendered(s, e.lines)
  {
  }
}

=== FILE: probe.dfy ===
/**
  The liveness probe of a playground's command server. It first asks
  `GET /ping`; a server too old to have that endpoint is recognised by its
  `/command` handler refusing a GET with 405 and the reply
  `{ok:false, error:"method not allowed"}`.

  HTTP itself is abstract: each request has an outcome (a status with a
  body, or a transport failure), and a body either decodes to a reply,
  is malformed, or times out while it is being read.
 */
module Probe {
  import opened Text

  /** The JSON reply every command-server endpoint sends. */
  datatype Reply = Reply(ok: bool, message: string, error: string)

  /** Reading and decoding a response body. */
  datatype Body = Decoded(reply: Reply) | Malformed | BodyTimedOut

  /** Why a request got no response: refused, timed out, or anything else. */
  datatype NetFailure = Refused | TimedOut | OtherNet

  /** The outcome of one request; `ctxDone` says the probe's own deadline had passed. */
  datatype HttpOutcome = Response(status: int, body: Body) | TransportError(failure: NetFailure, ctxDone: bool)

  datatype ProbeError =
    | InvalidPort(port: int)
    | Transport(failure: NetFailure)
    | BodyError(timedOut: bool)
    | UnexpectedPing
    | UnexpectedStatus(status: int)
    | UnexpectedResponse

  /** The probe's answer: the server is alive, or the error Go returns with `false`. */
  datatype ProbeOutcome = Alive | NotAlive(err: ProbeError)

  const StatusOK: int := 200
  const StatusMethodNotAllowed: int := 405

  function DecodeError(b: Body): ProbeError
    requires !b.Decoded?
  {
    BodyError(b.BodyTimedOut?)
  }

  /** probePlaygroundCommandServer, given what `/ping` and `/command` would answer. */
  function ProbeServer(port: int, ping: HttpOutcome, command: HttpOutcome): ProbeOutcome
  {
    if port <= 0 then NotAlive(InvalidPort(port))
    else if ping.TransportError? && ping.ctxDone then NotAlive(Transport(ping.failure))
    else if ping.Response? && ping.status == StatusOK then
      if !ping.body.Decoded? then NotAlive(DecodeError(ping.body))
      else if ping.body.reply.ok && TrimSpace(ping.body.reply.message) == "pong" then Alive
      else NotAlive(UnexpectedPing)
    else
      match command
      case TransportError(failure, _) => NotAlive(Transport(failure))
      case Response(status, body) =>
        if !body.Decoded? then NotAlive(DecodeError(body))
        else if status != StatusMethodNotAllowed then NotAlive(UnexpectedStatus(status))
        else if !body.reply.ok && body.reply.error == "method not allowed" then Alive
        else NotAlive(UnexpectedResponse)
  }

  /** isTimeoutErr: a deadline exceeded, or a network error that reports a timeout. */
  predicate IsTimeout(e: ProbeError)
  {
    match e
    case Transport(failure) => failure == TimedOut
    case BodyError(timedOut) => timedOut
    case _ => false
  }

  /** Whether the probe was refused at the connection level. */
  predicate IsRefused(e: ProbeError)
  {
    e == Transport(Refused)
  }

  // ---------------------------------------------------------------------
  // What the probe promises
  // ---------------------------------------------------------------------

  /** A `/ping` that says pong. */
  predicate Pong(ping: HttpOutcome)
  {
    ping.Response? && ping.status == StatusOK && ping.body.Decoded?
    && ping.body.reply.ok && TrimSpace(ping.body.reply.message) == "pong"
  }

  /** A `/ping` that does not settle the question, so `/command` is asked. */
  predicate FallsBack(ping: HttpOutcome)
  {
    (ping.Response? && ping.status != StatusOK) || (ping.TransportError? && !ping.ctxDone)
  }

  /** The legacy answer of `/command` to a GET. */
  predicate MethodRefused(command: HttpOutcome)
  {
    command.Response? && command.status == StatusMethodNotAllowed && command.body.Decoded?
    && !command.body.reply.ok && command.body.reply.error == "method not allowed"
  }

  /**
    The server is alive exactly when the port is positive and either `/ping`
    says pong, or `/ping` falls back and `/command` refuses the GET.
   */
  lemma AliveIff(port: int, ping: HttpOutcome, command: HttpOutcome)
    ensures ProbeServer(port, ping, command) == Alive
      <==> port > 0 && (Pong(ping) || (FallsBack(ping) && MethodRefused(command)))
  {
  }

  /** A 200 `/ping` decides on its own: `/command` is never consulted. */
  lemma PingDecides(port: int, ping: HttpOutcome, c1: HttpOutcome, c2: HttpOutcome)
    requires !FallsBack(ping)
    ensures ProbeServer(port, ping, c1) == ProbeServer(port, ping, c2)
    ensures port > 0 && ping.Response? && !Pong(ping) ==> ProbeServer(port, ping, c1).NotAlive?
  {
  }

  /**
    A timeout is reported only when some request or body read timed out;
    a reply from the server, however unexpected, is never a timeout.
   */
  lemma TimeoutOnlyFromNetwork(port: int, ping: HttpOutcome, command: HttpOutcome)
    requires ProbeServer(port, ping, command).NotAlive?
    ensures IsTimeout(ProbeServer(port, ping, command).err) ==>
      port > 0 && (Timed(ping) || (FallsBack(ping) && Timed(command)))
  {
  }

  /** The request itself timed out, or its body did. */
  predicate Timed(o: HttpOutcome)
  {
    match o
    case TransportError(failure, _) => failure == TimedOut
    case Response(_, body) => body.BodyTimedOut?
  }
}

=== FILE: rfc3339.dfy ===
/**
  RFC 3339 timestamps as the pid file stores them in its `started_at=` line:
  the writer prints a UTC time with Go's RFC3339 layout
  (`2006-01-02T15:04:05Z07:00`), and the reader accepts the fixed-width
  form of section 5.6 of RFC 3339 (date, `T`, time, optional fraction,
  `Z` or a numeric offset) with Go's range checks on every field.
 */
module Rfc3339 {
  import opened Base
  import opened Text

  /** A civil date and time of day, to the second. */
  datatype Civil = Civil(year: nat, month: nat, day: nat, hour: nat, minute: nat, second: nat)

  /** A parsed timestamp: the civil fields as written, the fraction and the zone offset. */
  datatype Timestamp = Timestamp(civil: Civil, nanos: nat, offsetMinutes: int)

  predicate IsLeap(year: nat)
  {
    year % 4 == 0 && (year % 100 != 0 || year % 400 == 0)
  }

  /** Go's daysIn: the length of `month` in `year`. */
  function DaysIn(month: nat, year: nat): nat
    requires 1 <= month <= 12
  {
    if month == 2 then (if IsLeap(year) then 29 else 28)
    else if month == 4 || month == 6 || month == 9 || month == 11 then 30
    else 31
  }

  /** The ranges Go's RFC 3339 parser enforces (four-digit years). */
  predicate ValidCivil(c: Civil)
  {
    && c.year <= 9999
    && 1 <= c.month <= 12
    && 1 <= c.day <= DaysIn(c.month, c.year)
    && c.hour <= 23 && c.minute <= 59 && c.second <= 59
  }

  /**
    A fixed-width decimal field whose value lies in [lo, hi]; what it
    accepts is below 10 to the power of its width, and the writer's
    zero-padded fields read back through it (PadField).
   */
  function Field(s: string, lo: nat, hi: nat): (r: Option<nat>)
    ensures r.Some? <==> AllDigits(s) && lo <= DigitsValue(s) <= hi
    ensures r.Some? ==> r.value == DigitsValue(s)
    ensures r.Some? ==> lo <= r.value <= hi && r.value < Pow10(|s|)
  {
    if AllDigits(s) && lo <= DigitsValue(s) <= hi then
      DigitsBound(s);
      Some(DigitsValue(s))
    else None
  }

  /** The length of the run of decimal digits at the start of `s`. */
  function DigitRun(s: string): (k: nat)
    ensures k <= |s| && AllDigits(s[..k])
    ensures k == |s| || !IsDigit(s[k])
  {
    if |s| > 0 && IsDigit(s[0]) then
      var k := 1 + DigitRun(s[1..]);
      assert s[..k] == [s[0]] + s[1..][..k - 1];
      k
    else 0
  }

  function Pow10(n: nat): (r: nat)
    ensures r >= 1
  {
    if n == 0 then 1 else 10 * Pow10(n - 1)
  }

  /** The nanoseconds of a fraction: its first nine digits, scaled; further digits are ignored. */
  function FractionNanos(ds: string): (r: nat)
    requires AllDigits(ds)
  {
    var n := if |ds| < 9 then |ds| else 9;
    assert AllDigits(ds[..n]);
    DigitsValue(ds[..n]) * Pow10(9 - n)
  }

  /** A numeric zone offset as RFC 3339 spells it: `+hh:mm` or `-hh:mm`, hours to 23, minutes to 59. */
  predicate NumericZone(z: string)
  {
    && |z| == 6 && (z[0] == '+' || z[0] == '-') && z[3] == ':'
    && AllDigits(z[1..3]) && AllDigits(z[4..6])
    && DigitsValue(z[1..3]) <= 23 && DigitsValue(z[4..6]) <= 59
  }

  /**
    The zone designator: `Z`, or a numeric offset. Its value in minutes is
    signed as written and stays strictly within a day either way.
   */
  function ParseZone(z: string): (r: Option<int>)
    ensures r.Some? <==> z == "Z" || NumericZone(z)
    ensures z == "Z" ==> r == Some(0)
    ensures r.Some? && z != "Z" ==>
      var magnitude := 60 * DigitsValue(z[1..3]) + DigitsValue(z[4..6]);
      r.value == (if z[0] == '-' then 0 - magnitude else magnitude)
    ensures r.Some? ==> -24 * 60 < r.value < 24 * 60
  {
    if z == "Z" then Some(0)
    else if |z| != 6 then None
    else
      var hr := Field(z[1..3], 0, 23);
      var mm := Field(z[4..6], 0, 59);
      var signOk := z[0] == '-' || z[0] == '+';
      if hr.None? || mm.None? || !signOk || z[3] != ':' then None
      else
        var magnitude := hr.value * 60 + mm.value;
        Some(if z[0] == '-' then 0 - magnitude else magnitude)
  }

  /**
    The strict fast path of Go's time.Parse with the RFC3339 layout: the
    fixed-width fields, an optional fraction and the zone designator.
   */
  function Parse(s: string): (r: Option<Timestamp>)
    ensures r.Some? ==> ValidCivil(r.value.civil) && r.value.nanos < 1_000_000_000
  {
    if |s| < 19 then None
    else
      var year := Field(s[0..4], 0, 9999);
      var month := Field(s[5..7], 1, 12);
      if year.None? || month.None? then None
      else
        var day := Field(s[8..10], 1, DaysIn(month.value, year.value));
        var hour := Field(s[11..13], 0, 23);
        var minute := Field(s[14..16], 0, 59);
        var second := Field(s[17..19], 0, 59);
        if day.None? || hour.None? || minute.None? || second.None? then None
        else if !(s[4] == '-' && s[7] == '-' && s[10] == 'T' && s[13] == ':' && s[16] == ':') then None
        else
          var rest := s[19..];
          var hasFraction := |rest| >= 2 && rest[0] == '.' && IsDigit(rest[1]);
          var digits := if hasFraction then rest[1..][..DigitRun(rest[1..])] else "";
          var n := if hasFraction then 1 + |digits| else 0;
          var nanos := FractionNanos(digits);
          var zone := ParseZone(rest[n..]);
          if zone.None? then None
          else
            var c := Civil(year.value, month.value, day.value, hour.value, minute.value, second.value);
            assert nanos < 1_000_000_000 by { FractionBound(digits); }
            Some(Timestamp(c, nanos, zone.value))
  }

  lemma FractionBound(ds: string)
    requires AllDigits(ds)
    ensures FractionNanos(ds) < 1_000_000_000
  {
    var k := if |ds| < 9 then |ds| else 9;
    assert AllDigits(ds[..k]);
    DigitsBound(ds[..k]);
    PowSplit(k, 9 - k);
    MulLess(DigitsValue(ds[..k]), Pow10(k), Pow10(9 - k));
    Pow10Nine();
  }

  lemma MulLess(v: nat, a: nat, p: nat)
    requires v < a && p >= 1
    ensures v * p < a * p
  {
  }

  lemma Pow10Nine()
    ensures Pow10(9) == 1_000_000_000
  {
    assert Pow10(3) == 1000;
    assert Pow10(6) == 1000 * Pow10(3) by { PowSplit(3, 3); }
    assert Pow10(9) == 1000 * Pow10(6) by { PowSplit(3, 6); }
  }

  lemma {:induction false} DigitsBound(ds: string)
    requires AllDigits(ds)
    ensures DigitsValue(ds) < Pow10(|ds|)
  {
    if |ds| > 0 {
      DigitsBound(ds[..|ds| - 1]);
    }
  }

  lemma {:induction false} PowSplit(a: nat, b: nat)
    ensures Pow10(a) * Pow10(b) == Pow10(a + b)
  {
    if a > 0 {
      PowSplit(a - 1, b);
    }
  }

  // ---------------------------------------------------------------------
  // The writer: time.Now().UTC().Format(time.RFC3339)
  // ---------------------------------------------------------------------

  function Pad2(n: nat): (s: string)
    requires n < 100
    ensures |s| == 2 && AllDigits(s)
  {
    [DigitChar(n / 10), DigitChar(n % 10)]
  }

  function Pad4(n: nat): (s: string)
    requires n < 10000
    ensures |s| == 4 && AllDigits(s)
  {
    [DigitChar(n / 1000), DigitChar(n / 100 % 10), DigitChar(n / 10 % 10), DigitChar(n % 10)]
  }

  /** A UTC time printed with Go's RFC3339 layout: whole seconds and a `Z`. */
  function Format(c: Civil): (s: string)
    requires ValidCivil(c)
    ensures |s| == 20
  {
    Pad4(c.year) + "-" + Pad2(c.month) + "-" + Pad2(c.day) + "T"
      + Pad2(c.hour) + ":" + Pad2(c.minute) + ":" + Pad2(c.second) + "Z"
  }

  lemma Pad2Value(n: nat)
    requires n < 100
    ensures DigitsValue(Pad2(n)) == n
  {
    var s := Pad2(n);
    assert s[..1][..0] == [];
    assert DigitsValue(s[..1]) == n / 10;
  }

  lemma Pad4Value(n: nat)
    requires n < 10000
    ensures DigitsValue(Pad4(n)) == n
  {
    var s := Pad4(n);
    assert s[..1][..0] == [];
    assert s[..2][..1] == s[..1];
    assert s[..3][..2] == s[..2];
    assert DigitsValue(s[..1]) == n / 1000;
    assert DigitsValue(s[..2]) == n / 100;
    assert DigitsValue(s[..3]) == n / 10;
  }

  /** The writer's zero-padded fields read back through Field exactly when they are in range. */
  lemma PadField(n: nat, lo: nat, hi: nat)
    requires n < 10000
    ensures n < 100 ==> Field(Pad2(n), lo, hi) == (if lo <= n <= hi then Some(n) else None)
    ensures Field(Pad4(n), lo, hi) == (if lo <= n <= hi then Some(n) else None)
  {
    if n < 100 {
      Pad2Value(n);
    }
    Pad4Value(n);
  }

  /** What the pid-file writer prints, the reader parses back: same fields, UTC, no fraction. */
  lemma ParseFormat(c: Civil)
    requires ValidCivil(c)
    ensures Parse(Format(c)) == Some(Timestamp(c, 0, 0))
  {
    var s := Format(c);
    assert s[0..4] == Pad4(c.year);
    assert s[5..7] == Pad2(c.month);
    assert s[8..10] == Pad2(c.day);
    assert s[11..13] == Pad2(c.hour);
    assert s[14..16] == Pad2(c.minute);
    assert s[17..19] == Pad2(c.second);
    Pad4Value(c.year);
    Pad2Value(c.month);
    Pad2Value(c.day);
    Pad2Value(c.hour);
    Pad2Value(c.minute);
    Pad2Value(c.second);
    assert s[19..] == "Z";
  }
}

=== FILE: runtime_files.dfy ===
/**
  Ownership of a playground data directory through two runtime files: the
  `pid` file names the owning process, the `port` file its command
  server. Whoever starts a playground first removes what a dead owner
  left behind (cleanup), then creates the pid file exclusively (claim);
  whoever stops one polls until the owner is gone (wait).

  The directory is abstract: what reading and stat-ing the pid file
  would show, and what loading the port file would give. The host is a
  pair of oracles: kill(pid, 0) and the command-server probe of a port.
  Removals are returned as a set of files rather than performed; a file
  that is already gone is removed without complaint, as in the source.
 */
module RuntimeFiles {
  import opened Base
  import opened Text
  import opened Rfc3339
  import opened PidRecord
  import opened Probe
  import opened Kill

  /** A pid file younger than this may still be being written by its owner. */
  const GraceMs: int := 2000
  /** The wait timeout used when the caller passes none. */
  const DefaultWaitMs: int := 60_000
  /** The pause between two polls of waitPlaygroundStopped. */
  const PollMs: int := 200

  datatype RuntimeFile = PidPath | PortPath

  /** What os.Stat says about a pid file that could not be parsed. */
  datatype Stat = Aged(ageMs: int) | StatNotExist | StatFailed

  /**
    The pid file: absent, or present with its contents (None when reading
    fails for a reason other than absence) and what stat reports.
   */
  datatype PidState = NoPidFile | PidFileAt(contents: Option<string>, stat: Stat)

  /** loadPort: no port file, a failure to load it, or the number it holds. */
  datatype PortState = NoPortFile | PortLoadFailed | PortValue(port: int)

  datatype Dir = Dir(pid: PidState, port: PortState)

  /** kill(pid, 0) and the probe of the command server on a port. */
  datatype Host = Host(signal0: int -> Option<Errno>, probe: int -> ProbeOutcome)

  /** What readPIDFile gives for the pid slot. */
  datatype PidRead = NotExist | ReadFailed | Parsed(record: PidFile) | Rejected(err: ReadError)

  function ReadPid(p: PidState): (r: PidRead)
    ensures r.NotExist? <==> p.NoPidFile?
    ensures r.Parsed? ==> p.PidFileAt? && p.contents.Some? && ReadPidFile(p.contents.value) == Ok(r.record)
  {
    match p
    case NoPidFile => NotExist
    case PidFileAt(None, _) => ReadFailed
    case PidFileAt(Some(data), _) =>
      match ReadPidFile(data)
      case Ok(rec) => Parsed(rec)
      case Err(e) => Rejected(e)
  }

  /** The directory after the given files were removed. */
  function Remove(d: Dir, rm: set<RuntimeFile>): (r: Dir)
    ensures r.pid == (if PidPath in rm then NoPidFile else d.pid)
    ensures r.port == (if PortPath in rm then NoPortFile else d.port)
  {
    Dir(if PidPath in rm then NoPidFile else d.pid, if PortPath in rm then NoPortFile else d.port)
  }

  /**
    Removing a missing file is harmless: removing nothing changes nothing,
    two removals are one removal of both sets, and repeating a removal
    changes nothing more.
   */
  lemma RemoveCompose(d: Dir, a: set<RuntimeFile>, b: set<RuntimeFile>)
    ensures Remove(d, {}) == d
    ensures Remove(Remove(d, a), b) == Remove(d, a + b)
    ensures Remove(Remove(d, a), a) == Remove(d, a)
    ensures Remove(Remove(d, a), b) == Remove(Remove(d, b), a)
  {
  }

  // ---------------------------------------------------------------------
  // isPIDRunning
  // ---------------------------------------------------------------------

  datatype RunError = InvalidPidValue(pid: int) | SignalFailed(errno: Errno)

  /** A positive pid is running when signal 0 succeeds or is merely refused (EPERM). */
  function IsPidRunning(pid: int, signal0: int -> Option<Errno>): (r: Result<bool, RunError>)
    ensures pid <= 0 <==> r == Err(InvalidPidValue(pid))
    ensures r == Ok(true) <==> pid > 0 && (signal0(pid) == None || signal0(pid) == Some(EPERM))
    ensures r == Ok(false) <==> pid > 0 && signal0(pid) == Some(ESRCH)
  {
    if pid <= 0 then Err(InvalidPidValue(pid))
    else
      match signal0(pid)
      case None => Ok(true)
      case Some(EPERM) => Ok(true)
      case Some(ESRCH) => Ok(false)
      case Some(e) => Err(SignalFailed(e))
  }

  // ---------------------------------------------------------------------
  // cleanupStaleRuntimeFiles
  // ---------------------------------------------------------------------

  datatype CleanupError =
    | DataDirEmpty
    | CheckPidFailed(pid: int, cause: RunError)
    | RunningPid(pid: int)
    | StatError
    | Starting
    | RunningPort(port: int)
    | ProbeTimedOut(port: int)
    | PortLoadError

  /** Either the owner still looks alive (an error) or the files that are removed. */
  function Cleanup(dataDir: string, d: Dir, h: Host): (r: Result<set<RuntimeFile>, CleanupError>)
  {
    if TrimSpace(dataDir) == "" then Err(DataDirEmpty)
    else
      match ReadPid(d.pid)
      case Parsed(rec) =>
        (match IsPidRunning(rec.pid, h.signal0)
         case Err(e) => Err(CheckPidFailed(rec.pid, e))
         case Ok(running) => if running then Err(RunningPid(rec.pid)) else Ok({PidPath, PortPath}))
      case NotExist => CleanupPort(d.port, h)
      case ReadFailed => CleanupUnparsed(d.pid.stat, d.port, h)
      case Rejected(_) => CleanupUnparsed(d.pid.stat, d.port, h)
  }

  /** A pid file that is there but unusable: its age decides, unless stat fails or finds it gone. */
  function CleanupUnparsed(stat: Stat, port: PortState, h: Host): Result<set<RuntimeFile>, CleanupError>
  {
    match stat
    case StatFailed => Err(StatError)
    case StatNotExist => CleanupPort(port, h)
    case Aged(age) => if 0 <= age < GraceMs then Err(Starting) else CleanupCorruptPid(port, h)
  }

  /** An old pid file that cannot be parsed: the port probe is the safety net. */
  function CleanupCorruptPid(port: PortState, h: Host): Result<set<RuntimeFile>, CleanupError>
  {
    if port.PortValue? && port.port > 0 then
      match h.probe(port.port)
      case Alive => Err(RunningPort(port.port))
      case NotAlive(e) => if IsTimeout(e) then Err(ProbeTimedOut(port.port)) else Ok({PidPath, PortPath})
    else Ok({PidPath, PortPath})
  }

  /** No pid file: only a port file may be left over. */
  function CleanupPort(port: PortState, h: Host): Result<set<RuntimeFile>, CleanupError>
  {
    match port
    case NoPortFile => Ok({})
    case PortLoadFailed => Err(PortLoadError)
    case PortValue(p) =>
      if p <= 0 then Ok({})
      else
        match h.probe(p)
        case Alive => Err(RunningPort(p))
        case NotAlive(e) => if IsTimeout(e) then Err(ProbeTimedOut(p)) else Ok({PortPath})
  }

  /** The owner named by the pid file is known to be gone. */
  predicate PidOwnerDead(p: PidState, h: Host)
  {
    match ReadPid(p)
    case Parsed(rec) => rec.pid > 0 && h.signal0(rec.pid) == Some(ESRCH)
    case _ => false
  }

  /** An unparsable pid file that is old enough (or dated in the future) to be stale. */
  predicate PidFileStale(p: PidState)
  {
    p.PidFileAt? && !ReadPid(p).Parsed? && p.stat.Aged? && !(0 <= p.stat.ageMs < GraceMs)
  }

  /** The port file names no command server that answers or hangs. */
  predicate PortSilent(port: PortState, h: Host)
  {
    port.PortValue? && port.port > 0 ==> h.probe(port.port).NotAlive? && !IsTimeout(h.probe(port.port).err)
  }

  /**
    Cleanup removes a file only on evidence that its owner is gone: the
    pid file when its pid is dead or it is stale and the port is silent,
    the port file alone only when there is no pid file to go by.
   */
  lemma CleanupSafety(dataDir: string, d: Dir, h: Host)
    requires Cleanup(dataDir, d, h).Ok?
    ensures var rm := Cleanup(dataDir, d, h).value;
      && (PidPath in rm ==> PidOwnerDead(d.pid, h) || (PidFileStale(d.pid) && PortSilent(d.port, h)))
      && (PortPath in rm ==> PidPath in rm || (d.port.PortValue? && d.port.port > 0 && PortSilent(d.port, h)))
      && (rm == {PidPath, PortPath} || rm == {PortPath} || rm == {})
  {
    var rm := Cleanup(dataDir, d, h).value;
    match ReadPid(d.pid)
    case Parsed(rec) =>
      assert IsPidRunning(rec.pid, h.signal0) == Ok(false);
    case NotExist =>
      CleanupPortSafety(d.port, h);
    case ReadFailed =>
      CleanupUnparsedSafety(d.pid.stat, d.port, h);
    case Rejected(_) =>
      CleanupUnparsedSafety(d.pid.stat, d.port, h);
  }

  lemma CleanupPortSafety(port: PortState, h: Host)
    requires CleanupPort(port, h).Ok?
    ensures var rm := CleanupPort(port, h).value;
      && PidPath !in rm
      && (PortPath in rm ==> port.PortValue? && port.port > 0 && PortSilent(port, h))
      && (rm == {PortPath} || rm == {})
  {
  }

  lemma CleanupUnparsedSafety(stat: Stat, port: PortState, h: Host)
    requires CleanupUnparsed(stat, port, h).Ok?
    ensures var rm := CleanupUnparsed(stat, port, h).value;
      && (PidPath in rm ==> stat.Aged? && !(0 <= stat.ageMs < GraceMs) && PortSilent(port, h))
      && (PortPath in rm ==> PidPath in rm || (port.PortValue? && port.port > 0 && PortSilent(port, h)))
      && (rm == {PidPath, PortPath} || rm == {PortPath} || rm == {})
  {
    if stat.StatNotExist? {
      CleanupPortSafety(port, h);
    }
  }

  /** A parseable pid decides alone: live means "already running", dead means both files go. */
  lemma CleanupParsedPid(dataDir: string, d: Dir, h: Host, pid: int)
    requires TrimSpace(dataDir) != "" && ReadPid(d.pid).Parsed? && ReadPid(d.pid).record.pid == pid
    ensures pid > 0 && (h.signal0(pid) == None || h.signal0(pid) == Some(EPERM)) ==> Cleanup(dataDir, d, h) == Err(RunningPid(pid))
    ensures pid > 0 && h.signal0(pid) == Some(ESRCH) ==> Cleanup(dataDir, d, h) == Ok({PidPath, PortPath})
    ensures pid <= 0 ==> Cleanup(dataDir, d, h) == Err(CheckPidFailed(pid, InvalidPidValue(pid)))
  {
  }

  /** A pid file that cannot be parsed and is less than two seconds old is left to its writer. */
  lemma CleanupGraceWindow(dataDir: string, d: Dir, h: Host)
    requires TrimSpace(dataDir) != "" && d.pid.PidFileAt? && !ReadPid(d.pid).Parsed?
    requires d.pid.stat.Aged? && 0 <= d.pid.stat.ageMs < GraceMs
    ensures Cleanup(dataDir, d, h) == Err(Starting)
  {
  }

  /** An old unparsable pid file: a live or hanging server keeps both files, anything else removes both. */
  lemma CleanupStalePid(dataDir: string, d: Dir, h: Host, p: int)
    requires TrimSpace(dataDir) != "" && PidFileStale(d.pid)
    ensures d.port == PortValue(p) && p > 0 && h.probe(p) == Alive ==> Cleanup(dataDir, d, h) == Err(RunningPort(p))
    ensures d.port == PortValue(p) && p > 0 && h.probe(p).NotAlive? && IsTimeout(h.probe(p).err)
      ==> Cleanup(dataDir, d, h) == Err(ProbeTimedOut(p))
    ensures PortSilent(d.port, h) ==> Cleanup(dataDir, d, h) == Ok({PidPath, PortPath})
  {
  }

  /** No pid file: the port file alone is judged by the probe. */
  lemma CleanupNoPid(dataDir: string, d: Dir, h: Host, p: int)
    requires TrimSpace(dataDir) != "" && d.pid.NoPidFile?
    ensures d.port.NoPortFile? ==> Cleanup(dataDir, d, h) == Ok({})
    ensures d.port.PortLoadFailed? ==> Cleanup(dataDir, d, h) == Err(PortLoadError)
    ensures d.port == PortValue(p) && p <= 0 ==> Cleanup(dataDir, d, h) == Ok({})
    ensures d.port == PortValue(p) && p > 0 && h.probe(p) == Alive ==> Cleanup(dataDir, d, h) == Err(RunningPort(p))
    ensures d.port == PortValue(p) && p > 0 && h.probe(p).NotAlive? && IsTimeout(h.probe(p).err)
      ==> Cleanup(dataDir, d, h) == Err(ProbeTimedOut(p))
    ensures d.port == PortValue(p) && p > 0 && PortSilent(d.port, h) ==> Cleanup(dataDir, d, h) == Ok({PortPath})
  {
  }

  /** A pid file that could not be read and that stat then finds gone: it vanished in between. */
  predicate Vanished(p: PidState)
  {
    p.PidFileAt? && p.stat.StatNotExist? && !ReadPid(p).Parsed?
  }

  /** The directory as cleanup leaves it knowing: a vanished pid file is no pid file. */
  function Observed(d: Dir): (r: Dir)
    ensures r.port == d.port
    ensures r.pid.NoPidFile? <==> d.pid.NoPidFile? || Vanished(d.pid)
    ensures !r.pid.NoPidFile? ==> r.pid == d.pid
  {
    if Vanished(d.pid) then d.(pid := NoPidFile) else d
  }

  /** Cleanup judges a vanished pid file exactly as it judges no pid file at all. */
  lemma CleanupObserved(dataDir: string, d: Dir, h: Host)
    ensures Cleanup(dataDir, Observed(d), h) == Cleanup(dataDir, d, h)
  {
    if Vanished(d.pid) {
      var r := ReadPid(d.pid);
      assert r.ReadFailed? || r.Rejected?;
      assert Cleanup(dataDir, d, h) == (if TrimSpace(dataDir) == "" then Err(DataDirEmpty) else CleanupPort(d.port, h));
    }
  }

  /** Once cleanup has succeeded, the directory it leaves behind is clean on a second look. */
  lemma CleanupLeavesNoPidFile(dataDir: string, d: Dir, h: Host)
    requires Cleanup(dataDir, d, h).Ok?
    ensures Remove(Observed(d), Cleanup(dataDir, d, h).value).pid == NoPidFile
    ensures Remove(Observed(d), Cleanup(dataDir, d, h).value).port == Remove(d, Cleanup(dataDir, d, h).value).port
  {
    var rm := Cleanup(dataDir, d, h).value;
    match ReadPid(d.pid)
    case Parsed(_) =>
      assert PidPath in rm;
    case NotExist =>
    case _ =>
      if !Vanished(d.pid) {
        assert d.pid.stat.Aged?;
        assert PidPath in rm;
      }
  }

  // ---------------------------------------------------------------------
  // claimPlaygroundPIDFile
  // ---------------------------------------------------------------------

  /** A failure of a file-system call other than "already exists". */
  datatype OsError = OsError(code: int)

  /**
    What happens around the claimer: whether mkdir fails; before create
    attempt k, whether a rival leaves a pid file of its own and whether
    the exclusive create fails for another reason; whether writing or
    closing the new file fails.
   */
  datatype ClaimIo = ClaimIo(
    mkdir: Option<OsError>,
    rival: nat -> Option<PidState>,
    create: nat -> Option<OsError>,
    write: Option<OsError>,
    close: Option<OsError>)

  /** The claimer itself: its pid, the UTC time it starts, the tag it claims for. */
  datatype Claimer = Claimer(pid: int, now: Civil, tag: string)

  datatype ClaimError =
    | ClaimDataDirEmpty
    | TagEmpty
    | MkdirFailed(e: OsError)
    | InUse(tag: string, cause: CleanupError)
    | CreateFailed(e: OsError)
    | WriteFailed(e: OsError)
    | CloseFailed(e: OsError)
    | RetriesExhausted

  /** The claim's result and the directory it leaves. */
  datatype ClaimOutcome = ClaimOutcome(result: Result<(), ClaimError>, dir: Dir)

  /** The pid file a successful claim leaves. */
  function ClaimedPidFile(me: Claimer): PidState
    requires ValidCivil(me.now)
  {
    PidFileAt(Some(FormatRecord(me.pid, me.now, me.tag)), Aged(0))
  }

  /** claimPlaygroundPIDFile, with at most `fuel` create attempts after the first cleanup. */
  function Claim(dataDir: string, me: Claimer, d: Dir, h: Host, io: ClaimIo, fuel: nat): (r: ClaimOutcome)
    requires ValidCivil(me.now)
    ensures r.result.Ok? ==> r.dir.pid == ClaimedPidFile(me)
  {
    if TrimSpace(dataDir) == "" then ClaimOutcome(Err(ClaimDataDirEmpty), d)
    else if TrimSpace(me.tag) == "" then ClaimOutcome(Err(TagEmpty), d)
    else if io.mkdir.Some? then ClaimOutcome(Err(MkdirFailed(io.mkdir.value)), d)
    else
      match Cleanup(dataDir, d, h)
      case Err(e) => ClaimOutcome(Err(InUse(me.tag, e)), d)
      case Ok(rm) => Attempt(dataDir, me, Remove(Observed(d), rm), h, io, 0, fuel)
  }

  /** One pass of the create loop: exclusive create, or cleanup and try again. */
  function Attempt(dataDir: string, me: Claimer, d: Dir, h: Host, io: ClaimIo, k: nat, fuel: nat): (r: ClaimOutcome)
    requires ValidCivil(me.now)
    ensures r.result.Ok? ==> r.dir.pid == ClaimedPidFile(me)
    decreases fuel
  {
    if fuel == 0 then ClaimOutcome(Err(RetriesExhausted), d)
    else
      var seen := if io.rival(k).Some? then d.(pid := io.rival(k).value) else d;
      if seen.pid.NoPidFile? then
        if io.create(k).Some? then ClaimOutcome(Err(CreateFailed(io.create(k).value)), seen)
        else if io.write.Some? then ClaimOutcome(Err(WriteFailed(io.write.value)), seen)
        else if io.close.Some? then ClaimOutcome(Err(CloseFailed(io.close.value)), seen)
        else ClaimOutcome(Ok(()), seen.(pid := ClaimedPidFile(me)))
      else
        match Cleanup(dataDir, seen, h)
        case Err(e) => ClaimOutcome(Err(InUse(me.tag, e)), seen)
        case Ok(rm) => Attempt(dataDir, me, Remove(Observed(seen), rm), h, io, k + 1, fuel - 1)
  }

  /** The function release returns: it removes the pid file and nothing else. */
  function Release(d: Dir): (r: Dir)
    ensures r.pid.NoPidFile? && r.port == d.port
  {
    Remove(d, {PidPath})
  }

  /** No rival and no I/O failure. */
  ghost predicate Quiet(io: ClaimIo)
  {
    io.mkdir.None? && io.write.None? && io.close.None?
    && (forall k :: io.rival(k).None?) && (forall k :: io.create(k).None?)
  }

  /**
    Without rivals or I/O failures, a claim succeeds exactly when cleanup
    does, and otherwise reports cleanup's verdict as "already in use".
   */
  lemma ClaimQuiet(dataDir: string, me: Claimer, d: Dir, h: Host, io: ClaimIo, fuel: nat)
    requires ValidCivil(me.now) && Quiet(io) && fuel >= 1
    requires TrimSpace(dataDir) != "" && TrimSpace(me.tag) != ""
    ensures Claim(dataDir, me, d, h, io, fuel).result.Ok? <==> Cleanup(dataDir, d, h).Ok?
    ensures Cleanup(dataDir, d, h).Err? ==>
      Claim(dataDir, me, d, h, io, fuel) == ClaimOutcome(Err(InUse(me.tag, Cleanup(dataDir, d, h).error)), d)
    ensures Claim(dataDir, me, d, h, io, fuel).result.Ok? ==>
      Claim(dataDir, me, d, h, io, fuel).dir == Dir(ClaimedPidFile(me), Remove(d, Cleanup(dataDir, d, h).value).port)
  {
    if Cleanup(dataDir, d, h).Ok? {
      CleanupLeavesNoPidFile(dataDir, d, h);
    }
  }

  /**
    A pid file that vanished between the read and the stat does not block
    the claim: with no port file left either, a quiet claim succeeds.
   */
  lemma ClaimOverVanishedPidFile(dataDir: string, me: Claimer, d: Dir, h: Host, io: ClaimIo, fuel: nat)
    requires ValidCivil(me.now) && Quiet(io) && fuel >= 1
    requires TrimSpace(dataDir) != "" && TrimSpace(me.tag) != ""
    requires Vanished(d.pid) && d.port == NoPortFile
    ensures Claim(dataDir, me, d, h, io, fuel) == ClaimOutcome(Ok(()), Dir(ClaimedPidFile(me), NoPortFile))
  {
    ClaimQuiet(dataDir, me, d, h, io, fuel);
    CleanupObserved(dataDir, d, h);
    assert Cleanup(dataDir, Observed(d), h) == Ok({});
  }

  /**
    Every failure leaves no pid file of the claimer's: an "in use" error
    reports cleanup's verdict on the directory as the claimer last saw it,
    which it left as it was; a failed write or close removes the new file.
   */
  lemma {:induction false} AttemptFailure(dataDir: string, me: Claimer, d: Dir, h: Host, io: ClaimIo, k: nat, fuel: nat)
    requires ValidCivil(me.now) && TrimSpace(dataDir) != ""
    ensures var r := Attempt(dataDir, me, d, h, io, k, fuel);
      && (r.result.Err? && r.result.error.InUse? ==>
            r.result.error.tag == me.tag && Cleanup(dataDir, r.dir, h) == Err(r.result.error.cause))
      && ((r.result.Err? && (r.result.error.WriteFailed? || r.result.error.CloseFailed? || r.result.error.CreateFailed?)) ==> r.dir.pid.NoPidFile?)
    decreases fuel
  {
    if fuel > 0 {
      var seen := if io.rival(k).Some? then d.(pid := io.rival(k).value) else d;
      if !seen.pid.NoPidFile? && Cleanup(dataDir, seen, h).Ok? {
        AttemptFailure(dataDir, me, Remove(Observed(seen), Cleanup(dataDir, seen, h).value), h, io, k + 1, fuel - 1);
      }
    }
  }

  /** The claim's own failures: the same facts, and the up-front rejections change nothing. */
  lemma ClaimFailure(dataDir: string, me: Claimer, d: Dir, h: Host, io: ClaimIo, fuel: nat)
    requires ValidCivil(me.now)
    ensures TrimSpace(dataDir) == "" ==> Claim(dataDir, me, d, h, io, fuel) == ClaimOutcome(Err(ClaimDataDirEmpty), d)
    ensures TrimSpace(dataDir) != "" && TrimSpace(me.tag) == "" ==> Claim(dataDir, me, d, h, io, fuel) == ClaimOutcome(Err(TagEmpty), d)
    ensures var r := Claim(dataDir, me, d, h, io, fuel);
      r.result.Err? && r.result.error.InUse? ==>
        r.result.error.tag == me.tag && Cleanup(dataDir, r.dir, h) == Err(r.result.error.cause)
  {
    if TrimSpace(dataDir) != "" && TrimSpace(me.tag) != "" && io.mkdir.None? && Cleanup(dataDir, d, h).Ok? {
      AttemptFailure(dataDir, me, Remove(Observed(d), Cleanup(dataDir, d, h).value), h, io, 0, fuel);
    }
  }

  /**
    A second claim while the first claimer is alive is refused: the pid
    file it wrote reads back to its pid, and signal 0 reaches that pid.
   */
  lemma SecondClaimRefused(dataDir: string, first: Claimer, second: Claimer, port: PortState, h: Host, io: ClaimIo, fuel: nat)
    requires ValidCivil(first.now) && ValidCivil(second.now)
    requires 0 < first.pid <= Int64Max && '\n' !in first.tag
    requires TrimSpace(dataDir) != "" && TrimSpace(second.tag) != "" && io.mkdir.None?
    requires h.signal0(first.pid) == None
    ensures var d := Dir(ClaimedPidFile(first), port);
      Claim(dataDir, second, d, h, io, fuel) == ClaimOutcome(Err(InUse(second.tag, RunningPid(first.pid))), d)
  {
    var d := Dir(ClaimedPidFile(first), port);
    ClaimedPidFileReads(first);
    CleanupParsedPid(dataDir, d, h, first.pid);
    ClaimRefused(dataDir, second, d, h, io, fuel);
  }

  /** The pid file a claim writes reads back to the claimer's pid, start time and trimmed tag. */
  lemma ClaimedPidFileReads(me: Claimer)
    requires ValidCivil(me.now) && 0 < me.pid <= Int64Max && '\n' !in me.tag
    ensures ReadPid(ClaimedPidFile(me)) == Parsed(PidFile(me.pid, Some(Timestamp(me.now, 0, 0)), TrimSpace(me.tag)))
  {
    ReadFormatRecord(me.pid, me.now, me.tag);
  }

  /** When cleanup refuses, so does the claim, before touching anything. */
  lemma ClaimRefused(dataDir: string, me: Claimer, d: Dir, h: Host, io: ClaimIo, fuel: nat)
    requires ValidCivil(me.now) && TrimSpace(dataDir) != "" && TrimSpace(me.tag) != "" && io.mkdir.None?
    requires Cleanup(dataDir, d, h).Err?
    ensures Claim(dataDir, me, d, h, io, fuel) == ClaimOutcome(Err(InUse(me.tag, Cleanup(dataDir, d, h).error)), d)
  {
  }

  // ---------------------------------------------------------------------
  // waitPlaygroundStopped
  // ---------------------------------------------------------------------

  /** What one poll concludes: the owner is gone (and these files are removed), or keep waiting. */
  datatype Poll = Gone(removed: set<RuntimeFile>) | StillThere

  /** One iteration of the wait loop, on the directory and host as they are at that poll. */
  function PollOnce(d: Dir, h: Host): Poll
  {
    match ReadPid(d.pid)
    case NotExist => Gone({})
    case Parsed(rec) => if IsPidRunning(rec.pid, h.signal0) == Ok(false) then Gone({PidPath}) else StillThere
    case _ =>
      match d.pid.stat
      case StatNotExist => Gone({})
      case StatFailed => StillThere
      case Aged(age) =>
        if age < GraceMs then StillThere
        else if PortSilent(d.port, h) then Gone({PidPath, PortPath})
        else StillThere
  }

  /** A timeout of zero or less means one minute. */
  function EffectiveTimeout(timeoutMs: int): (t: int)
    ensures t > 0
    ensures timeoutMs > 0 ==> t == timeoutMs
  {
    if timeoutMs <= 0 then DefaultWaitMs else timeoutMs
  }

  /** The observations of the polls: what the directory and host look like at poll k. */
  type Polls = nat -> (Dir, Host)

  /**
    How long the work of poll k takes, in milliseconds: reading the pid
    file, the stat, and the probe with its 500 ms budget. The clock is
    otherwise not modelled; this is what separates one deadline check
    from the next beyond the 200 ms sleep.
   */
  type Pace = nat -> nat

  datatype WaitError = WaitDataDirEmpty | WaitTimedOut

  /** The poll that ended the wait and what it removed. */
  datatype Stopped = Stopped(poll: nat, removed: set<RuntimeFile>)

  /**
    When the deadline is checked after poll k, counted from the moment the
    deadline was set: the work of polls 0 to k plus k sleeps.
   */
  function CheckAt(work: Pace, k: nat): (r: nat)
    ensures r >= k * PollMs
  {
    if k == 0 then work(0) else CheckAt(work, k - 1) + PollMs + work(k)
  }

  function Wait(dataDir: string, timeoutMs: int, polls: Polls, work: Pace): Result<Stopped, WaitError>
  {
    if TrimSpace(dataDir) == "" then Err(WaitDataDirEmpty)
    else WaitFrom(EffectiveTimeout(timeoutMs), polls, work, 0)
  }

  /** The loop from poll k on; after a poll that keeps waiting, a passed deadline ends it. */
  function WaitFrom(t: int, polls: Polls, work: Pace, k: nat): Result<Stopped, WaitError>
    decreases t - CheckAt(work, k)
  {
    match PollOnce(polls(k).0, polls(k).1)
    case Gone(rm) => Ok(Stopped(k, rm))
    case StillThere => if CheckAt(work, k) > t then Err(WaitTimedOut) else WaitFrom(t, polls, work, k + 1)
  }

  /** The first poll from k on whose deadline check falls after the deadline t. */
  function FirstLate(t: int, work: Pace, k: nat): (n: nat)
    ensures k <= n && CheckAt(work, n) > t
    ensures forall j :: k <= j < n ==> CheckAt(work, j) <= t
    decreases t - CheckAt(work, k)
  {
    if CheckAt(work, k) > t then k else FirstLate(t, work, k + 1)
  }

  /**
    The index of the last poll the wait can make: the first one checked
    after the deadline. However long the polls take, there are at most
    t / 200 + 2 of them.
   */
  function LastPoll(t: int, work: Pace): (n: nat)
    requires t > 0
    ensures CheckAt(work, n) > t && forall j :: 0 <= j < n ==> CheckAt(work, j) <= t
    ensures n <= t / PollMs + 1
  {
    var n := FirstLate(t, work, 0);
    assert n > 0 ==> CheckAt(work, n - 1) <= t;
    n
  }

  predicate GoneAt(polls: Polls, k: nat)
  {
    PollOnce(polls(k).0, polls(k).1).Gone?
  }

  /**
    The wait stops at the first poll that finds the owner gone, provided
    it comes no later than the first poll checked after the deadline;
    otherwise it times out once that poll, too, finds the owner still there.
   */
  lemma {:induction false} WaitFromSpec(t: int, polls: Polls, work: Pace, k: nat)
    ensures WaitFrom(t, polls, work, k).Ok? ==>
      var s := WaitFrom(t, polls, work, k).value;
      && k <= s.poll <= FirstLate(t, work, k)
      && PollOnce(polls(s.poll).0, polls(s.poll).1) == Gone(s.removed)
      && forall j :: k <= j < s.poll ==> !GoneAt(polls, j)
    ensures WaitFrom(t, polls, work, k) == Err(WaitTimedOut) <==>
      forall j :: k <= j <= FirstLate(t, work, k) ==> !GoneAt(polls, j)
    ensures WaitFrom(t, polls, work, k).Ok? || WaitFrom(t, polls, work, k) == Err(WaitTimedOut)
    decreases t - CheckAt(work, k)
  {
    var r := WaitFrom(t, polls, work, k);
    if !GoneAt(polls, k) && CheckAt(work, k) <= t {
      WaitFromSpec(t, polls, work, k + 1);
      assert r == WaitFrom(t, polls, work, k + 1);
      assert FirstLate(t, work, k) == FirstLate(t, work, k + 1);
    } else if GoneAt(polls, k) {
      assert r.Ok? && r.value.poll == k;
    } else {
      assert FirstLate(t, work, k) == k;
    }
  }

  /**
    The wait as a whole: a non-positive timeout waits one minute, so the
    default wait makes at most 302 polls, and exactly 302 when the polls
    themselves take no time.
   */
  lemma WaitSpec(dataDir: string, timeoutMs: int, polls: Polls, work: Pace)
    requires TrimSpace(dataDir) != ""
    ensures var n := LastPoll(EffectiveTimeout(timeoutMs), work);
      && (Wait(dataDir, timeoutMs, polls, work) == Err(WaitTimedOut) <==> forall j :: 0 <= j <= n ==> !GoneAt(polls, j))
      && (Wait(dataDir, timeoutMs, polls, work).Ok? ==> Wait(dataDir, timeoutMs, polls, work).value.poll <= n)
    ensures timeoutMs <= 0 ==> LastPoll(EffectiveTimeout(timeoutMs), work) <= 301
  {
    var t := EffectiveTimeout(timeoutMs);
    WaitFromSpec(t, polls, work, 0);
    assert Wait(dataDir, timeoutMs, polls, work) == WaitFrom(t, polls, work, 0);
    assert LastPoll(t, work) == FirstLate(t, work, 0);
  }

  /** With polls that take no time, poll k is checked k * 200 ms after the start. */
  lemma {:induction false} IdealCheckAt(work: Pace, k: nat)
    requires forall j :: work(j) == 0
    ensures CheckAt(work, k) == k * PollMs
  {
    if k > 0 {
      IdealCheckAt(work, k - 1);
    }
  }

  /** With polls that take no time, the bound on the number of polls is reached exactly. */
  lemma IdealLastPoll(t: int, work: Pace)
    requires t > 0 && forall j :: work(j) == 0
    ensures LastPoll(t, work) == t / PollMs + 1
  {
    var n := LastPoll(t, work);
    IdealCheckAt(work, n);
  }

  /**
    What a poll removes, and when: nothing once the pid file is absent,
    the pid file alone once its pid is dead, and both files once an old
    unparsable pid file is backed by a silent port.
   */
  lemma PollOnceSpec(d: Dir, h: Host)
    ensures d.pid.NoPidFile? ==> PollOnce(d, h) == Gone({})
    ensures ReadPid(d.pid).Parsed? ==>
      (PollOnce(d, h) == Gone({PidPath}) <==> PidOwnerDead(d.pid, h))
    ensures ReadPid(d.pid).Parsed? ==> PollOnce(d, h) == Gone({PidPath}) || PollOnce(d, h) == StillThere
    ensures PollOnce(d, h) == Gone({PidPath, PortPath}) <==>
      d.pid.PidFileAt? && !ReadPid(d.pid).Parsed? && d.pid.stat.Aged? && d.pid.stat.ageMs >= GraceMs && PortSilent(d.port, h)
  {
  }
}

=== FILE: session.dfy ===
/**
  A UI session: any sequence of public calls on one UI and its handles.
  Groups, tasks and Sync waiters all draw their ids from the UI's one
  counter, which is incremented before use; so the ids on the stream are
  nonzero, strictly increasing in the order the events were sent, and
  never reused.
 */
module Session {
  import opened Base
  import opened Events
  import opened Ui
  import opened Handles
  import opened Writer

  /** One public call. */
  datatype Call =
    | MakeGroup(title: string)
    | MakeTask(group: Group, taskTitle: string, pending: bool)
    | OnGroup(handle: Group, gop: GroupOp)
    | OnTask(task: Task, top: TaskOp)
    | WriteText(text: string)
    | Print(lines: seq<string>)
    | SyncNow
    | CloseUi

  /** What one call does to the UI. */
  function Step(u: UI, c: Call, now: Time): UI
  {
    match c
    case MakeGroup(title) => NewGroup(u, title, now).0
    case MakeTask(g, title, pending) => NewTask(u, g, title, pending, now).0
    case OnGroup(g, op) => CallGroup(u, g, op, now).0
    case OnTask(t, op) => CallTask(u, t, op, now)
    case WriteText(p) => Write(u, p, now).0
    case Print(lines) => PrintLines(u, lines, now)
    case SyncNow => Sync(u, now)
    case CloseUi => Close(u, now)
  }

  /** A sequence of calls, each with its clock reading. */
  function Run(u: UI, calls: seq<(Call, Time)>): UI
    decreases |calls|
  {
    if |calls| == 0 then u else Step(Run(u, calls[..|calls| - 1]), calls[|calls| - 1].0, calls[|calls| - 1].1)
  }

  /** Events that carry a newly allocated id: group and task creation, and Sync. */
  predicate Allocates(e: Event)
  {
    e.etype.GroupAddEvent? || e.etype.TaskAddEvent? || e.etype.SyncEvent?
  }

  /** The id an allocating event carries. */
  function AllocatedId(e: Event): nat
  {
    if e.etype.GroupAddEvent? then e.groupId
    else if e.etype.TaskAddEvent? then e.taskId
    else if e.etype.SyncEvent? then e.syncId
    else 0
  }

  /** Allocated ids on the stream are nonzero, at most the counter, and strictly increasing. */
  ghost predicate IdsFresh(u: UI)
  {
    && (forall i :: 0 <= i < |u.sent| && Allocates(u.sent[i]) ==> 0 < AllocatedId(u.sent[i]) <= u.lastId)
    && (forall i, j :: 0 <= i < j < |u.sent| && Allocates(u.sent[i]) && Allocates(u.sent[j]) ==>
          AllocatedId(u.sent[i]) < AllocatedId(u.sent[j]))
  }

  /** Appending events whose allocated ids exceed the old counter, in increasing order, keeps ids fresh. */
  lemma AppendKeepsFresh(u: UI, v: UI, extra: seq<Event>)
    requires IdsFresh(u) && v.sent == u.sent + extra && v.lastId >= u.lastId
    requires forall k :: 0 <= k < |extra| && Allocates(extra[k]) ==> u.lastId < AllocatedId(extra[k]) <= v.lastId
    requires forall k, l :: 0 <= k < l < |extra| && Allocates(extra[k]) && Allocates(extra[l]) ==>
      AllocatedId(extra[k]) < AllocatedId(extra[l])
    ensures IdsFresh(v)
  {
    forall i, j | 0 <= i < j < |v.sent| && Allocates(v.sent[i]) && Allocates(v.sent[j])
      ensures AllocatedId(v.sent[i]) < AllocatedId(v.sent[j])
    {
      if j >= |u.sent| && i < |u.sent| {
        assert v.sent[j] == extra[j - |u.sent|];
      } else if i >= |u.sent| {
        assert v.sent[i] == extra[i - |u.sent|] && v.sent[j] == extra[j - |u.sent|];
      }
    }
    forall i | 0 <= i < |v.sent| && Allocates(v.sent[i])
      ensures 0 < AllocatedId(v.sent[i]) <= v.lastId
    {
      if i >= |u.sent| {
        assert v.sent[i] == extra[i - |u.sent|];
      }
    }
  }

  /** Stamping an event keeps its type and ids. */
  lemma StampKeepsId(e: Event, now: Time)
    ensures Allocates(Stamp(e, now)) == Allocates(e) && AllocatedId(Stamp(e, now)) == AllocatedId(e)
  {
  }

  /** A call that sends only events without new ids, and leaves the counter alone, keeps ids fresh. */
  lemma PlainCallKeepsFresh(u: UI, v: UI, extra: seq<Event>)
    requires IdsFresh(u) && v.sent == u.sent + extra && v.lastId == u.lastId
    requires forall k :: 0 <= k < |extra| ==> !Allocates(extra[k])
    ensures IdsFresh(v)
  {
    AppendKeepsFresh(u, v, extra);
  }

  /** UI.Group sends at most one GroupAdd, with the id just drawn. */
  lemma MakeGroupKeepsFresh(u: UI, title: string, now: Time)
    requires IdsFresh(u)
    ensures IdsFresh(NewGroup(u, title, now).0) && NewGroup(u, title, now).0.lastId >= u.lastId
  {
    var v := NewGroup(u, title, now).0;
    if Delivers(u) {
      var e := GroupAddOf(now, u.lastId + 1, title);
      StampKeepsId(e, now);
      AppendKeepsFresh(u, v, [Stamp(e, now)]);
    } else if !u.closed {
      AppendKeepsFresh(u, v, []);
    }
  }

  /** Group.Task sends at most one TaskAdd, with the id just drawn. */
  lemma MakeTaskKeepsFresh(u: UI, g: Group, title: string, pending: bool, now: Time)
    requires IdsFresh(u)
    ensures IdsFresh(NewTask(u, g, title, pending, now).0) && NewTask(u, g, title, pending, now).0.lastId >= u.lastId
  {
    var v := NewTask(u, g, title, pending, now).0;
    if Acts(g.attached, u) && u.mode != ModeOff {
      var e := TaskAddOf(now, g.id, u.lastId + 1, title, pending);
      StampKeepsId(e, now);
      AppendKeepsFresh(u, v, [Stamp(e, now)]);
    } else if Acts(g.attached, u) {
      AppendKeepsFresh(u, v, []);
    }
  }

  /** Handle methods other than task creation send no allocating event. */
  lemma HandleCallKeepsFresh(u: UI, g: Group, gop: GroupOp, t: Task, top: TaskOp, now: Time)
    requires IdsFresh(u)
    ensures IdsFresh(CallGroup(u, g, gop, now).0) && CallGroup(u, g, gop, now).0.lastId == u.lastId
    ensures IdsFresh(CallTask(u, t, top, now)) && CallTask(u, t, top, now).lastId == u.lastId
  {
    if Delivers(u) && g.attached {
      var e := GroupEvent(g, gop, now);
      StampKeepsId(e, now);
      PlainCallKeepsFresh(u, CallGroup(u, g, gop, now).0, [Stamp(e, now)]);
    }
    if Delivers(u) && t.attached {
      var e := TaskEvent(t, top, now);
      StampKeepsId(e, now);
      PlainCallKeepsFresh(u, CallTask(u, t, top, now), [Stamp(e, now)]);
    }
  }

  /** Write, PrintLines and Close send print events only. */
  lemma OutputKeepsFresh(u: UI, p: string, lines: seq<string>, now: Time)
    requires IdsFresh(u)
    ensures IdsFresh(Write(u, p, now).0) && Write(u, p, now).0.lastId == u.lastId
    ensures IdsFresh(PrintLines(u, lines, now)) && PrintLines(u, lines, now).lastId == u.lastId
    ensures IdsFresh(Close(u, now)) && Close(u, now).lastId == u.lastId
  {
    if Delivers(u) {
      var fed := Feed(u.buffer, p).lines;
      PlainCallKeepsFresh(u, Write(u, p, now).0, if fed == [] then [] else [PrintLinesOf(now, fed)]);
    }
    if !u.closed {
      var out := Drained(u) + lines;
      PlainCallKeepsFresh(u, PrintLines(u, lines, now), if out == [] || u.mode == ModeOff then [] else [PrintLinesOf(now, out)]);
      var tail := Drained(u);
      PlainCallKeepsFresh(u, Close(u, now), if tail == [] || u.mode == ModeOff then [] else [PrintLinesOf(now, tail)]);
    }
  }

  /** Sync sends at most one print event, then one Sync with the id just drawn. */
  lemma SyncKeepsFresh(u: UI, now: Time)
    requires IdsFresh(u)
    ensures IdsFresh(Sync(u, now)) && Sync(u, now).lastId >= u.lastId
  {
    if Delivers(u) {
      var flushed := if Drained(u) == [] then [] else [PrintLinesOf(now, Drained(u))];
      AppendKeepsFresh(u, Sync(u, now), flushed + [SyncOf(now, u.lastId + 1)]);
    }
  }

  /** Every public call keeps the stream's ids fresh, and never moves the counter back. */
  lemma StepKeepsIdsFresh(u: UI, c: Call, now: Time)
    requires IdsFresh(u)
    ensures IdsFresh(Step(u, c, now)) && Step(u, c, now).lastId >= u.lastId
  {
    match c
    case MakeGroup(title) => MakeGroupKeepsFresh(u, title, now);
    case MakeTask(g, title, pending) => MakeTaskKeepsFresh(u, g, title, pending, now);
    case OnGroup(g, op) => HandleCallKeepsFresh(u, g, op, Task(false, 0, 0, ""), SetKindDownload, now);
    case OnTask(t, op) => HandleCallKeepsFresh(u, Group(false, 0, ""), CloseGroup, t, op, now);
    case WriteText(p) => OutputKeepsFresh(u, p, [], now);
    case Print(lines) => OutputKeepsFresh(u, "", lines, now);
    case SyncNow => SyncKeepsFresh(u, now);
    case CloseUi => OutputKeepsFresh(u, "", [], now);
  }

  /** A new UI's empty stream is fresh, and so is the stream after any session. */
  lemma {:induction false} SessionIdsFresh(requested: Mode, control: bool, isFile: bool, calls: seq<(Call, Time)>)
    ensures IdsFresh(Run(New(requested, control, isFile), calls))
    decreases |calls|
  {
    if |calls| > 0 {
      SessionIdsFresh(requested, control, isFile, calls[..|calls| - 1]);
      StepKeepsIdsFresh(Run(New(requested, control, isFile), calls[..|calls| - 1]), calls[|calls| - 1].0, calls[|calls| - 1].1);
    }
  }

  /** Consequently no id is ever handed out twice. */
  lemma FreshIdsDistinct(u: UI, i: nat, j: nat)
    requires IdsFresh(u) && i < |u.sent| && j < |u.sent| && i != j
    requires Allocates(u.sent[i]) && Allocates(u.sent[j])
    ensures AllocatedId(u.sent[i]) != AllocatedId(u.sent[j]) && AllocatedId(u.sent[i]) != 0
  {
  }
}

=== FILE: state.dfy ===
/**
  The progress engine's state and the function that applies one event to
  it. Groups are kept in insertion order and by id; tasks are kept by id,
  each naming the group it belongs to (Go's back pointer). A sealed group
  is frozen: no later event changes it or its tasks.

  The download-speed estimate (floating point) is not part of the state.
 */
module State {
  import opened Base
  import opened Events

  datatype GroupState = GroupState(
    id: nat,
    title: string,
    startedAt: Time,
    closedAt: Time,
    closed: bool,
    sealed: bool,
    tasks: seq<nat>,
    showMeta: bool,
    hideDetailsOnSuccess: bool,
    sortTasksByTitle: bool)

  datatype TaskState = TaskState(
    id: nat,
    gid: nat,
    title: string,
    kind: Kind,
    status: Status,
    hideIfFast: bool,
    revealAfterMs: int,
    meta: string,
    message: string,
    current: int,
    total: int,
    startAt: Time,
    endAt: Time,
    plainStartPrinted: bool,
    downloadStartPrinted: bool)

  /** groups: the insertion order; groupById and taskById: the records. */
  datatype EngineState = EngineState(groups: seq<nat>, groupById: map<nat, GroupState>, taskById: map<nat, TaskState>)

  /** newEngineState. */
  const Empty: EngineState := EngineState([], map[], map[])

  /** Which ids are known, where every task belongs, and that the order lists each group once. */
  ghost predicate Valid(s: EngineState)
  {
    && 0 !in s.groupById && 0 !in s.taskById
    && (forall i :: 0 <= i < |s.groups| ==> s.groups[i] in s.groupById)
    && (forall id :: id in s.groupById ==> id in s.groups && s.groupById[id].id == id)
    && (forall i, j :: 0 <= i < j < |s.groups| ==> s.groups[i] != s.groups[j])
    && (forall id :: id in s.taskById ==> s.taskById[id].id == id && s.taskById[id].gid in s.groupById)
    && (forall id :: id in s.taskById ==> id in s.groupById[s.taskById[id].gid].tasks)
    && (forall gid :: gid in s.groupById ==> Owns(s, gid, s.groupById[gid].tasks))
  }

  /** Every id in `ids` is a distinct task of group `gid`. */
  ghost predicate Owns(s: EngineState, gid: nat, ids: seq<nat>)
  {
    && (forall k :: 0 <= k < |ids| ==> ids[k] in s.taskById && s.taskById[ids[k]].gid == gid)
    && (forall k, l :: 0 <= k < l < |ids| ==> ids[k] != ids[l])
  }

  lemma EmptyValid()
    ensures Valid(Empty)
  {
  }

  // ---------------------------------------------------------------------
  // Queries
  // ---------------------------------------------------------------------

  /** The task records behind a list of ids, skipping unknown ids (Go's nil entries). */
  function Members(s: EngineState, ids: seq<nat>): (ts: seq<TaskState>)
    ensures |ts| <= |ids|
    ensures forall i :: 0 <= i < |ts| ==> ts[i] in s.taskById.Values
    ensures (forall k :: 0 <= k < |ids| ==> ids[k] in s.taskById) ==>
      |ts| == |ids| && forall k :: 0 <= k < |ids| ==> ts[k] == s.taskById[ids[k]]
  {
    if |ids| == 0 then []
    else if ids[0] in s.taskById then [s.taskById[ids[0]]] + Members(s, ids[1..])
    else Members(s, ids[1..])
  }

  /** Some task is running or retrying. */
  function AnyActive(ts: seq<TaskState>): (r: bool)
    ensures r <==> exists i :: 0 <= i < |ts| && Active(ts[i].status)
  {
    if |ts| == 0 then false else Active(ts[0].status) || AnyActive(ts[1..])
  }

  /** groupState.canAutoSeal, given the group's task records. */
  function CanAutoSeal(g: GroupState, ts: seq<TaskState>): (r: bool)
    ensures r <==> !g.sealed && g.closed && |g.tasks| > 0 && forall i :: 0 <= i < |ts| ==> !Active(ts[i].status)
  {
    !g.sealed && g.closed && |g.tasks| > 0 && !AnyActive(ts)
  }

  /** The latest non-zero end time among the tasks, or 0 (the loop over g.tasks in elapsed). */
  function LastEnd(ts: seq<TaskState>): (r: Time)
    ensures forall i :: 0 <= i < |ts| ==> ts[i].endAt <= r
    ensures r == 0 || exists i :: 0 <= i < |ts| && ts[i].endAt == r
    decreases |ts|
  {
    if |ts| == 0 then 0
    else
      var m := LastEnd(ts[..|ts| - 1]);
      var e := ts[|ts| - 1].endAt;
      assert forall i :: 0 <= i < |ts| - 1 ==> ts[i] == ts[..|ts| - 1][i];
      if e != 0 && e > m then e else m
  }

  /** The time elapsed: `now` falls back to `clock` when it is zero. */
  function Elapsed(g: GroupState, ts: seq<TaskState>, now: Time, clock: Time): int
  {
    if g.startedAt == 0 then 0
    else
      var now' := if now == 0 then clock else now;
      if AnyActive(ts) then now' - g.startedAt
      else
        var lastEnd := LastEnd(ts);
        var end := if g.closed && g.closedAt != 0 && g.closedAt > lastEnd then g.closedAt else lastEnd;
        if end != 0 then end - g.startedAt else now' - g.startedAt
  }

  /** The larger of two times. */
  function Max(a: Time, b: Time): Time
  {
    if a < b then b else a
  }

  /**
    Elapsed time of a group: zero before it started, up to now while any
    task is busy, otherwise up to the latest end (a task's end or the
    group's close), or up to now when nothing has ended.
   */
  lemma ElapsedSpec(g: GroupState, ts: seq<TaskState>, now: Time, clock: Time)
    ensures g.startedAt == 0 ==> Elapsed(g, ts, now, clock) == 0
    ensures g.startedAt != 0 && AnyActive(ts) ==> Elapsed(g, ts, now, clock) == (if now == 0 then clock else now) - g.startedAt
    ensures g.startedAt != 0 && !AnyActive(ts) ==>
      var end := Max(LastEnd(ts), if g.closed then g.closedAt else 0);
      Elapsed(g, ts, now, clock) == (if end != 0 then end else if now == 0 then clock else now) - g.startedAt
    ensures g.startedAt != 0 && !AnyActive(ts) && g.closed && g.closedAt >= g.startedAt ==> Elapsed(g, ts, now, clock) >= 0
  {
  }

  /** engineState.hasRunning: some group that is not sealed has a busy task. */
  function HasRunning(s: EngineState): (r: bool)
  {
    HasRunningFrom(s, s.groups)
  }

  function HasRunningFrom(s: EngineState, order: seq<nat>): (r: bool)
    ensures r <==> exists i :: 0 <= i < |order| && Busy(s, order[i])
  {
    if |order| == 0 then false
    else Busy(s, order[0]) || HasRunningFrom(s, order[1..])
  }

  /** A known, unsealed group with a running or retrying task. */
  predicate Busy(s: EngineState, gid: nat)
  {
    gid in s.groupById && !s.groupById[gid].sealed && AnyActive(Members(s, s.groupById[gid].tasks))
  }

  // ---------------------------------------------------------------------
  // Applying events
  // ---------------------------------------------------------------------

  /** The group a task belongs to accepts changes: it is known and not sealed. */
  predicate TaskOpen(s: EngineState, tid: nat)
  {
    tid in s.taskById && s.taskById[tid].gid in s.groupById && !s.groupById[s.taskById[tid].gid].sealed
  }

  /** applyGroupAdd: a new, nonzero id appends an open group started now. */
  function ApplyGroupAdd(s: EngineState, now: Time, e: Event): (r: EngineState)
    ensures r.taskById == s.taskById
    ensures forall id :: id in s.groupById ==> id in r.groupById && r.groupById[id] == s.groupById[id]
  {
    var id := e.groupId;
    if id == 0 || id in s.groupById then s
    else
      var g := GroupState(id, e.title.GetOr(""), now, 0, false, false, [], true, false, false);
      EngineState(s.groups + [id], s.groupById[id := g], s.taskById)
  }

  /** applyGroupUpdate: each option present in the event replaces the group's. */
  function ApplyGroupUpdate(s: EngineState, e: Event): (r: EngineState)
    ensures r.groups == s.groups && r.taskById == s.taskById && r.groupById.Keys == s.groupById.Keys
    ensures forall id :: id in s.groupById && (id != e.groupId || s.groupById[id].sealed) ==> r.groupById[id] == s.groupById[id]
  {
    if e.groupId !in s.groupById || s.groupById[e.groupId].sealed then s
    else
      var g := s.groupById[e.groupId];
      var g1 := g.(
        title := e.title.GetOr(g.title),
        showMeta := e.showMeta.GetOr(g.showMeta),
        hideDetailsOnSuccess := e.hideDetailsOnSuccess.GetOr(g.hideDetailsOnSuccess),
        sortTasksByTitle := e.sortTasksByTitle.GetOr(g.sortTasksByTitle));
      s.(groupById := s.groupById[e.groupId := g1])
  }

  /** applyGroupClose: Finished=false seals; otherwise the first close records its time. */
  function ApplyGroupClose(s: EngineState, now: Time, e: Event): (r: EngineState)
    ensures r.groups == s.groups && r.taskById == s.taskById && r.groupById.Keys == s.groupById.Keys
    ensures forall id :: id in s.groupById && (id != e.groupId || s.groupById[id].sealed) ==> r.groupById[id] == s.groupById[id]
  {
    if e.groupId !in s.groupById || s.groupById[e.groupId].sealed then s
    else
      var g := s.groupById[e.groupId];
      if !Finishes(e) then s.(groupById := s.groupById[e.groupId := g.(sealed := true)])
      else if g.closed then s
      else s.(groupById := s.groupById[e.groupId := g.(closed := true, closedAt := now)])
  }

  /** applyTaskAdd: a new task of an open group, running from now unless it is pending. */
  function ApplyTaskAdd(s: EngineState, now: Time, e: Event): (r: EngineState)
    ensures r.groups == s.groups && r.groupById.Keys == s.groupById.Keys
    ensures forall id :: id in s.taskById ==> id in r.taskById && r.taskById[id] == s.taskById[id]
    ensures forall id :: id in s.groupById && (id != e.groupId || s.groupById[id].sealed) ==> r.groupById[id] == s.groupById[id]
  {
    if e.groupId !in s.groupById || s.groupById[e.groupId].sealed then s
    else if e.taskId == 0 || e.taskId in s.taskById then s
    else
      var g := s.groupById[e.groupId];
      var t := TaskState(e.taskId, e.groupId, e.title.GetOr(""), Generic,
        if e.pending then Pending else Running, false, 0, "", "", 0, 0,
        if e.pending then 0 else now, 0, false, false);
      var g1 := g.(tasks := g.tasks + [e.taskId], startedAt := if g.startedAt == 0 then now else g.startedAt);
      EngineState(s.groups, s.groupById[e.groupId := g1], s.taskById[e.taskId := t])
  }

  /** applyTaskUpdate: kind, meta, message and hide-if-fast options, for a task of an open group. */
  function ApplyTaskUpdate(s: EngineState, e: Event): (r: EngineState)
    ensures r.groups == s.groups && r.groupById == s.groupById && r.taskById.Keys == s.taskById.Keys
    ensures forall id :: id in s.taskById && (id != e.taskId || !TaskOpen(s, id)) ==> r.taskById[id] == s.taskById[id]
    ensures TaskOpen(s, e.taskId) ==> r.taskById[e.taskId].revealAfterMs >= 0 || e.revealAfterMs.None?
  {
    if !TaskOpen(s, e.taskId) then s
    else
      var t := s.taskById[e.taskId];
      var t1 := t.(
        kind := if e.kind.Some? then ParseKind(e.kind.value) else t.kind,
        meta := e.meta.GetOr(t.meta),
        message := e.message.GetOr(t.message),
        hideIfFast := e.hideIfFast.GetOr(t.hideIfFast),
        revealAfterMs := if e.revealAfterMs.Some? then ClampNonNegative(e.revealAfterMs.value) else t.revealAfterMs);
      s.(taskById := s.taskById[e.taskId := t1])
  }

  function ClampNonNegative(v: int): (r: nat)
    ensures r == v || (v < 0 && r == 0)
  {
    if v < 0 then 0 else v
  }

  /** applyTaskProgress: negative values read as 0, and only a task that has not ended moves. */
  function ApplyTaskProgress(s: EngineState, e: Event): (r: EngineState)
    ensures r.groups == s.groups && r.groupById == s.groupById && r.taskById.Keys == s.taskById.Keys
    ensures forall id :: id in s.taskById && (id != e.taskId || !TaskOpen(s, id)) ==> r.taskById[id] == s.taskById[id]
  {
    if !TaskOpen(s, e.taskId) then s
    else
      var t := s.taskById[e.taskId];
      var moving := !Terminal(t.status);
      var t1 := t.(
        total := if e.total.Some? && moving then ClampNonNegative(e.total.value) else t.total,
        current := if e.current.Some? && moving then ClampNonNegative(e.current.value) else t.current);
      s.(taskById := s.taskById[e.taskId := t1])
  }

  /** Whether applyTaskState moves a task in status `from` to `to`. */
  predicate Accepts(from: Status, to: Status)
  {
    if from == Error && to == Error then false
    else
      match to
      case Pending => true
      case Running => !Terminal(from)
      case Retrying => !Terminal(from)
      case Done => Active(from)
      case Error => from != Done && from != Skipped && from != Canceled
      case Skipped => !Terminal(from)
      case Canceled => !Terminal(from)
  }

  /** Moves that call ensureStarted. */
  predicate Starts(to: Status)
  {
    to != Pending && to != Done
  }

  /** ensureStarted: fill in a zero start time of the task and of its group. */
  function EnsureStarted(t: TaskState, g: GroupState, now: Time): (r: (TaskState, GroupState))
    ensures r.0 == t.(startAt := r.0.startAt) && r.1 == g.(startedAt := r.1.startedAt)
    ensures t.startAt != 0 ==> r.0.startAt == t.startAt
    ensures g.startedAt != 0 ==> r.1.startedAt == g.startedAt
    ensures now != 0 ==> r.0.startAt != 0 && r.1.startedAt != 0
  {
    (t.(startAt := if t.startAt == 0 then now else t.startAt),
     g.(startedAt := if g.startedAt == 0 then now else g.startedAt))
  }

  /** applyTaskState: a status change the transition rules accept, with its message and timestamps. */
  function ApplyTaskState(s: EngineState, now: Time, e: Event): (r: EngineState)
    ensures r.groups == s.groups && r.groupById.Keys == s.groupById.Keys && r.taskById.Keys == s.taskById.Keys
    ensures forall id :: id in s.taskById && (id != e.taskId || !TaskOpen(s, id)) ==> r.taskById[id] == s.taskById[id]
    ensures forall id :: id in s.groupById && (!TaskOpen(s, e.taskId) || id != s.taskById[e.taskId].gid) ==> r.groupById[id] == s.groupById[id]
  {
    if !TaskOpen(s, e.taskId) || e.status.None? then s
    else
      var t := s.taskById[e.taskId];
      var to := ParseStatus(e.status.value);
      if to.None? || !Accepts(t.status, to.value) then s
      else
        var g := s.groupById[t.gid];
        var moved := t.(status := to.value, endAt := if Terminal(to.value) then now else t.endAt);
        var started := if Starts(to.value) then EnsureStarted(moved, g, now) else (moved, g);
        var t1 := started.0.(message := e.message.GetOr(t.message));
        s.(groupById := s.groupById[t.gid := started.1], taskById := s.taskById[e.taskId := t1])
  }

  /** applyEvent: `now` falls back to `clock` when zero; other event types change nothing. */
  function ApplyEvent(s: EngineState, clock: Time, now: Time, e: Event): (r: EngineState)
    ensures !e.etype.GroupAddEvent? ==> r.groups == s.groups
    ensures e.etype.PrintLinesEvent? || e.etype.SyncEvent? || e.etype.UnknownEvent? ==> r == s
  {
    var now' := if now == 0 then clock else now;
    match e.etype
    case GroupAddEvent => ApplyGroupAdd(s, now', e)
    case GroupUpdateEvent => ApplyGroupUpdate(s, e)
    case GroupCloseEvent => ApplyGroupClose(s, now', e)
    case TaskAddEvent => ApplyTaskAdd(s, now', e)
    case TaskUpdateEvent => ApplyTaskUpdate(s, e)
    case TaskProgressEvent => ApplyTaskProgress(s, e)
    case TaskStateEvent => ApplyTaskState(s, now', e)
    case _ => s
  }
}

=== FILE: state_props.dfy ===
/**
  What applying events promises about the engine state: the structure
  stays well formed, sealed groups are frozen, closing is idempotent, and
  task statuses follow the transition rules.
 */
module StateProps {
  import opened Base
  import opened Events
  import opened State

  // ---------------------------------------------------------------------
  // Well-formedness is preserved
  // ---------------------------------------------------------------------

  /** Every event leaves a well-formed state well formed. */
  lemma ApplyKeepsValid(s: EngineState, clock: Time, now: Time, e: Event)
    requires Valid(s)
    ensures Valid(ApplyEvent(s, clock, now, e))
  {
    var now' := if now == 0 then clock else now;
    match e.etype
    case GroupAddEvent => GroupAddKeepsValid(s, now', e);
    case GroupUpdateEvent => GroupUpdateKeepsValid(s, e);
    case GroupCloseEvent => GroupCloseKeepsValid(s, now', e);
    case TaskAddEvent => TaskAddKeepsValid(s, now', e);
    case TaskUpdateEvent => TaskUpdateKeepsValid(s, e);
    case TaskProgressEvent => TaskProgressKeepsValid(s, e);
    case TaskStateEvent => TaskStateKeepsValid(s, now', e);
    case _ =>
  }

  lemma GroupUpdateKeepsValid(s: EngineState, e: Event)
    requires Valid(s)
    ensures Valid(ApplyGroupUpdate(s, e))
  {
    var r := ApplyGroupUpdate(s, e);
    if r != s {
      var g := s.groupById[e.groupId];
      assert r.groupById[e.groupId].id == g.id && r.groupById[e.groupId].tasks == g.tasks;
      GroupRecordKeepsValid(s, r);
    }
  }

  lemma GroupCloseKeepsValid(s: EngineState, now: Time, e: Event)
    requires Valid(s)
    ensures Valid(ApplyGroupClose(s, now, e))
  {
    var r := ApplyGroupClose(s, now, e);
    if r != s {
      var g := s.groupById[e.groupId];
      assert r.groupById[e.groupId].id == g.id && r.groupById[e.groupId].tasks == g.tasks;
      GroupRecordKeepsValid(s, r);
    }
  }

  lemma TaskUpdateKeepsValid(s: EngineState, e: Event)
    requires Valid(s)
    ensures Valid(ApplyTaskUpdate(s, e))
  {
    var r := ApplyTaskUpdate(s, e);
    if r != s {
      var t := s.taskById[e.taskId];
      assert r.taskById[e.taskId].id == t.id && r.taskById[e.taskId].gid == t.gid;
      TaskRecordKeepsValid(s, r);
    }
  }

  lemma TaskProgressKeepsValid(s: EngineState, e: Event)
    requires Valid(s)
    ensures Valid(ApplyTaskProgress(s, e))
  {
    var r := ApplyTaskProgress(s, e);
    if r != s {
      var t := s.taskById[e.taskId];
      assert r.taskById[e.taskId].id == t.id && r.taskById[e.taskId].gid == t.gid;
      TaskRecordKeepsValid(s, r);
    }
  }

  lemma GroupAddKeepsValid(s: EngineState, now: Time, e: Event)
    requires Valid(s)
    ensures Valid(ApplyGroupAdd(s, now, e))
  {
    var r := ApplyGroupAdd(s, now, e);
    if r != s {
      var id := e.groupId;
      assert r.groups == s.groups + [id] && r.groupById == s.groupById[id := r.groupById[id]];
      assert r.taskById == s.taskById;
      assert forall i :: 0 <= i < |r.groups| ==> r.groups[i] in r.groupById;
      assert forall i, j :: 0 <= i < j < |r.groups| ==> r.groups[i] != r.groups[j] by {
        forall i, j | 0 <= i < j < |r.groups|
          ensures r.groups[i] != r.groups[j]
        {
          if j == |s.groups| {
            assert r.groups[i] == s.groups[i];
          } else {
            assert r.groups[i] == s.groups[i] && r.groups[j] == s.groups[j];
          }
        }
      }
      assert forall gid :: gid in r.groupById ==> Owns(r, gid, r.groupById[gid].tasks) by {
        forall gid | gid in r.groupById
          ensures Owns(r, gid, r.groupById[gid].tasks)
        {
          if gid != id {
            assert Owns(s, gid, s.groupById[gid].tasks);
          }
        }
      }
    }
  }

  /** A change to group records that keeps their ids and task lists keeps the state well formed. */
  lemma GroupRecordKeepsValid(s: EngineState, r: EngineState)
    requires Valid(s)
    requires r.groups == s.groups && r.taskById == s.taskById && r.groupById.Keys == s.groupById.Keys
    requires forall id :: id in s.groupById ==> r.groupById[id].id == id && r.groupById[id].tasks == s.groupById[id].tasks
    ensures Valid(r)
  {
    forall gid | gid in r.groupById
      ensures Owns(r, gid, r.groupById[gid].tasks)
    {
      assert Owns(s, gid, s.groupById[gid].tasks);
    }
  }

  /** A change to task records that keeps their ids and groups keeps the state well formed. */
  lemma TaskRecordKeepsValid(s: EngineState, r: EngineState)
    requires Valid(s)
    requires r.groups == s.groups && r.groupById == s.groupById && r.taskById.Keys == s.taskById.Keys
    requires forall id :: id in s.taskById ==> r.taskById[id].id == id && r.taskById[id].gid == s.taskById[id].gid
    ensures Valid(r)
  {
    forall gid | gid in r.groupById
      ensures Owns(r, gid, r.groupById[gid].tasks)
    {
      assert Owns(s, gid, s.groupById[gid].tasks);
    }
  }

  lemma TaskStateKeepsValid(s: EngineState, now: Time, e: Event)
    requires Valid(s)
    ensures Valid(ApplyTaskState(s, now, e))
  {
    var r := ApplyTaskState(s, now, e);
    if r != s {
      var t := s.taskById[e.taskId];
      var mid := r.(taskById := s.taskById);
      GroupRecordKeepsValid(s, mid);
      TaskRecordKeepsValid(mid, r);
    }
  }

  lemma TaskAddKeepsValid(s: EngineState, now: Time, e: Event)
    requires Valid(s)
    ensures Valid(ApplyTaskAdd(s, now, e))
  {
    var r := ApplyTaskAdd(s, now, e);
    if r != s {
      var gid, tid := e.groupId, e.taskId;
      assert r.groupById[gid].tasks == s.groupById[gid].tasks + [tid] && r.groupById[gid].id == gid;
      assert r.taskById == s.taskById[tid := r.taskById[tid]] && r.taskById[tid].gid == gid && r.taskById[tid].id == tid;
      NewTaskKeepsValid(s, r, gid, tid);
    }
  }

  /** `r` is `s` with a fresh task `tid` added to the known group `gid`, and its id appended to that group's list. */
  ghost predicate AddsTask(s: EngineState, r: EngineState, gid: nat, tid: nat)
  {
    && Valid(s) && gid in s.groupById && tid != 0 && tid !in s.taskById
    && r.groups == s.groups && r.groupById.Keys == s.groupById.Keys
    && (forall id :: id in s.groupById && id != gid ==> r.groupById[id] == s.groupById[id])
    && r.groupById[gid].tasks == s.groupById[gid].tasks + [tid] && r.groupById[gid].id == gid
    && tid in r.taskById && r.taskById == s.taskById[tid := r.taskById[tid]] && r.taskById[tid].gid == gid && r.taskById[tid].id == tid
  }

  /** Adding a fresh task to a known group keeps the state well formed. */
  lemma NewTaskKeepsValid(s: EngineState, r: EngineState, gid: nat, tid: nat)
    requires AddsTask(s, r, gid, tid)
    ensures Valid(r)
  {
    NewTaskKeepsOwnership(s, r, gid, tid);
    NewTaskIsListed(s, r, gid, tid);
  }

  lemma NewTaskKeepsOwnership(s: EngineState, r: EngineState, gid: nat, tid: nat)
    requires AddsTask(s, r, gid, tid)
    ensures forall id :: id in r.groupById ==> Owns(r, id, r.groupById[id].tasks)
  {
    var g := s.groupById[gid];
    assert tid !in g.tasks by {
      assert Owns(s, gid, g.tasks);
    }
    forall id | id in r.groupById
      ensures Owns(r, id, r.groupById[id].tasks)
    {
      assert Owns(s, id, s.groupById[id].tasks);
    }
  }

  lemma NewTaskIsListed(s: EngineState, r: EngineState, gid: nat, tid: nat)
    requires AddsTask(s, r, gid, tid)
    ensures forall id :: id in r.taskById ==> id in r.groupById[r.taskById[id].gid].tasks
  {
    forall id | id in r.taskById
      ensures id in r.groupById[r.taskById[id].gid].tasks
    {
      if id != tid {
        assert id in s.groupById[s.taskById[id].gid].tasks;
      }
    }
  }

  // ---------------------------------------------------------------------
  // Sealed groups are frozen
  // ---------------------------------------------------------------------

  /**
    Once a group is sealed, no event changes it, changes any of its tasks,
    or adds a task to it.
   */
  lemma SealedIsFrozen(s: EngineState, clock: Time, now: Time, e: Event, gid: nat)
    requires Valid(s) && gid in s.groupById && s.groupById[gid].sealed
    ensures var r := ApplyEvent(s, clock, now, e);
      && gid in r.groupById && r.groupById[gid] == s.groupById[gid]
      && (forall tid :: tid in s.taskById && s.taskById[tid].gid == gid ==> tid in r.taskById && r.taskById[tid] == s.taskById[tid])
      && (forall tid :: tid in r.taskById && r.taskById[tid].gid == gid ==> tid in s.taskById)
  {
    var r := ApplyEvent(s, clock, now, e);
    forall tid | tid in s.taskById && s.taskById[tid].gid == gid
      ensures !TaskOpen(s, tid)
    {
    }
  }

  // ---------------------------------------------------------------------
  // Groups
  // ---------------------------------------------------------------------

  /**
    A group-add is ignored exactly for id 0 or a known id; otherwise it
    appends one open group after the existing ones, started at `now`, with
    its title and meta shown.
   */
  lemma GroupAddSpec(s: EngineState, now: Time, e: Event)
    requires Valid(s)
    ensures ApplyGroupAdd(s, now, e) == s <==> e.groupId == 0 || e.groupId in s.groupById
    ensures var r := ApplyGroupAdd(s, now, e); var id := e.groupId;
      r != s ==>
        && r.groups == s.groups + [id] && r.groupById.Keys == s.groupById.Keys + {id}
        && var g := r.groupById[id];
        && g.title == e.title.GetOr("") && g.startedAt == now && g.showMeta
        && !g.closed && !g.sealed && g.tasks == [] && !g.hideDetailsOnSuccess && !g.sortTasksByTitle
  {
    var r := ApplyGroupAdd(s, now, e);
    if !(e.groupId == 0 || e.groupId in s.groupById) {
      assert e.groupId in r.groupById && e.groupId !in s.groupById;
    }
  }

  /**
    Finished=false seals an unsealed group; a normal close marks it closed
    and records `now` only the first time. Unknown and sealed groups are
    left alone.
   */
  lemma GroupCloseSpec(s: EngineState, now: Time, e: Event)
    ensures var r := ApplyGroupClose(s, now, e); var id := e.groupId;
      && (id !in s.groupById || s.groupById[id].sealed ==> r == s)
      && (id in s.groupById && !s.groupById[id].sealed && !Finishes(e) ==>
            r.groupById[id] == s.groupById[id].(sealed := true))
      && (id in s.groupById && !s.groupById[id].sealed && Finishes(e) && s.groupById[id].closed ==> r == s)
      && (id in s.groupById && !s.groupById[id].sealed && Finishes(e) && !s.groupById[id].closed ==>
            r.groupById[id] == s.groupById[id].(closed := true, closedAt := now))
  {
  }

  /** Closing or sealing twice leaves the state the first time left, whenever the second arrives. */
  lemma CloseIdempotent(s: EngineState, clock: Time, now1: Time, now2: Time, e: Event)
    requires e.etype == GroupCloseEvent
    ensures var once := ApplyEvent(s, clock, now1, e);
      ApplyEvent(once, clock, now2, e) == once
  {
  }

  /** A group whose title, meta and options are set by update events keeps its tasks and timings. */
  lemma GroupUpdateSpec(s: EngineState, e: Event)
    requires e.groupId in s.groupById && !s.groupById[e.groupId].sealed
    ensures var g := s.groupById[e.groupId]; var g1 := ApplyGroupUpdate(s, e).groupById[e.groupId];
      && g1 == g.(title := g1.title, showMeta := g1.showMeta, hideDetailsOnSuccess := g1.hideDetailsOnSuccess, sortTasksByTitle := g1.sortTasksByTitle)
      && (e.title.Some? ==> g1.title == e.title.value) && (e.title.None? ==> g1.title == g.title)
      && (e.showMeta.Some? ==> g1.showMeta == e.showMeta.value) && (e.showMeta.None? ==> g1.showMeta == g.showMeta)
  {
  }

  // ---------------------------------------------------------------------
  // Tasks
  // ---------------------------------------------------------------------

  /**
    A task-add is ignored for an unknown or sealed group, for id 0 and for
    a known id. Otherwise the task joins the end of its group's list,
    Running from `now` or Pending with no start time, and the group's
    start time is set if it was zero.
   */
  lemma TaskAddSpec(s: EngineState, now: Time, e: Event)
    requires Valid(s)
    ensures ApplyTaskAdd(s, now, e) == s <==>
      e.groupId !in s.groupById || s.groupById[e.groupId].sealed || e.taskId == 0 || e.taskId in s.taskById
    ensures var r := ApplyTaskAdd(s, now, e);
      r != s ==>
        && var t := r.taskById[e.taskId]; var g := s.groupById[e.groupId]; var g1 := r.groupById[e.groupId];
        && r.taskById.Keys == s.taskById.Keys + {e.taskId}
        && t.gid == e.groupId && t.title == e.title.GetOr("") && t.kind == Generic
        && (e.pending ==> t.status == Pending && t.startAt == 0)
        && (!e.pending ==> t.status == Running && t.startAt == now)
        && g1.tasks == g.tasks + [e.taskId]
        && g1.startedAt == (if g.startedAt == 0 then now else g.startedAt)
  {
    var r := ApplyTaskAdd(s, now, e);
    if !(e.groupId !in s.groupById || s.groupById[e.groupId].sealed || e.taskId == 0 || e.taskId in s.taskById) {
      assert e.taskId in r.taskById;
    }
  }

  /** The only way out of Done, Error, Skipped or Canceled is back to Pending. */
  lemma TerminalOnlyToPending(from: Status, to: Status)
    requires Terminal(from) && Accepts(from, to)
    ensures to == Pending
  {
  }

  /**
    The transition rules one by one: Pending is always accepted; Done only
    from Running or Retrying; Error from anything but Done, Skipped,
    Canceled and Error itself; the rest only from a status that has not ended.
   */
  lemma TransitionRules(from: Status)
    ensures Accepts(from, Pending)
    ensures Accepts(from, Done) <==> Active(from)
    ensures Accepts(from, Error) <==> from == Pending || Active(from)
    ensures Accepts(from, Running) <==> !Terminal(from)
    ensures Accepts(from, Retrying) <==> !Terminal(from)
    ensures Accepts(from, Skipped) <==> !Terminal(from)
    ensures Accepts(from, Canceled) <==> !Terminal(from)
  {
  }

  /**
    A task-state event either changes nothing (unknown task, sealed group,
    no or unknown status, refused move) or moves the task: an ending
    status records `now` as the end, every move but Pending and Done fills
    in a zero start time, and a message in the event replaces the task's.
   */
  lemma TaskStateSpec(s: EngineState, now: Time, e: Event)
    requires TaskOpen(s, e.taskId) && e.status.Some? && ParseStatus(e.status.value).Some?
    ensures var r := ApplyTaskState(s, now, e);
      var t := s.taskById[e.taskId]; var t1 := r.taskById[e.taskId];
      var to := ParseStatus(e.status.value).value;
      && (!Accepts(t.status, to) ==> r == s)
      && (Accepts(t.status, to) ==>
            && t1.status == to
            && t1.endAt == (if Terminal(to) then now else t.endAt)
            && t1.startAt == (if Starts(to) && t.startAt == 0 then now else t.startAt)
            && t1.message == e.message.GetOr(t.message)
            && t1 == t.(status := t1.status, endAt := t1.endAt, startAt := t1.startAt, message := t1.message)
            && r.groupById[t.gid].startedAt == (if Starts(to) && s.groupById[t.gid].startedAt == 0 then now else s.groupById[t.gid].startedAt))
  {
  }

  /** An event without a recognised status changes nothing. */
  lemma UnknownStatusIgnored(s: EngineState, now: Time, e: Event)
    requires e.status.None? || ParseStatus(e.status.value).None?
    ensures ApplyTaskState(s, now, e) == s
  {
  }

  /** Starting a running task again keeps it running from its original start time. */
  lemma StartIsRepeatable(s: EngineState, now: Time, e: Event)
    requires TaskOpen(s, e.taskId) && s.taskById[e.taskId].status == Running && s.taskById[e.taskId].startAt != 0
    requires e.status == Some("running") && e.message.None?
    ensures ApplyTaskState(s, now, e).taskById == s.taskById
  {
  }

  /**
    Progress values below zero read as zero, and they change only while the
    task has not ended; no other field moves.
   */
  lemma ProgressSpec(s: EngineState, e: Event)
    requires TaskOpen(s, e.taskId)
    ensures var t := s.taskById[e.taskId]; var t1 := ApplyTaskProgress(s, e).taskById[e.taskId];
      && t1 == t.(total := t1.total, current := t1.current)
      && (Terminal(t.status) ==> t1 == t)
      && (!Terminal(t.status) && e.total.Some? ==> t1.total == ClampNonNegative(e.total.value) && t1.total >= 0)
      && (!Terminal(t.status) && e.current.Some? ==> t1.current == ClampNonNegative(e.current.value) && t1.current >= 0)
      && (e.total.None? ==> t1.total == t.total) && (e.current.None? ==> t1.current == t.current)
  {
  }
}

=== FILE: text.dfy ===
/**
  The small part of Go's `strings` and `strconv` packages that the model
  relies on: whitespace trimming, prefix tests, splitting on one separator,
  decimal integer parsing and printing, and byte-wise string ordering.
  Strings are sequences of Unicode scalar values.
 */
module Text {
  import opened Base

  // ---------------------------------------------------------------------
  // Whitespace and trimming (strings.TrimSpace)
  // ---------------------------------------------------------------------

  /** Go's unicode.IsSpace: the ASCII spaces plus the Unicode White_Space set. */
  predicate IsSpace(c: char)
  {
    || c == '\t' || c == '\n' || c == '\U{B}' || c == '\U{C}' || c == '\r' || c == ' '
    || c == '\U{85}' || c == '\U{A0}' || c == '\U{1680}'
    || ('\U{2000}' <= c <= '\U{200A}')
    || c == '\U{2028}' || c == '\U{2029}' || c == '\U{202F}' || c == '\U{205F}' || c == '\U{3000}'
  }

  /** Drops leading white space: the longest suffix that does not start with a space. */
  function TrimLeft(s: string): (r: string)
    ensures |r| <= |s| && r == s[|s| - |r|..]
    ensures r == [] || !IsSpace(r[0])
    ensures forall i :: 0 <= i < |s| - |r| ==> IsSpace(s[i])
  {
    if |s| > 0 && IsSpace(s[0]) then TrimLeft(s[1..]) else s
  }

  /** Drops trailing white space: the longest prefix that does not end with a space. */
  function TrimRight(s: string): (r: string)
    ensures |r| <= |s| && r == s[..|r|]
    ensures r == [] || !IsSpace(r[|r| - 1])
    ensures forall i :: |r| <= i < |s| ==> IsSpace(s[i])
  {
    if |s| > 0 && IsSpace(s[|s| - 1]) then TrimRight(s[..|s| - 1]) else s
  }

  /** strings.TrimSpace. */
  function TrimSpace(s: string): string
  {
    TrimRight(TrimLeft(s))
  }

  /** strings.TrimSpace leaves no white space at either end, so trimming twice is trimming once. */
  lemma TrimSpaceIdempotent(s: string)
    ensures var t := TrimSpace(s); t == [] || (!IsSpace(t[0]) && !IsSpace(t[|t| - 1]))
    ensures TrimSpace(TrimSpace(s)) == TrimSpace(s)
  {
    var l := TrimLeft(s);
    var t := TrimSpace(s);
    if t != [] {
      assert t[0] == l[0];
    }
    TrimSpaceKeeps(t);
  }

  /** A suffix of `s` that starts with a non-space and drops only spaces is TrimLeft(s). */
  lemma TrimLeftUnique(s: string, k: nat)
    requires k <= |s|
    requires k == |s| || !IsSpace(s[k])
    requires forall i :: 0 <= i < k ==> IsSpace(s[i])
    ensures TrimLeft(s) == s[k..]
  {
    var r := TrimLeft(s);
    var j := |s| - |r|;
    if j < |s| {
      assert r[0] == s[j];
    }
  }

  /** A prefix of `s` that ends with a non-space and drops only spaces is TrimRight(s). */
  lemma TrimRightUnique(s: string, k: nat)
    requires k <= |s|
    requires k == 0 || !IsSpace(s[k - 1])
    requires forall i :: k <= i < |s| ==> IsSpace(s[i])
    ensures TrimRight(s) == s[..k]
  {
    var r := TrimRight(s);
    var j := |r|;
    if 0 < j {
      assert r[j - 1] == s[j - 1];
    }
  }

  /** Trimming the two ends commutes, so TrimSpace(TrimRight(s)) is TrimSpace(s). */
  lemma TrimSpaceOfTrimRight(s: string)
    ensures TrimSpace(TrimRight(s)) == TrimSpace(s)
  {
    var a := |s| - |TrimLeft(s)|;
    var b := |TrimRight(s)|;
    if a < b {
      TrimBothEnds(s, a, b);
    } else {
      AllSpace(s, a, b);
      TrimRightUnique(s, 0);
      TrimLeftUnique(s, |s|);
      assert TrimLeft(s) == [];
      assert TrimRight(s) == [];
    }
  }

  lemma AllSpace(s: string, a: nat, b: nat)
    requires a == |s| - |TrimLeft(s)| && b == |TrimRight(s)| && b <= a
    ensures forall i :: 0 <= i < |s| ==> IsSpace(s[i])
  {
  }

  lemma TrimBothEnds(s: string, a: nat, b: nat)
    requires a == |s| - |TrimLeft(s)| && b == |TrimRight(s)| && a < b
    ensures TrimLeft(TrimRight(s)) == s[a..b]
    ensures TrimRight(TrimLeft(s)) == s[a..b]
  {
    LeftOfPrefix(s, a, b);
    RightOfSuffix(s, a, b);
  }

  lemma LeftOfPrefix(s: string, a: nat, b: nat)
    requires a == |s| - |TrimLeft(s)| && b == |TrimRight(s)| && a < b
    ensures TrimLeft(TrimRight(s)) == s[a..b]
  {
    var p := s[..b];
    assert TrimRight(s) == p;
    assert forall i :: 0 <= i < a ==> IsSpace(p[i]);
    assert p[a] == s[a];
    TrimLeftUnique(p, a);
    assert p[a..] == s[a..b];
  }

  lemma RightOfSuffix(s: string, a: nat, b: nat)
    requires a == |s| - |TrimLeft(s)| && b == |TrimRight(s)| && a < b
    ensures TrimRight(TrimLeft(s)) == s[a..b]
  {
    var l := TrimLeft(s);
    assert l == s[a..];
    var r := TrimRight(s);
    assert r == s[..b] && r[b - 1] == s[b - 1];
    assert !IsSpace(s[b - 1]);
    TrimRightOfSlice(s, a, b);
  }

  lemma TrimRightOfSlice(s: string, a: nat, b: nat)
    requires a < b <= |s| && !IsSpace(s[b - 1])
    requires forall i :: b <= i < |s| ==> IsSpace(s[i])
    ensures TrimRight(s[a..]) == s[a..b]
  {
    var q := s[a..];
    assert q[b - a - 1] == s[b - 1];
    forall i | b - a <= i < |q|
      ensures IsSpace(q[i])
    {
      assert q[i] == s[i + a];
    }
    TrimRightUnique(q, b - a);
    assert q[..b - a] == s[a..b];
  }

  /** A string that neither starts nor ends with white space is left alone. */
  lemma TrimSpaceKeeps(s: string)
    requires s == [] || (!IsSpace(s[0]) && !IsSpace(s[|s| - 1]))
    ensures TrimSpace(s) == s
  {
    TrimLeftUnique(s, 0);
    TrimRightUnique(s, |s|);
  }

  /** Trailing space after a non-space prefix is trimmed from the tail only. */
  lemma TrimSpaceAfterPrefix(p: string, x: string)
    requires p != [] && !IsSpace(p[0]) && !IsSpace(p[|p| - 1])
    ensures TrimSpace(p + x) == p + TrimRight(x)
  {
    TrimLeftUnique(p + x, 0);
    assert (p + x)[0..] == p + x;
    TrimRightAfterPrefix(p, x);
  }

  lemma TrimRightAfterPrefix(p: string, x: string)
    requires p != [] && !IsSpace(p[|p| - 1])
    ensures TrimRight(p + x) == p + TrimRight(x)
  {
    var t := TrimRight(x);
    var s := p + x;
    var k := |p| + |t|;
    assert s[..k] == p + t;
    assert k == 0 || !IsSpace(s[k - 1]) by {
      if |t| > 0 {
        assert s[k - 1] == t[|t| - 1];
      } else {
        assert s[k - 1] == p[|p| - 1];
      }
    }
    forall i | k <= i < |s|
      ensures IsSpace(s[i])
    {
      assert s[i] == x[i - |p|];
    }
    TrimRightUnique(s, k);
  }

  // ---------------------------------------------------------------------
  // Prefixes and suffixes
  // ---------------------------------------------------------------------

  /** strings.HasPrefix. */
  predicate HasPrefix(s: string, p: string)
  {
    |p| <= |s| && s[..|p|] == p
  }

  /** strings.TrimSuffix(s, "\r"): removes at most one trailing carriage return. */
  function TrimCR(s: string): (r: string)
    ensures r == s || (s == r + "\r")
    ensures |s| > 0 && s[|s| - 1] == '\r' ==> |r| == |s| - 1
    ensures r == s <==> (|s| == 0 || s[|s| - 1] != '\r')
  {
    if |s| > 0 && s[|s| - 1] == '\r' then s[..|s| - 1] else s
  }

  // ---------------------------------------------------------------------
  // Splitting on one separator (strings.Split, bytes.IndexByte)
  // ---------------------------------------------------------------------

  /** bytes.IndexByte: the first position of `c` in `s`, or -1. */
  function IndexOf(s: string, c: char): (i: int)
    ensures -1 <= i < |s|
    ensures i == -1 <==> c !in s
    ensures 0 <= i ==> s[i] == c && c !in s[..i]
  {
    if |s| == 0 then -1
    else if s[0] == c then 0
    else
      var j := IndexOf(s[1..], c);
      if j < 0 then -1
      else
        assert s[..j + 1] == [s[0]] + s[1..][..j];
        j + 1
  }

  /** strings.Split(s, string(c)): the pieces between separators, always at least one. */
  function Split(s: string, c: char): (r: seq<string>)
    ensures |r| >= 1
    decreases |s|
  {
    var i := IndexOf(s, c);
    if i < 0 then [s] else [s[..i]] + Split(s[i + 1..], c)
  }

  /** No piece of a split contains the separator. */
  lemma {:induction false} SplitPieces(s: string, c: char)
    ensures forall i :: 0 <= i < |Split(s, c)| ==> c !in Split(s, c)[i]
    decreases |s|
  {
    var i := IndexOf(s, c);
    if i >= 0 {
      SplitUnfold(s, c, i);
      SplitPieces(s[i + 1..], c);
    }
  }

  /** strings.Join(parts, string(c)). */
  function Join(parts: seq<string>, c: char): string
    decreases |parts|
  {
    if |parts| == 0 then ""
    else if |parts| == 1 then parts[0]
    else parts[0] + [c] + Join(parts[1..], c)
  }

  /** Joining the pieces of a split gives back the original text. */
  lemma {:induction false} JoinSplit(s: string, c: char)
    ensures Join(Split(s, c), c) == s
    decreases |s|
  {
    var i := IndexOf(s, c);
    if i >= 0 {
      var head, tail := s[..i], s[i + 1..];
      SplitUnfold(s, c, i);
      JoinSplit(tail, c);
      JoinCons(head, Split(tail, c), c);
      Around(s, i);
    }
  }

  lemma SplitUnfold(s: string, c: char, i: int)
    requires i == IndexOf(s, c) && i >= 0
    ensures Split(s, c) == [s[..i]] + Split(s[i + 1..], c)
  {
    var r := Split(s, c);
    assert r == [s[..i]] + Split(s[i + 1..], c);
  }

  lemma Around(s: string, i: nat)
    requires i < |s|
    ensures s == s[..i] + [s[i]] + s[i + 1..]
  {
  }

  lemma JoinCons(x: string, rest: seq<string>, c: char)
    requires |rest| >= 1
    ensures Join([x] + rest, c) == x + [c] + Join(rest, c)
  {
    assert ([x] + rest)[1..] == rest;
  }

  /** The first occurrence is unique: a `c` preceded by none is what IndexOf finds. */
  lemma {:induction false} IndexOfAt(s: string, c: char, k: nat)
    requires k < |s| && s[k] == c && c !in s[..k]
    ensures IndexOf(s, c) == k
  {
    if k > 0 {
      assert s[0] == s[..k][0];
      assert s[1..][..k - 1] == s[1..k];
      assert s[..k] == [s[0]] + s[1..k];
      IndexOfAt(s[1..], c, k - 1);
    }
  }

  /** Splitting a join of separator-free pieces gives back the pieces. */
  lemma {:induction false} SplitJoin(parts: seq<string>, c: char)
    requires |parts| >= 1
    requires forall i :: 0 <= i < |parts| ==> c !in parts[i]
    ensures Split(Join(parts, c), c) == parts
    decreases |parts|
  {
    if |parts| > 1 {
      var s := Join(parts, c);
      var tail := Join(parts[1..], c);
      var k := |parts[0]|;
      assert s == parts[0] + [c] + tail;
      assert s[..k] == parts[0];
      IndexOfAt(s, c, k);
      assert s[k + 1..] == tail;
      SplitJoin(parts[1..], c);
    } else {
      assert Join(parts, c) == parts[0];
      assert c !in parts[0];
    }
  }

  /** The text of `lines`, each followed by `c` (fmt.Fprintln once per line). */
  function Terminated(lines: seq<string>, c: char): string
  {
    if |lines| == 0 then "" else lines[0] + [c] + Terminated(lines[1..], c)
  }

  // ---------------------------------------------------------------------
  // Decimal integers (strconv.Atoi on a 64-bit platform, fmt's %d)
  // ---------------------------------------------------------------------

  const Int64Min: int := -0x8000_0000_0000_0000
  const Int64Max: int := 0x7fff_ffff_ffff_ffff

  predicate IsDigit(c: char)
  {
    '0' <= c <= '9'
  }

  predicate AllDigits(s: string)
  {
    forall i :: 0 <= i < |s| ==> IsDigit(s[i])
  }

  function DigitValue(c: char): nat
    requires IsDigit(c)
  {
    (c as int) - ('0' as int)
  }

  function DigitChar(d: nat): (c: char)
    requires d < 10
    ensures IsDigit(c) && DigitValue(c) == d
  {
    (('0' as int) + d) as char
  }

  /** The value of a run of decimal digits, most significant first. */
  function DigitsValue(ds: string): nat
    requires AllDigits(ds)
  {
    if |ds| == 0 then 0 else DigitsValue(ds[..|ds| - 1]) * 10 + DigitValue(ds[|ds| - 1])
  }

  /** The shortest decimal spelling of `n`. */
  function NatDigits(n: nat): (ds: string)
    ensures |ds| >= 1 && AllDigits(ds)
  {
    if n < 10 then [DigitChar(n)] else NatDigits(n / 10) + [DigitChar(n % 10)]
  }

  lemma {:induction false} NatDigitsValue(n: nat)
    ensures DigitsValue(NatDigits(n)) == n
  {
    if n >= 10 {
      var ds := NatDigits(n);
      assert ds[..|ds| - 1] == NatDigits(n / 10);
      NatDigitsValue(n / 10);
    }
  }

  /** The text of a decimal literal after its optional leading sign. */
  function Unsigned(s: string): string
  {
    if |s| > 0 && (s[0] == '+' || s[0] == '-') then s[1..] else s
  }

  predicate Negative(s: string)
  {
    |s| > 0 && s[0] == '-'
  }

  /**
    strconv.Atoi: an optional sign and one or more ASCII digits, whose
    signed value fits in int64 (magnitude up to 2^63 for a negative
    literal, 2^63 - 1 otherwise).
   */
  function Atoi(s: string): (r: Option<int>)
    ensures r.Some? <==>
      && |Unsigned(s)| >= 1 && AllDigits(Unsigned(s))
      && DigitsValue(Unsigned(s)) <= (if Negative(s) then -Int64Min else Int64Max)
    ensures r.Some? ==> r.value == (if Negative(s) then 0 - DigitsValue(Unsigned(s)) as int else DigitsValue(Unsigned(s)))
    ensures r.Some? ==> Int64Min <= r.value <= Int64Max
    ensures r.Some? && r.value < 0 ==> s[0] == '-'
  {
    var digits := Unsigned(s);
    if |digits| == 0 || !AllDigits(digits) then None
    else
      var v: int := if Negative(s) then 0 - DigitsValue(digits) else DigitsValue(digits);
      if Int64Min <= v <= Int64Max then Some(v) else None
  }

  /** fmt's %d: a minus sign for negative values, then the decimal digits. */
  function Itoa(n: int): string
  {
    if n < 0 then "-" + NatDigits(-n) else NatDigits(n)
  }

  /** Printing an int64 with %d and parsing it back with Atoi is the identity. */
  lemma AtoiItoa(n: int)
    requires Int64Min <= n <= Int64Max
    ensures Atoi(Itoa(n)) == Some(n)
  {
    var s := Itoa(n);
    if n < 0 {
      var ds := NatDigits(-n);
      NatDigitsValue(-n);
      assert s[0] == '-' && s[1..] == ds;
      assert Negative(s) && Unsigned(s) == ds;
    } else {
      var ds := NatDigits(n);
      NatDigitsValue(n);
      assert !Negative(s) && Unsigned(s) == ds;
    }
  }

  // ---------------------------------------------------------------------
  // Case folding and ordering (strings.ToLower, string <)
  // ---------------------------------------------------------------------

  /** ASCII lower-casing of one character. */
  function LowerChar(c: char): char
  {
    if 'A' <= c <= 'Z' then ((c as int) + 32) as char else c
  }

  /** strings.ToLower restricted to ASCII letters. */
  function ToLower(s: string): (r: string)
    ensures |r| == |s|
  {
    if |s| == 0 then "" else [LowerChar(s[0])] + ToLower(s[1..])
  }

  /** Lower-casing maps every character on its own: A to Z become a to z, all else stays. */
  lemma {:induction false} ToLowerChars(s: string)
    ensures forall i :: 0 <= i < |s| ==>
      ToLower(s)[i] == (if 'A' <= s[i] <= 'Z' then ((s[i] as int) + 32) as char else s[i])
    ensures forall i :: 0 <= i < |s| ==> !('A' <= ToLower(s)[i] <= 'Z')
    decreases |s|
  {
    if |s| > 0 {
      ToLowerChars(s[1..]);
      var r := ToLower(s);
      assert r == [LowerChar(s[0])] + ToLower(s[1..]);
      forall i | 1 <= i < |s|
        ensures r[i] == LowerChar(s[i])
      {
        assert r[i] == ToLower(s[1..])[i - 1];
      }
    }
  }

  /** Lower-casing twice is lower-casing once. */
  lemma ToLowerIdempotent(s: string)
    ensures ToLower(ToLower(s)) == ToLower(s)
  {
    var r := ToLower(s);
    ToLowerChars(s);
    ToLowerChars(r);
    assert ToLower(r) == r;
  }

  /** Go's `<` on strings: lexicographic order on the encoded text. */
  predicate Less(a: string, b: string)
  {
    if |a| == 0 then |b| > 0
    else if |b| == 0 then false
    else if a[0] != b[0] then a[0] < b[0]
    else Less(a[1..], b[1..])
  }

  lemma {:induction false} LessTotal(a: string, b: string)
    ensures a == b || Less(a, b) || Less(b, a)
  {
    if |a| > 0 && |b| > 0 && a[0] == b[0] {
      LessTotal(a[1..], b[1..]);
      if a[1..] == b[1..] {
        assert a == [a[0]] + a[1..] && b == [b[0]] + b[1..];
      }
    }
  }

  lemma {:induction false} LessAsymmetric(a: string, b: string)
    ensures !(Less(a, b) && Less(b, a))
  {
    if |a| > 0 && |b| > 0 && a[0] == b[0] {
      LessAsymmetric(a[1..], b[1..]);
    }
  }

  lemma {:induction false} LessTransitive(a: string, b: string, c: string)
    requires Less(a, b) && Less(b, c)
    ensures Less(a, c)
  {
    if |a| > 0 && |b| > 0 && |c| > 0 && a[0] == b[0] && b[0] == c[0] {
      LessTransitive(a[1..], b[1..], c[1..]);
    }
  }

  /** strings.Repeat of a single glyph. */
  function Repeat(c: char, n: nat): (r: string)
    ensures |r| == n
    ensures forall i :: 0 <= i < n ==> r[i] == c
  {
    if n == 0 then "" else [c] + Repeat(c, n - 1)
  }
}

=== FILE: tty.dfy ===
/**
  The decisions behind the TTY Active area: which tasks are visible, in
  what order, how many rows a group gets, how a progress bar and a
  download percentage are sized, and which groups get a block at all.
  Styling is left to the terminal library, so a line is kept as its
  structure (a header, a task row, or an "… and N more" line) rather than
  as styled text.
 */
module Tty {
  import opened Base
  import opened Text
  import opened Events
  import opened State

  // ---------------------------------------------------------------------
  // Visibility
  // ---------------------------------------------------------------------

  /** The current time: `now`, or the clock's reading when `now` is zero. */
  function Now(now: Time, clock: Time): Time
  {
    if now == 0 then clock else now
  }

  /**
    ttyTaskVisible: a missing task is hidden; a task that is not
    hide-if-fast is shown; a hide-if-fast task shows while it is failed or
    retrying, and while running once it has run for its reveal delay.
   */
  function TaskVisible(t: Option<TaskState>, now: Time, clock: Time): bool
  {
    if t.None? then false
    else
      var x := t.value;
      if !x.hideIfFast then true
      else
        match x.status
        case Error => true
        case Retrying => true
        case Running => x.revealAfterMs <= 0 || x.startAt == 0 || Now(now, clock) - x.startAt >= x.revealAfterMs
        case _ => false
  }

  /** A running hide-if-fast task, once revealed, stays revealed as time goes on. */
  lemma RevealIsMonotone(t: TaskState, now1: Time, now2: Time, clock: Time)
    requires t.status == Running && 0 < now1 <= now2
    requires TaskVisible(Some(t), now1, clock)
    ensures TaskVisible(Some(t), now2, clock)
  {
  }

  /** A hide-if-fast task that ended well, or has not started, is never shown. */
  lemma HiddenWhenFastAndFine(t: TaskState, now: Time, clock: Time)
    requires t.hideIfFast
    ensures t.status == Done || t.status == Pending || t.status == Skipped || t.status == Canceled ==> !TaskVisible(Some(t), now, clock)
    ensures t.status == Error || t.status == Retrying ==> TaskVisible(Some(t), now, clock)
  {
  }

  /**
    The three hide-if-fast cases: a fast successful task is hidden, a
    failed one is shown, and a running one appears only when it has run
    longer than its reveal delay.
   */
  lemma HideIfFastExamples(now: Time, base: TaskState)
    requires now >= 3000
    ensures var done := base.(status := Done, hideIfFast := true, revealAfterMs := 2000, startAt := now - 3000, endAt := now);
      !TaskVisible(Some(done), now, 0)
    ensures TaskVisible(Some(base.(status := Error, hideIfFast := true, message := "boom")), now, 0)
    ensures var running := base.(status := Running, hideIfFast := true, startAt := now - 2000);
      !TaskVisible(Some(running.(revealAfterMs := 10000)), now, 0) && TaskVisible(Some(running.(revealAfterMs := 1000)), now, 0)
  {
  }

  // ---------------------------------------------------------------------
  // Ordering by title
  // ---------------------------------------------------------------------

  /** What the title sort compares: the lower-cased title; missing tasks go last. */
  datatype SortKey = Titled(lower: string) | NilKey

  function Key(t: Option<TaskState>): SortKey
  {
    if t.Some? then Titled(ToLower(t.value.title)) else NilKey
  }

  /** The order on keys. */
  predicate KeyLess(a: SortKey, b: SortKey)
  {
    match a
    case NilKey => false
    case Titled(x) => b.NilKey? || Less(x, b.lower)
  }

  /** The comparison handed to sort.SliceStable: a present task before a missing one, else by lower-cased title. */
  predicate Before(a: Option<TaskState>, b: Option<TaskState>)
  {
    if a.None? || b.None? then a.Some? else Less(ToLower(a.value.title), ToLower(b.value.title))
  }

  /** The comparison is the order on keys. */
  lemma BeforeIsKeyLess(a: Option<TaskState>, b: Option<TaskState>)
    ensures Before(a, b) == KeyLess(Key(a), Key(b))
  {
  }

  lemma KeyIrreflexive(k: SortKey)
    ensures !KeyLess(k, k)
  {
    if k.Titled? {
      LessAsymmetric(k.lower, k.lower);
    }
  }

  lemma KeyTransitive(a: SortKey, b: SortKey, c: SortKey)
    requires KeyLess(a, b) && KeyLess(b, c)
    ensures KeyLess(a, c)
  {
    if c.Titled? {
      LessTransitive(a.lower, b.lower, c.lower);
    }
  }

  lemma KeyTotal(a: SortKey, b: SortKey)
    ensures a == b || KeyLess(a, b) || KeyLess(b, a)
  {
    if a.Titled? && b.Titled? {
      LessTotal(a.lower, b.lower);
    }
  }

  /** Place `x` after every element that does not sort after it. */
  function Insert<T>(x: T, s: seq<T>, key: T -> SortKey): (r: seq<T>)
    ensures |r| == |s| + 1
    decreases |s|
  {
    if |s| == 0 then [x]
    else if KeyLess(key(x), key(s[0])) then [x] + s
    else [s[0]] + Insert(x, s[1..], key)
  }

  /** A stable sort by key, as insertion of each element into the sorted elements before it. */
  function SortBy<T>(ts: seq<T>, key: T -> SortKey): (r: seq<T>)
    ensures |r| == |ts|
    decreases |ts|
  {
    if |ts| == 0 then [] else Insert(ts[|ts| - 1], SortBy(ts[..|ts| - 1], key), key)
  }

  /** No element sorts before an earlier one. */
  ghost predicate Sorted<T>(s: seq<T>, key: T -> SortKey)
  {
    forall i, j :: 0 <= i < j < |s| ==> !KeyLess(key(s[j]), key(s[i]))
  }

  /** The elements with a given key, in their order. */
  function WithKey<T>(s: seq<T>, key: T -> SortKey, k: SortKey): (r: seq<T>)
    decreases |s|
  {
    if |s| == 0 then [] else (if key(s[0]) == k then [s[0]] else []) + WithKey(s[1..], key, k)
  }

  lemma {:induction false} WithKeyAppend<T>(a: seq<T>, b: seq<T>, key: T -> SortKey, k: SortKey)
    ensures WithKey(a + b, key, k) == WithKey(a, key, k) + WithKey(b, key, k)
    decreases |a|
  {
    if |a| > 0 {
      assert (a + b)[1..] == a[1..] + b;
      WithKeyAppend(a[1..], b, key, k);
    } else {
      assert a + b == b;
    }
  }

  /** A sorted sequence whose first key is above `k` has nothing with key `k`. */
  lemma {:induction false} NoneBelowFirst<T>(s: seq<T>, key: T -> SortKey, k: SortKey)
    requires Sorted(s, key) && |s| > 0 && KeyLess(k, key(s[0]))
    ensures WithKey(s, key, k) == []
    decreases |s|
  {
    KeyIrreflexive(k);
    if |s| > 1 {
      var t := s[1..];
      assert Sorted(t, key) by {
        forall i, j | 0 <= i < j < |t| ensures !KeyLess(key(t[j]), key(t[i])) {
          assert t[i] == s[i + 1] && t[j] == s[j + 1];
        }
      }
      KeyTotal(key(s[0]), key(s[1]));
      assert !KeyLess(key(s[1]), key(s[0]));
      if key(s[0]) != key(s[1]) {
        KeyTransitive(k, key(s[0]), key(s[1]));
      }
      NoneBelowFirst(t, key, k);
    }
  }

  /** Insertion keeps the elements, adding `x` once. */
  lemma {:induction false} InsertPermutes<T>(x: T, s: seq<T>, key: T -> SortKey)
    ensures multiset(Insert(x, s, key)) == multiset(s) + multiset{x}
    decreases |s|
  {
    if |s| > 0 && !KeyLess(key(x), key(s[0])) {
      InsertPermutes(x, s[1..], key);
      assert s == [s[0]] + s[1..];
    }
  }

  /** Every element of a sorted sequence is at or above its first. */
  lemma AboveFirst<T>(s: seq<T>, key: T -> SortKey, y: T)
    requires Sorted(s, key) && |s| > 0 && y in multiset(s)
    ensures !KeyLess(key(y), key(s[0]))
  {
    var m :| 0 <= m < |s| && s[m] == y;
    if m == 0 {
      KeyIrreflexive(key(y));
    }
  }

  /** Inserting before the head: `x` sorts before the head and so before all of `s`. */
  lemma InsertFrontSorted<T>(x: T, s: seq<T>, key: T -> SortKey)
    requires Sorted(s, key) && |s| > 0 && KeyLess(key(x), key(s[0]))
    ensures Sorted([x] + s, key)
  {
    var r := [x] + s;
    forall i, j | 0 <= i < j < |r|
      ensures !KeyLess(key(r[j]), key(r[i]))
    {
      if i == 0 {
        assert r[j] == s[j - 1];
        AboveFirst(s, key, s[j - 1]);
        if KeyLess(key(s[j - 1]), key(x)) {
          KeyTransitive(key(s[j - 1]), key(x), key(s[0]));
        }
      } else {
        assert r[i] == s[i - 1] && r[j] == s[j - 1];
      }
    }
  }

  /** Keeping the head: the head is at or below everything inserted after it. */
  lemma ConsSorted<T>(h: T, tail: seq<T>, key: T -> SortKey)
    requires Sorted(tail, key)
    requires forall j :: 0 <= j < |tail| ==> !KeyLess(key(tail[j]), key(h))
    ensures Sorted([h] + tail, key)
  {
    var r := [h] + tail;
    forall i, j | 0 <= i < j < |r|
      ensures !KeyLess(key(r[j]), key(r[i]))
    {
      assert r[j] == tail[j - 1];
      if i > 0 {
        assert r[i] == tail[i - 1];
      }
    }
  }

  /** Insertion into a sorted sequence keeps it sorted. */
  lemma {:induction false} InsertSorted<T>(x: T, s: seq<T>, key: T -> SortKey)
    requires Sorted(s, key)
    ensures Sorted(Insert(x, s, key), key)
    decreases |s|
  {
    if |s| == 0 {
    } else if KeyLess(key(x), key(s[0])) {
      InsertFrontSorted(x, s, key);
    } else {
      var t := s[1..];
      assert Sorted(t, key) by {
        forall i, j | 0 <= i < j < |t| ensures !KeyLess(key(t[j]), key(t[i])) {
          assert t[i] == s[i + 1] && t[j] == s[j + 1];
        }
      }
      InsertSorted(x, t, key);
      InsertPermutes(x, t, key);
      var tail := Insert(x, t, key);
      forall j | 0 <= j < |tail|
        ensures !KeyLess(key(tail[j]), key(s[0]))
      {
        assert tail[j] in multiset(tail);
        if tail[j] != x {
          assert tail[j] in multiset(t);
          assert s == [s[0]] + t;
          AboveFirst(s, key, tail[j]);
        }
      }
      ConsSorted(s[0], tail, key);
    }
  }

  /** Insertion into a sorted sequence puts `x` after every element with its key. */
  lemma {:induction false} InsertStable<T>(x: T, s: seq<T>, key: T -> SortKey, k: SortKey)
    requires Sorted(s, key)
    ensures WithKey(Insert(x, s, key), key, k) == WithKey(s, key, k) + (if key(x) == k then [x] else [])
    decreases |s|
  {
    var mine := if key(x) == k then [x] else [];
    if |s| == 0 {
      assert Insert(x, s, key) == [x];
      assert WithKey([x], key, k) == mine + WithKey([x][1..], key, k);
    } else if KeyLess(key(x), key(s[0])) {
      var r := [x] + s;
      assert Insert(x, s, key) == r;
      assert r[1..] == s;
      assert WithKey(r, key, k) == mine + WithKey(s, key, k);
      if key(x) == k {
        NoneBelowFirst(s, key, k);
      }
    } else {
      var t := s[1..];
      assert Sorted(t, key) by {
        forall i, j | 0 <= i < j < |t| ensures !KeyLess(key(t[j]), key(t[i])) {
          assert t[i] == s[i + 1] && t[j] == s[j + 1];
        }
      }
      var head := if key(s[0]) == k then [s[0]] else [];
      var r := [s[0]] + Insert(x, t, key);
      assert Insert(x, s, key) == r;
      assert r[1..] == Insert(x, t, key);
      assert WithKey(r, key, k) == head + WithKey(Insert(x, t, key), key, k);
      InsertStable(x, t, key, k);
      assert WithKey(s, key, k) == head + WithKey(t, key, k);
    }
  }

  /**
    sort.SliceStable: the result is a permutation of the input, ordered by
    key, and elements with equal keys keep their original relative order.
   */
  lemma {:induction false} SortSpec<T>(ts: seq<T>, key: T -> SortKey)
    ensures multiset(SortBy(ts, key)) == multiset(ts)
    ensures Sorted(SortBy(ts, key), key)
    ensures forall k :: WithKey(SortBy(ts, key), key, k) == WithKey(ts, key, k)
    decreases |ts|
  {
    if |ts| > 0 {
      var init := ts[..|ts| - 1];
      var x := ts[|ts| - 1];
      var sorted := SortBy(init, key);
      SortSpec(init, key);
      InsertPermutes(x, sorted, key);
      InsertSorted(x, sorted, key);
      assert ts == init + [x];
      forall k
        ensures WithKey(SortBy(ts, key), key, k) == WithKey(ts, key, k)
      {
        InsertStable(x, sorted, key, k);
        WithKeyAppend(init, [x], key, k);
      }
    }
  }

  /** The title sort of the group's tasks uses exactly the Go comparison: sorting by `Key` orders by `Before`. */
  lemma TitleSortOrder(ts: seq<Option<TaskState>>)
    ensures var r := SortBy(ts, Key);
      multiset(r) == multiset(ts)
      && (forall i, j :: 0 <= i < j < |r| ==> !Before(r[j], r[i]))
      && (forall k :: WithKey(r, Key, k) == WithKey(ts, Key, k))
  {
    SortSpec(ts, Key);
    var r := SortBy(ts, Key);
    forall i, j | 0 <= i < j < |r|
      ensures !Before(r[j], r[i])
    {
      BeforeIsKeyLess(r[j], r[i]);
    }
  }

  // ---------------------------------------------------------------------
  // A group's lines
  // ---------------------------------------------------------------------

  /** The group icon: running, or, once closed with nothing active, failed or succeeded. */
  datatype Icon = RunningIcon | SuccessIcon | ErrorIcon

  /**
    One line of a group's block: the header (icon, title, the elapsed time
    when the group shows meta, and the trailing dots of a busy group that
    does not), a task row, or the count of visible tasks left out.
   */
  datatype Line =
    | Header(icon: Icon, title: string, elapsed: Option<int>, dots: bool)
    | Row(task: TaskState)
    | More(count: nat)

  /** The task records behind a group's ids; an unknown id is a missing task. */
  function Lookup(s: EngineState, ids: seq<nat>): (r: seq<Option<TaskState>>)
    ensures |r| == |ids|
    ensures forall i :: 0 <= i < |ids| ==> r[i] == (if ids[i] in s.taskById then Some(s.taskById[ids[i]]) else None)
  {
    seq(|ids|, i requires 0 <= i < |ids| => if ids[i] in s.taskById then Some(s.taskById[ids[i]]) else None)
  }

  /** The group's tasks in display order: title-sorted on a copy when asked and there are two or more. */
  function Ordered(g: GroupState, ts: seq<Option<TaskState>>): (r: seq<Option<TaskState>>)
    ensures multiset(r) == multiset(ts)
    ensures g.sortTasksByTitle && |ts| > 1 ==> Sorted(r, Key) && forall k :: WithKey(r, Key, k) == WithKey(ts, Key, k)
    ensures !(g.sortTasksByTitle && |ts| > 1) ==> r == ts
  {
    if g.sortTasksByTitle && |ts| > 1 then SortSpec(ts, Key); SortBy(ts, Key) else ts
  }

  /** The visible tasks, in order. */
  function Visible(ts: seq<Option<TaskState>>, now: Time, clock: Time): (r: seq<TaskState>)
    ensures |r| <= |ts|
    ensures forall i :: 0 <= i < |r| ==> TaskVisible(Some(r[i]), now, clock) && Some(r[i]) in ts
    decreases |ts|
  {
    if |ts| == 0 then []
    else (if TaskVisible(ts[0], now, clock) then [ts[0].value] else []) + Visible(ts[1..], now, clock)
  }

  /** The visible tasks are exactly the tasks that are visible, each as often as it occurs. */
  lemma {:induction false} VisibleCounts(ts: seq<Option<TaskState>>, now: Time, clock: Time, t: TaskState)
    ensures multiset(Visible(ts, now, clock))[t] == (if TaskVisible(Some(t), now, clock) then multiset(ts)[Some(t)] else 0)
    decreases |ts|
  {
    if |ts| > 0 {
      var head := if TaskVisible(ts[0], now, clock) then [ts[0].value] else [];
      VisibleCounts(ts[1..], now, clock, t);
      assert Visible(ts, now, clock) == head + Visible(ts[1..], now, clock);
      assert multiset(Visible(ts, now, clock)) == multiset(head) + multiset(Visible(ts[1..], now, clock));
      assert ts == [ts[0]] + ts[1..];
      assert multiset(ts) == multiset([ts[0]]) + multiset(ts[1..]);
      if TaskVisible(ts[0], now, clock) && ts[0] == Some(t) {
        assert multiset(head)[t] == 1;
      } else {
        assert multiset(head)[t] == (if TaskVisible(Some(t), now, clock) then multiset([ts[0]])[Some(t)] else 0);
      }
    }
  }

  /** How many tasks are running or retrying. */
  function CountActive(ts: seq<TaskState>): (n: nat)
    ensures n <= |ts|
    ensures n == 0 <==> forall i :: 0 <= i < |ts| ==> !Active(ts[i].status)
    decreases |ts|
  {
    if |ts| == 0 then 0 else (if Active(ts[0].status) then 1 else 0) + CountActive(ts[1..])
  }

  /** Whether some task failed. */
  function AnyError(ts: seq<TaskState>): (r: bool)
    ensures r <==> exists i :: 0 <= i < |ts| && ts[i].status == Error
    decreases |ts|
  {
    if |ts| == 0 then false else ts[0].status == Error || AnyError(ts[1..])
  }

  /** How many visible tasks get a row: all of them, or at most `limit` when it is not negative. */
  function Shown(visible: nat, limit: int): (n: nat)
    ensures n <= visible
    ensures limit < 0 ==> n == visible
    ensures limit >= 0 ==> n == if visible > limit then limit else visible
  {
    if limit >= 0 && visible > limit then limit else visible
  }

  /** A closed group whose visible tasks all ended well may collapse to its header. */
  predicate Collapses(g: GroupState, vis: seq<TaskState>)
  {
    g.closed && CountActive(vis) == 0 && !AnyError(vis) && g.hideDetailsOnSuccess
  }

  /** The header of a group, given its visible tasks. */
  function HeaderOf(s: EngineState, g: GroupState, vis: seq<TaskState>, now: Time): Line
  {
    var active := CountActive(vis);
    var icon := if g.closed && active == 0 then (if AnyError(vis) then ErrorIcon else SuccessIcon) else RunningIcon;
    Header(icon, g.title, if g.showMeta then Some(Elapsed(g, Members(s, g.tasks), now, now)) else None, active > 0 && !g.showMeta)
  }

  /**
    The lines under the header: a row for each of the first `Shown`
    visible tasks, then, when some are left, the count of the rest.
   */
  function Rows(vis: seq<TaskState>, limit: int): (rows: seq<Line>)
    ensures var shown := Shown(|vis|, limit);
      && |rows| == shown + (if |vis| > shown then 1 else 0)
      && (forall i :: 0 <= i < shown ==> rows[i] == Row(vis[i]))
      && (|vis| > shown ==> rows[|rows| - 1] == More(|vis| - shown))
  {
    var shown := Shown(|vis|, limit);
    seq(shown, i requires 0 <= i < shown => Row(vis[i])) + (if |vis| > shown then [More(|vis| - shown)] else [])
  }

  /** The visible tasks of a group, in display order. */
  function GroupVisible(s: EngineState, g: GroupState, now: Time, clock: Time): seq<TaskState>
  {
    Visible(Ordered(g, Lookup(s, g.tasks)), Now(now, clock), clock)
  }

  /** ttyGroupComponent.Lines: the header, then the rows unless the group collapses. */
  function GroupLines(s: EngineState, g: GroupState, now: Time, clock: Time, limit: int): (lines: seq<Line>)
    ensures var vis := GroupVisible(s, g, now, clock);
      && |lines| >= 1 && lines[0] == HeaderOf(s, g, vis, Now(now, clock))
      && lines[1..] == (if Collapses(g, vis) then [] else Rows(vis, limit))
  {
    var vis := GroupVisible(s, g, now, clock);
    var header := HeaderOf(s, g, vis, Now(now, clock));
    [header] + (if Collapses(g, vis) then [] else Rows(vis, limit))
  }

  /** The header's icon and dots follow the visible tasks: busy while any is active, else failed or done. */
  lemma HeaderIcon(s: EngineState, g: GroupState, vis: seq<TaskState>, now: Time)
    ensures var h := HeaderOf(s, g, vis, now);
      && h.title == g.title
      && (h.icon == RunningIcon <==> !g.closed || exists i :: 0 <= i < |vis| && Active(vis[i].status))
      && (h.icon == ErrorIcon <==> g.closed && (forall i :: 0 <= i < |vis| ==> !Active(vis[i].status)) && exists i :: 0 <= i < |vis| && vis[i].status == Error)
      && (h.dots <==> !g.showMeta && exists i :: 0 <= i < |vis| && Active(vis[i].status))
      && (h.elapsed.Some? <==> g.showMeta)
  {
  }

  /** Every visible task is listed or counted: the rows plus the "more" count cover them all. */
  lemma RowsCoverVisible(vis: seq<TaskState>, limit: int)
    ensures var rows := Rows(vis, limit);
      && (|rows| > 0 && rows[|rows| - 1].More? ==> (|rows| - 1) + rows[|rows| - 1].count == |vis|)
      && ((|rows| == 0 || !rows[|rows| - 1].More?) ==> |rows| == |vis|)
      && (limit >= 0 ==> |rows| <= limit + 1)
  {
  }

  // ---------------------------------------------------------------------
  // Download details
  // ---------------------------------------------------------------------

  /** The two lengths of a progress bar: the filled part and the track. */
  datatype Bar = Bar(filled: nat, track: nat)

  /**
    renderProgressBar: nothing without a width or a total; otherwise the
    current value is clamped to [0, total], and the filled length given by
    `scaled` (the floating-point current/total*width, truncated) is clamped
    to [0, width].
   */
  function ProgressBar(current: int, total: int, width: int, scaled: (int, int, int) -> int): (r: Option<Bar>)
    ensures r.None? <==> width <= 0 || total <= 0
    ensures r.Some? ==> r.value.filled + r.value.track == width && r.value.filled <= width
    ensures r.Some? ==> var c := if current < 0 then 0 else if current > total then total else current;
      var f := scaled(c, total, width);
      r.value.filled == (if f < 0 then 0 else if f > width then width else f)
  {
    if width <= 0 || total <= 0 then None
    else
      var c := if current < 0 then 0 else if current > total then total else current;
      var f := scaled(c, total, width);
      var filled := if f < 0 then 0 else if f > width then width else f;
      Some(Bar(filled, width - filled))
  }

  /** The bar's glyphs: as many as the width. */
  function BarGlyphs(b: Bar): (r: string)
    ensures |r| == b.filled + b.track
  {
    Repeat('━', b.filled) + Repeat('━', b.track)
  }

  /** With exact arithmetic for the scaling, the fill needs no clamping: it is the share of the width done. */
  lemma ExactFill(current: int, total: int, width: int)
    requires width > 0 && total > 0 && 0 <= current <= total
    ensures var b := ProgressBar(current, total, width, (c: int, t: int, w: int) => if t > 0 then c * w / t else 0).value;
      b.filled == current * width / total && b.filled * total <= current * width
  {
    assert 0 <= current * width <= total * width;
    DivBound(current * width, total, width);
  }

  lemma DivBound(n: int, d: int, w: int)
    requires d > 0 && 0 <= n <= d * w
    ensures 0 <= n / d <= w && (n / d) * d <= n
  {
  }

  /** The percentage shown for a running download with a known total: current*100/total, or 0 before any progress. */
  function DownloadPercent(current: int, total: int): (p: int)
    requires total > 0
    ensures current <= 0 ==> p == 0
    ensures current > 0 ==> p >= 0 && p * total <= current * 100 < (p + 1) * total
    ensures 0 <= current <= total ==> 0 <= p <= 100
  {
    if current > 0 then current * 100 / total else 0
  }

  /** ttyDownloadMeta: the total's size when known; otherwise the bytes so far, once the task is no longer active. */
  function DownloadMeta(t: TaskState, bytes: int -> string): (m: string)
    ensures m != "" <==> t.total > 0 || (!Active(t.status) && t.current > 0)
    ensures t.total > 0 ==> m == "(" + bytes(t.total) + ")"
    ensures t.total <= 0 && !Active(t.status) && t.current > 0 ==> m == "(" + bytes(t.current) + ")"
  {
    if t.total > 0 then "(" + bytes(t.total) + ")"
    else if !Active(t.status) && t.current > 0 then "(" + bytes(t.current) + ")"
    else ""
  }

  // ---------------------------------------------------------------------
  // Blocks
  // ---------------------------------------------------------------------

  /** A group gets a block when it is known, not sealed, and has tasks. */
  predicate Renders(s: EngineState, gid: nat)
  {
    gid in s.groupById && !s.groupById[gid].sealed && |s.groupById[gid].tasks| > 0
  }

  /** The groups that get a block, in their order. */
  function Eligible(s: EngineState, order: seq<nat>): (r: seq<nat>)
    ensures forall i :: 0 <= i < |r| ==> Renders(s, r[i])
    ensures forall x :: x in r <==> x in order && Renders(s, x)
    decreases |order|
  {
    if |order| == 0 then []
    else (if Renders(s, order[0]) then [order[0]] else []) + Eligible(s, order[1..])
  }

  /** Selection keeps the order: the groups of a concatenation are those of each part, in turn. */
  lemma {:induction false} EligibleAppend(s: EngineState, a: seq<nat>, b: seq<nat>)
    ensures Eligible(s, a + b) == Eligible(s, a) + Eligible(s, b)
    decreases |a|
  {
    if |a| > 0 {
      assert (a + b)[1..] == a[1..] + b;
      EligibleAppend(s, a[1..], b);
    } else {
      assert a + b == b;
    }
  }

  /** renderTTYBlocks: one block per eligible group, in group order. */
  function RenderBlocks(s: EngineState, now: Time, clock: Time, limit: int): (blocks: seq<seq<Line>>)
    ensures var el := Eligible(s, s.groups);
      |blocks| == |el| && forall i :: 0 <= i < |el| ==> blocks[i] == GroupLines(s, s.groupById[el[i]], now, clock, limit)
  {
    var el := Eligible(s, s.groups);
    seq(|el|, i requires 0 <= i < |el| => GroupLines(s, s.groupById[el[i]], now, clock, limit))
  }

  /** flattenBlocks: the blocks' lines one after another. */
  function Flatten(blocks: seq<seq<Line>>): (lines: seq<Line>)
    decreases |blocks|
  {
    if |blocks| == 0 then [] else blocks[0] + Flatten(blocks[1..])
  }

  /** Flattening is concatenation: it distributes over joining block lists. */
  lemma {:induction false} FlattenAppend(a: seq<seq<Line>>, b: seq<seq<Line>>)
    ensures Flatten(a + b) == Flatten(a) + Flatten(b)
    decreases |a|
  {
    if |a| > 0 {
      assert (a + b)[1..] == a[1..] + b;
      FlattenAppend(a[1..], b);
    } else {
      assert a + b == b;
    }
  }

  /** How many header lines there are. */
  function Headers(lines: seq<Line>): nat
    decreases |lines|
  {
    if |lines| == 0 then 0 else (if lines[0].Header? then 1 else 0) + Headers(lines[1..])
  }

  lemma {:induction false} HeadersAppend(a: seq<Line>, b: seq<Line>)
    ensures Headers(a + b) == Headers(a) + Headers(b)
    decreases |a|
  {
    if |a| > 0 {
      assert (a + b)[1..] == a[1..] + b;
      HeadersAppend(a[1..], b);
    } else {
      assert a + b == b;
    }
  }

  /** A group's block has exactly one header, its first line. */
  lemma OneHeader(s: EngineState, g: GroupState, now: Time, clock: Time, limit: int)
    ensures Headers(GroupLines(s, g, now, clock, limit)) == 1
  {
    var lines := GroupLines(s, g, now, clock, limit);
    var rest := lines[1..];
    assert forall i :: 0 <= i < |rest| ==> !rest[i].Header?;
    NoHeaders(rest);
    assert lines == [lines[0]] + rest;
    HeadersAppend([lines[0]], rest);
  }

  lemma {:induction false} NoHeaders(lines: seq<Line>)
    requires forall i :: 0 <= i < |lines| ==> !lines[i].Header?
    ensures Headers(lines) == 0
    decreases |lines|
  {
    if |lines| > 0 {
      NoHeaders(lines[1..]);
    }
  }

  /** The Active area shows one header per group that gets a block, and none for the others. */
  lemma {:induction false} HeaderPerGroup(blocks: seq<seq<Line>>)
    requires forall i :: 0 <= i < |blocks| ==> Headers(blocks[i]) == 1
    ensures Headers(Flatten(blocks)) == |blocks|
    decreases |blocks|
  {
    if |blocks| > 0 {
      HeaderPerGroup(blocks[1..]);
      HeadersAppend(blocks[0], Flatten(blocks[1..]));
    }
  }

  /** Rendering the blocks gives exactly one header per unsealed group with tasks. */
  lemma RenderedHeaders(s: EngineState, now: Time, clock: Time, limit: int)
    ensures Headers(Flatten(RenderBlocks(s, now, clock, limit))) == |Eligible(s, s.groups)|
  {
    var blocks := RenderBlocks(s, now, clock, limit);
    forall i | 0 <= i < |blocks|
      ensures Headers(blocks[i]) == 1
    {
      OneHeader(s, s.groupById[Eligible(s, s.groups)[i]], now, clock, limit);
    }
    HeaderPerGroup(blocks);
  }
}

=== FILE: ui.dfy ===
/**
  The sequential side of the progress UI: how the mode is chosen, how the
  public calls turn into events on the ordered event stream, and what the
  plain-mode consumer does with each event it takes off that stream.

  A UI here is its mode, its closed flag, the last id its counter handed
  out, the writer's partial line, and the events sent so far, in order.
  Every call that reads the clock takes the reading as `now`.
 */
module Ui {
  import opened Base
  import opened Events
  import opened State
  import opened Writer
  import opened Plain

  /** The output modes; the UI never runs in ModeAuto, it resolves it. */
  datatype Mode = ModeAuto | ModeOff | ModePlain | ModeTTY

  /** resolveMode: Off and Plain are kept; TTY and Auto give TTY only when the terminal can be controlled. */
  function ResolveMode(requested: Mode, control: bool): (m: Mode)
    ensures m != ModeAuto
    ensures m == ModeOff <==> requested == ModeOff
    ensures m == ModeTTY <==> (requested == ModeTTY || requested == ModeAuto) && control
  {
    match requested
    case ModeOff => ModeOff
    case ModePlain => ModePlain
    case ModeTTY => if control then ModeTTY else ModePlain
    case ModeAuto => if control then ModeTTY else ModePlain
  }

  /** The mode New settles on, and whether it will control the terminal. */
  datatype Resolved = Resolved(mode: Mode, control: bool)

  /** New's choice: a TTY needs a real file as output; otherwise it falls back to plain. */
  function ResolveNew(requested: Mode, control: bool, isFile: bool): (r: Resolved)
    ensures r.mode != ModeAuto
    ensures r.mode == ModeOff <==> requested == ModeOff
    ensures r.mode == ModeTTY <==> (requested == ModeTTY || requested == ModeAuto) && control && isFile
    ensures r.control <==> r.mode == ModeTTY
  {
    var actual := ResolveMode(requested, control);
    var actual' := if actual == ModeTTY && !isFile then ModePlain else actual;
    Resolved(actual', actual' == ModeTTY)
  }

  /** The sequential state of one UI. */
  datatype UI = UI(mode: Mode, closed: bool, lastId: nat, buffer: string, sent: seq<Event>)

  /** A freshly created UI. */
  function New(requested: Mode, control: bool, isFile: bool): (u: UI)
    ensures u.mode == ResolveNew(requested, control, isFile).mode
    ensures !u.closed && u.lastId == 0 && u.buffer == "" && u.sent == []
  {
    UI(ResolveNew(requested, control, isFile).mode, false, 0, "", [])
  }

  /** Whether emit lets an event through: the UI is open and not in ModeOff. */
  predicate Delivers(u: UI)
  {
    !u.closed && u.mode != ModeOff
  }

  /** An event without a time gets the current one. */
  function Stamp(e: Event, now: Time): (r: Event)
    ensures r == e.(at := r.at)
    ensures e.at != 0 ==> r.at == e.at
    ensures e.at == 0 ==> r.at == now
  {
    if e.at == 0 then e.(at := now) else e
  }

  /** emit: one stamped event at the end of the stream, or nothing on a closed or silent UI. */
  function Emit(u: UI, now: Time, e: Event): (r: UI)
    ensures r == u.(sent := r.sent)
    ensures !Delivers(u) ==> r == u
    ensures Delivers(u) ==> r.sent == u.sent + [Stamp(e, now)]
  {
    if !Delivers(u) then u else u.(sent := u.sent + [Stamp(e, now)])
  }

  /** emitForced: as emit, but a closing UI still sends. */
  function EmitForced(u: UI, now: Time, e: Event): (r: UI)
    ensures r == u.(sent := r.sent)
    ensures u.mode == ModeOff ==> r == u
    ensures u.mode != ModeOff ==> r.sent == u.sent + [Stamp(e, now)]
  {
    if u.mode == ModeOff then u else u.(sent := u.sent + [Stamp(e, now)])
  }

  /** The next id of the UI's counter, which is incremented before use. */
  function NextId(u: UI): (r: (UI, nat))
    ensures r.1 == u.lastId + 1 && r.1 > 0 && r.0 == u.(lastId := r.1)
  {
    (u.(lastId := u.lastId + 1), u.lastId + 1)
  }

  /** A group handle: `attached` is false for the detached handle of a closed UI. */
  datatype Group = Group(attached: bool, id: nat, title: string)

  /** UI.Group: a new group id and its GroupAdd event, or a detached handle on a closed UI. */
  function NewGroup(u: UI, title: string, now: Time): (r: (UI, Group))
    ensures r.1.title == title
    ensures u.closed ==> r == (u, Group(false, 0, title))
    ensures !u.closed ==> r.1.attached && r.1.id == u.lastId + 1 && r.0.lastId == r.1.id
    ensures !u.closed ==> r.0 == Emit(u.(lastId := r.1.id), now, GroupAddOf(now, r.1.id, title))
  {
    if u.closed then (u, Group(false, 0, title))
    else
      var (u1, id) := NextId(u);
      (Emit(u1, now, GroupAddOf(now, id, title)), Group(true, id, title))
  }

  /** The GroupAdd event of a new group. */
  function GroupAddOf(now: Time, id: nat, title: string): (e: Event)
    ensures e.etype == GroupAddEvent && e.groupId == id && e.title == Some(title) && e.at == now
  {
    Bare(GroupAddEvent, now).(groupId := id, title := Some(title))
  }

  /**
    uiWriter.Write: the whole of `p` is always reported written. An open UI
    outside ModeOff feeds it to the line buffer and sends the completed
    lines, if any, as one print event.
   */
  function Write(u: UI, p: string, now: Time): (r: (UI, nat))
    ensures r.1 == |p|
    ensures !Delivers(u) ==> r.0 == u
    ensures Delivers(u) ==> r.0.buffer == Feed(u.buffer, p).rest && r.0.lastId == u.lastId && !r.0.closed
    ensures Delivers(u) && Feed(u.buffer, p).lines == [] ==> r.0.sent == u.sent
    ensures Delivers(u) && Feed(u.buffer, p).lines != [] ==> r.0.sent == u.sent + [PrintLinesOf(now, Feed(u.buffer, p).lines)]
  {
    if !Delivers(u) then (u, |p|)
    else
      var fed := Feed(u.buffer, p);
      var u1 := u.(buffer := fed.rest);
      if |fed.lines| > 0 then (Emit(u1, now, PrintLinesOf(now, fed.lines)), |p|) else (u1, |p|)
  }

  /** The drained partial line, as the lines it contributes to the next print event. */
  function Drained(u: UI): (r: seq<string>)
    ensures |r| <= 1
    ensures r == [] <==> Drain(u.buffer).0 == ""
    ensures r != [] ==> r[0] == Drain(u.buffer).0
  {
    var line := Drain(u.buffer).0;
    if line != "" then [line] else []
  }

  /**
    UI.PrintLines: on an open UI, the drained partial line (when not empty)
    and then `lines` go out as one print event; nothing goes out when both
    are empty, but the buffer is drained either way.
   */
  function PrintLines(u: UI, lines: seq<string>, now: Time): (r: UI)
    ensures u.closed ==> r == u
    ensures !u.closed ==> r.buffer == "" && r.lastId == u.lastId && r.mode == u.mode && !r.closed
    ensures !u.closed && Drained(u) + lines == [] ==> r.sent == u.sent
    ensures !u.closed && Drained(u) + lines != [] ==>
      r.sent == u.sent + (if u.mode == ModeOff then [] else [PrintLinesOf(now, Drained(u) + lines)])
  {
    if u.closed then u
    else
      var out := Drained(u) + lines;
      var u1 := u.(buffer := Drain(u.buffer).1);
      if |out| == 0 then u1 else Emit(u1, now, PrintLinesOf(now, out))
  }

  /** The Sync event carrying a waiter's id. */
  function SyncOf(now: Time, id: nat): (e: Event)
    ensures e.etype == SyncEvent && e.syncId == id && e.at == now && e.lines == []
  {
    Bare(SyncEvent, now).(syncId := id)
  }

  /**
    UI.Sync, without the waiting: an open UI outside ModeOff sends the
    drained partial line, then a Sync event with a fresh id.
   */
  function Sync(u: UI, now: Time): (r: UI)
    ensures !Delivers(u) ==> r == u
    ensures Delivers(u) ==> r.lastId == u.lastId + 1 && r.buffer == "" && r.mode == u.mode && !r.closed
    ensures Delivers(u) ==>
      r.sent == u.sent + (if Drained(u) == [] then [] else [PrintLinesOf(now, Drained(u))]) + [SyncOf(now, u.lastId + 1)]
  {
    if !Delivers(u) then u
    else
      var drained := Drained(u);
      var u1 := u.(buffer := Drain(u.buffer).1);
      var u2 := if |drained| > 0 then Emit(u1, now, PrintLinesOf(now, drained)) else u1;
      var (u3, id) := NextId(u2);
      u3.(sent := u3.sent + [SyncOf(now, id)])
  }

  /**
    UI.Close: the first call marks the UI closed and sends the drained
    partial line, if any, even though the UI is now closed; later calls
    change nothing.
   */
  function Close(u: UI, now: Time): (r: UI)
    ensures r.closed && r.mode == u.mode && r.lastId == u.lastId
    ensures u.closed ==> r == u
    ensures !u.closed ==> r.buffer == ""
    ensures !u.closed ==>
      r.sent == u.sent + (if Drained(u) == [] || u.mode == ModeOff then [] else [PrintLinesOf(now, Drained(u))])
  {
    if u.closed then u
    else
      var drained := Drained(u);
      var u1 := u.(closed := true, buffer := Drain(u.buffer).1);
      if |drained| > 0 then EmitForced(u1, now, PrintLinesOf(now, drained)) else u1
  }

  // ---------------------------------------------------------------------
  // What the UI promises
  // ---------------------------------------------------------------------

  /** Close is idempotent: a second call, at any time, changes nothing. */
  lemma CloseIdempotent(u: UI, now1: Time, now2: Time)
    ensures Close(Close(u, now1), now2) == Close(u, now1)
  {
  }

  /** A closed UI sends nothing more, whatever is called on it. */
  lemma ClosedIsSilent(u: UI, now: Time, title: string, p: string, lines: seq<string>, e: Event)
    requires u.closed
    ensures Emit(u, now, e) == u && NewGroup(u, title, now).0 == u && !NewGroup(u, title, now).1.attached
    ensures Write(u, p, now).0 == u && PrintLines(u, lines, now) == u && Sync(u, now) == u && Close(u, now) == u
  {
  }

  /** The partial line never holds a newline, whatever the calls. */
  ghost predicate BufferInvariant(u: UI)
  {
    '\n' !in u.buffer && (u.mode == ModeOff ==> u.buffer == "")
  }

  /** Every call keeps the partial line free of newlines, and empty in ModeOff. */
  lemma CallsKeepBuffer(u: UI, now: Time, title: string, p: string, lines: seq<string>, e: Event)
    requires BufferInvariant(u)
    ensures BufferInvariant(Emit(u, now, e)) && BufferInvariant(NewGroup(u, title, now).0)
    ensures BufferInvariant(Write(u, p, now).0) && BufferInvariant(PrintLines(u, lines, now))
    ensures BufferInvariant(Sync(u, now)) && BufferInvariant(Close(u, now))
  {
  }

  /**
    Whatever is written reaches the stream: two writes and a close send the
    lines of both writes and then the tail, exactly as writing both at once
    and closing would.
   */
  lemma WritesThenClose(u: UI, p1: string, p2: string, now: Time)
    requires Delivers(u)
    ensures var a := Write(Write(u, p1, now).0, p2, now).0; var b := Write(u, p1 + p2, now).0;
      a.buffer == b.buffer && Lines(a.sent[|u.sent|..]) == Lines(b.sent[|u.sent|..])
      && Close(a, now).sent[|a.sent|..] == Close(b, now).sent[|b.sent|..]
  {
    TwoWrites(u.buffer, p1, p2);
    var f1 := Feed(u.buffer, p1);
    var f2 := Feed(f1.rest, p2);
    var u1 := Write(u, p1, now).0;
    var a := Write(u1, p2, now).0;
    var b := Write(u, p1 + p2, now).0;
    assert u1.sent[|u.sent|..] == (if f1.lines == [] then [] else [PrintLinesOf(now, f1.lines)]);
    assert a.sent[|u.sent|..] == u1.sent[|u.sent|..] + (if f2.lines == [] then [] else [PrintLinesOf(now, f2.lines)]);
    LinesAppend(u1.sent[|u.sent|..], if f2.lines == [] then [] else [PrintLinesOf(now, f2.lines)]);
  }

  /** The printed lines a sequence of events carries, in order. */
  function Lines(es: seq<Event>): (r: seq<string>)
    ensures |es| == 0 ==> r == []
  {
    if |es| == 0 then [] else Lines(es[..|es| - 1]) + es[|es| - 1].lines
  }

  lemma {:induction false} LinesAppend(a: seq<Event>, b: seq<Event>)
    ensures Lines(a + b) == Lines(a) + Lines(b)
    decreases |b|
  {
    if |b| > 0 {
      assert (a + b)[..|a + b| - 1] == a + b[..|b| - 1];
      LinesAppend(a, b[..|b| - 1]);
    } else {
      assert a + b == a;
    }
  }

  // ---------------------------------------------------------------------
  // The plain-mode consumer
  // ---------------------------------------------------------------------

  /**
    What the plain consumer has: the engine state, the lines printed, the
    event log (None when there is none) and the ids of the Sync events it
    has answered.
   */
  datatype Consumer = Consumer(engine: EngineState, out: seq<string>, log: Option<seq<(Time, Event)>>, answered: seq<nat>)

  /** The time an event is processed at: its own, or the clock's when it has none. */
  function EventTime(e: Event, clock: Time): (t: Time)
    ensures e.at != 0 ==> t == e.at
    ensures e.at == 0 ==> t == clock
  {
    if e.at == 0 then clock else e.at
  }

  /** The log entry of an event: eventLogSink.write stamps an unstamped event. */
  function LogEntry(e: Event, now: Time): (Time, Event)
  {
    (now, Stamp(e, now))
  }

  /**
    processPlainEvent: a Sync event only answers its waiter (id 0 answers
    nothing); every other event is logged, applied to the engine, and
    rendered.
   */
  function ProcessPlainEvent(c: Consumer, clock: Time, e: Event, f: Fmt): (r: Consumer)
    ensures e.etype.SyncEvent? ==> r.engine == c.engine && r.out == c.out && r.log == c.log
    ensures e.etype.SyncEvent? ==> r.answered == c.answered + (if e.syncId == 0 then [] else [e.syncId])
    ensures !e.etype.SyncEvent? ==> r.answered == c.answered && r.log.Some? == c.log.Some?
    ensures !e.etype.SyncEvent? && c.log.Some? ==> r.log.value == c.log.value + [LogEntry(e, EventTime(e, clock))]
    ensures !e.etype.SyncEvent? ==>
      var now := EventTime(e, clock);
      var rendered := RenderEvent(now, e, ApplyEvent(c.engine, clock, now, e), f);
      r.engine == rendered.state && r.out == c.out + rendered.lines
  {
    var now := EventTime(e, clock);
    var logged := if c.log.Some? && !e.etype.SyncEvent? then Some(c.log.value + [LogEntry(e, now)]) else c.log;
    if e.etype.SyncEvent? then
      c.(answered := c.answered + (if e.syncId == 0 then [] else [e.syncId]))
    else
      var applied := ApplyEvent(c.engine, clock, now, e);
      var rendered := RenderEvent(now, e, applied, f);
      Consumer(rendered.state, c.out + rendered.lines, logged, c.answered)
  }

  /** runPlain: the events, in the order they were sent, one after another. */
  function RunPlain(c: Consumer, clock: Time, es: seq<Event>, f: Fmt): Consumer
    decreases |es|
  {
    if |es| == 0 then c else ProcessPlainEvent(RunPlain(c, clock, es[..|es| - 1], f), clock, es[|es| - 1], f)
  }

  /** The events of a stream that are not Sync events. */
  function NonSync(es: seq<Event>): (r: seq<Event>)
    ensures |r| <= |es|
    ensures forall i :: 0 <= i < |r| ==> !r[i].etype.SyncEvent?
  {
    if |es| == 0 then []
    else NonSync(es[..|es| - 1]) + (if es[|es| - 1].etype.SyncEvent? then [] else [es[|es| - 1]])
  }

  /** The nonzero waiter ids of a stream's Sync events, in order. */
  function SyncIds(es: seq<Event>): (r: seq<nat>)
    ensures forall i :: 0 <= i < |r| ==> r[i] != 0
  {
    if |es| == 0 then []
    else
      var e := es[|es| - 1];
      SyncIds(es[..|es| - 1]) + (if e.etype.SyncEvent? && e.syncId != 0 then [e.syncId] else [])
  }

  /** The log entries of a sequence of events, each at its processing time. */
  function LogOf(es: seq<Event>, clock: Time): (r: seq<(Time, Event)>)
    ensures |r| == |es|
  {
    if |es| == 0 then [] else LogOf(es[..|es| - 1], clock) + [LogEntry(es[|es| - 1], EventTime(es[|es| - 1], clock))]
  }

  /**
    Over a whole stream, the log holds exactly the non-Sync events, in
    order, and the Sync events answer their waiters in order and never
    reach the engine or the output.
   */
  lemma {:induction false} RunPlainLogsAllButSync(c: Consumer, clock: Time, es: seq<Event>, f: Fmt)
    requires c.log.Some?
    ensures var r := RunPlain(c, clock, es, f);
      && r.log == Some(c.log.value + LogOf(NonSync(es), clock))
      && r.answered == c.answered + SyncIds(es)
    decreases |es|
  {
    if |es| > 0 {
      var init := es[..|es| - 1];
      var e := es[|es| - 1];
      RunPlainLogsAllButSync(c, clock, init, f);
      if !e.etype.SyncEvent? {
        var ns := NonSync(init) + [e];
        assert ns[..|ns| - 1] == NonSync(init);
        assert NonSync(es) == ns;
        var entry := LogEntry(e, EventTime(e, clock));
        assert LogOf(ns, clock) == LogOf(NonSync(init), clock) + [entry];
        var prev := RunPlain(c, clock, init, f);
        assert RunPlain(c, clock, es, f) == ProcessPlainEvent(prev, clock, e, f);
        assert prev.log.value == c.log.value + LogOf(NonSync(init), clock);
        assert c.log.value + LogOf(NonSync(init), clock) + [entry] == c.log.value + LogOf(ns, clock);
      } else {
        assert NonSync(es) == NonSync(init);
      }
    } else {
      assert c.log.value + LogOf(NonSync(es), clock) == c.log.value;
    }
  }

  /** A stream of Sync events only changes nothing but the answered ids. */
  lemma {:induction false} SyncOnlyStream(c: Consumer, clock: Time, es: seq<Event>, f: Fmt)
    requires forall i :: 0 <= i < |es| ==> es[i].etype.SyncEvent?
    ensures RunPlain(c, clock, es, f) == c.(answered := c.answered + SyncIds(es))
    decreases |es|
  {
    if |es| > 0 {
      SyncOnlyStream(c, clock, es[..|es| - 1], f);
    }
  }

  /** Print events reach the output verbatim and in order: the output is their lines. */
  lemma {:induction false} PrintStreamVerbatim(c: Consumer, clock: Time, es: seq<Event>, f: Fmt)
    requires forall i :: 0 <= i < |es| ==> es[i].etype.PrintLinesEvent?
    ensures RunPlain(c, clock, es, f).out == c.out + Lines(es)
    ensures RunPlain(c, clock, es, f).engine == c.engine
    decreases |es|
  {
    if |es| > 0 {
      PrintStreamVerbatim(c, clock, es[..|es| - 1], f);
    }
  }
}

=== FILE: writer.dfy ===
/**
  The line buffer behind `UI.Writer()`: bytes are buffered until a newline
  completes a line, every completed line loses one trailing carriage
  return, and whatever follows the last newline waits for the next write.
 */
module Writer {
  import opened Text

  /** The text a write leaves behind, and the lines it completes. */
  datatype Fed = Fed(lines: seq<string>, rest: string)

  /** strings.TrimSuffix(line, "\r") on each line. */
  function TrimEach(ls: seq<string>): (r: seq<string>)
    ensures |r| == |ls| && forall i :: 0 <= i < |ls| ==> r[i] == TrimCR(ls[i])
  {
    seq(|ls|, i requires 0 <= i < |ls| => TrimCR(ls[i]))
  }

  function Last(ps: seq<string>): string
    requires |ps| >= 1
  {
    ps[|ps| - 1]
  }

  function AllButLast(ps: seq<string>): seq<string>
    requires |ps| >= 1
  {
    ps[..|ps| - 1]
  }

  /**
    What writing `p` after the buffered `buf` does: the buffer and `p`
    together are cut at every newline; the pieces before the last one are
    the completed lines, and the last piece is the new buffer.
   */
  function Feed(buf: string, p: string): (r: Fed)
    ensures '\n' !in r.rest
    ensures forall i :: 0 <= i < |r.lines| ==> '\n' !in r.lines[i]
  {
    var pieces := Split(buf + p, '\n');
    SplitPieces(buf + p, '\n');
    Fed(TrimEach(AllButLast(pieces)), Last(pieces))
  }

  /**
    uiWriter.Write's loop: look for the next newline in what is left of
    `p`; complete the buffered line with what precedes it, or buffer the
    tail when there is none.
   */
  method WriteLoop(buf: string, p: string) returns (lines: seq<string>, rest: string)
    requires '\n' !in buf
    ensures Fed(lines, rest) == Feed(buf, p)
  {
    lines := [];
    rest := buf;
    var q := p;
    ghost var done: seq<string> := [];
    while |q| > 0
      invariant '\n' !in rest && NewlineFree(done)
      invariant buf + p == Terminated(done, '\n') + rest + q
      invariant lines == TrimEach(done)
      decreases |q|
    {
      var i := IndexOf(q, '\n');
      if i < 0 {
        rest := rest + q;
        q := [];
      } else {
        var line := rest + q[..i];
        StepLine(done, rest, q, i);
        done := done + [line];
        lines := lines + [TrimCR(line)];
        rest := [];
        q := q[i + 1..];
      }
    }
    FeedDone(buf, p, done, rest);
  }

  /** One pass of the loop that finds a newline keeps the text accounted for. */
  lemma StepLine(done: seq<string>, rest: string, q: string, i: nat)
    requires i < |q| && q[i] == '\n'
    ensures Terminated(done + [rest + q[..i]], '\n') + [] + q[i + 1..] == Terminated(done, '\n') + rest + q
  {
    TerminatedAppend(done, rest + q[..i]);
    assert q == q[..i] + "\n" + q[i + 1..];
  }

  /** When all of `p` is consumed, the loop's lines and buffer are those of Feed. */
  lemma FeedDone(buf: string, p: string, done: seq<string>, rest: string)
    requires NewlineFree(done) && '\n' !in rest
    requires buf + p == Terminated(done, '\n') + rest + []
    ensures Fed(TrimEach(done), rest) == Feed(buf, p)
  {
    assert buf + p == Terminated(done, '\n') + rest + "";
    SplitTerminated(done, rest);
  }

  /** No piece contains a newline. */
  predicate NewlineFree(ps: seq<string>)
  {
    forall k :: 0 <= k < |ps| ==> '\n' !in ps[k]
  }

  lemma {:induction false} TerminatedAppend(ps: seq<string>, x: string)
    ensures Terminated(ps + [x], '\n') == Terminated(ps, '\n') + x + "\n"
    decreases |ps|
  {
    if |ps| > 0 {
      assert (ps + [x])[1..] == ps[1..] + [x];
      TerminatedAppend(ps[1..], x);
    }
  }

  /** Newline-free lines, each terminated, then a newline-free tail, split back into themselves. */
  lemma SplitTerminated(ps: seq<string>, tail: string)
    requires NewlineFree(ps) && '\n' !in tail
    ensures Feed(Terminated(ps, '\n') + tail, "") == Fed(TrimEach(ps), tail)
  {
    var parts := ps + [tail];
    JoinTerminated(parts);
    assert AllButLast(parts) == ps;
    SplitJoin(parts, '\n');
    assert Terminated(ps, '\n') + tail + "" == Join(parts, '\n');
  }

  /** A text without the separator splits into itself. */
  lemma NoSeparator(s: string)
    requires '\n' !in s
    ensures Split(s, '\n') == [s]
  {
  }

  /** The first newline of `q`, after a newline-free prefix, ends the first piece. */
  lemma SplitAtFirst(x: string, q: string, i: nat)
    requires '\n' !in x && i < |q| && q[i] == '\n' && '\n' !in q[..i]
    ensures Split(x + q, '\n') == [x + q[..i]] + Split(q[i + 1..], '\n')
  {
    var s := x + q;
    var k := |x| + i;
    assert s[..k] == x + q[..i];
    assert s[k] == '\n';
    IndexOfAt(s, '\n', k);
    assert s[k + 1..] == q[i + 1..];
    SplitUnfold(s, '\n', k);
  }

  /**
    Splitting a concatenation: the pieces of `a` but its last, then the
    pieces of that last piece followed by `b`.
   */
  lemma {:induction false} SplitAppend(a: string, b: string, c: char)
    ensures Split(a + b, c) == AllButLast(Split(a, c)) + Split(Last(Split(a, c)) + b, c)
    decreases |a|
  {
    var i := IndexOf(a, c);
    if i >= 0 {
      SplitAfterFirst(a, b, c, i);
      SplitUnfold(a, c, i);
      SplitAppend(a[i + 1..], b, c);
      var tail := Split(a[i + 1..], c);
      ConsSplice(a[..i], tail, Split(Last(tail) + b, c), Split(a[i + 1..] + b, c));
    } else {
      assert Split(a, c) == [a];
    }
  }

  /** The first separator of `a` is also the first of `a + b`. */
  lemma SplitAfterFirst(a: string, b: string, c: char, i: int)
    requires i == IndexOf(a, c) && i >= 0
    ensures Split(a + b, c) == [a[..i]] + Split(a[i + 1..] + b, c)
  {
    var s := a + b;
    assert s[i] == c && s[..i] == a[..i];
    IndexOfAt(s, c, i);
    SplitUnfold(s, c, i);
    assert s[i + 1..] == a[i + 1..] + b;
  }

  // ---------------------------------------------------------------------
  // What the buffer promises
  // ---------------------------------------------------------------------

  /** A write without a newline completes nothing and only grows the buffer. */
  lemma NoNewlineBuffers(buf: string, p: string)
    requires '\n' !in buf && '\n' !in p
    ensures Feed(buf, p) == Fed([], buf + p)
  {
    NoSeparator(buf + p);
  }

  /** A lone newline after an empty buffer is one blank line. */
  lemma BlankLine()
    ensures Feed("", "\n") == Fed([""], "")
  {
    assert "" + "\n" == "\n";
    SplitAtFirst("", "\n", 0);
    NoSeparator("");
  }

  /**
    Nothing is lost or reordered: the completed lines, each followed by a
    newline, then the new buffer, give back the buffer and the write, except
    for the one carriage return stripped from each line.
   */
  lemma FeedRoundTrip(buf: string, p: string)
    ensures var pieces := Split(buf + p, '\n');
      && Terminated(AllButLast(pieces), '\n') + Feed(buf, p).rest == buf + p
      && Feed(buf, p).lines == TrimEach(AllButLast(pieces))
    ensures '\r' !in buf + p ==> Terminated(Feed(buf, p).lines, '\n') + Feed(buf, p).rest == buf + p
  {
    var pieces := Split(buf + p, '\n');
    JoinSplit(buf + p, '\n');
    JoinTerminated(pieces);
    if '\r' !in buf + p {
      NoCarriageReturn(buf + p, pieces);
    }
  }

  /** A join is the pieces but the last, each terminated, then the last. */
  lemma {:induction false} JoinTerminated(ps: seq<string>)
    requires |ps| >= 1
    ensures Join(ps, '\n') == Terminated(AllButLast(ps), '\n') + Last(ps)
    decreases |ps|
  {
    if |ps| > 1 {
      JoinTerminated(ps[1..]);
      assert AllButLast(ps) == [ps[0]] + AllButLast(ps[1..]);
      assert AllButLast(ps)[1..] == AllButLast(ps[1..]);
    }
  }

  /** Without carriage returns in the text, no piece loses anything. */
  lemma NoCarriageReturn(s: string, pieces: seq<string>)
    requires '\r' !in s && pieces == Split(s, '\n')
    ensures TrimEach(AllButLast(pieces)) == AllButLast(pieces)
  {
    JoinSplit(s, '\n');
    forall i | 0 <= i < |pieces| - 1
      ensures TrimCR(pieces[i]) == pieces[i]
    {
      PieceWithin(pieces, i);
      if |pieces[i]| > 0 {
        assert pieces[i][|pieces[i]| - 1] in pieces[i];
      }
    }
  }

  /** Every character of a piece occurs in the joined text. */
  lemma {:induction false} PieceWithin(ps: seq<string>, i: nat)
    requires i < |ps|
    ensures forall ch :: ch in ps[i] ==> ch in Join(ps, '\n')
    decreases |ps|
  {
    if |ps| > 1 {
      if i > 0 {
        PieceWithin(ps[1..], i - 1);
      }
    }
  }

  /**
    Two writes complete the same lines, and leave the same buffer, as one
    write of both: the bytes after the last newline prefix the next line.
   */
  lemma TwoWrites(buf: string, p1: string, p2: string)
    ensures var first := Feed(buf, p1); var second := Feed(first.rest, p2);
      first.lines + second.lines == Feed(buf, p1 + p2).lines && second.rest == Feed(buf, p1 + p2).rest
  {
    var a := buf + p1;
    assert buf + (p1 + p2) == a + p2;
    SplitAppend(a, p2, '\n');
    var pa := Split(a, '\n');
    var pb := Split(Last(pa) + p2, '\n');
    AllButLastAppend(AllButLast(pa), pb);
    TrimEachAppend(AllButLast(pa), AllButLast(pb));
  }

  /** Putting a piece in front commutes with splicing after the last piece. */
  lemma ConsSplice(h: string, t: seq<string>, y: seq<string>, u: seq<string>)
    requires |t| >= 1 && u == AllButLast(t) + y
    ensures [h] + u == AllButLast([h] + t) + y && Last([h] + t) == Last(t)
  {
    assert AllButLast([h] + t) == [h] + AllButLast(t);
  }

  lemma AllButLastAppend(xs: seq<string>, ys: seq<string>)
    requires |ys| >= 1
    ensures AllButLast(xs + ys) == xs + AllButLast(ys) && Last(xs + ys) == Last(ys)
  {
    assert (xs + ys)[..|xs + ys| - 1] == xs + ys[..|ys| - 1];
  }

  lemma TrimEachAppend(xs: seq<string>, ys: seq<string>)
    ensures TrimEach(xs + ys) == TrimEach(xs) + TrimEach(ys)
  {
  }

  /** drainBufferedLine: the buffered text without one trailing carriage return; the buffer empties. */
  function Drain(buf: string): (r: (string, string))
    ensures r.1 == "" && (r.0 == buf || buf == r.0 + "\r")
  {
    (TrimCR(buf), "")
  }
}
